=== FILE: README.md ===
# CDB tiles, composites and model ledgers for osgEarth

This project models the core of the osgEarth CDB plugins in Dafny. These
plugins read a Common Database (CDB) store: a directory tree of geocell
tiles at integer levels of detail (LODs). The model covers five parts.

- **Tile addressing** (`Geocells`, `TileNames`, `TileKeys`, `ModelNames`).
  - Geocell widths by latitude zone.
  - Deriving a tile's LOD, geocell directory, row and column from its extent.
  - The path tokens and file names of a tile.
  - The numeric tile key read back from a file name.
  - The names of 3D-model files and archive members.
- **Tile assembly** (`Contribution`, `PixelSampling`, `TileLifecycle`, `Composite`).
  - How much of a target extent a stored tile supplies.
  - Which buffer cells the pixel readers touch.
  - A tile's buffers and datasets through allocate, open, read, fill, close and free.
  - The three ways a tile is assembled from other tiles: `Build_From_Tiles`, `Build_Cache_Tile` and `Build_Earth_Tile`.
- **The image layer driver** (`Driver`).
  - The profile built from the `Limits` option or the world profile.
  - The LOD and cache settings.
  - The dispatch of a read between loading, building and blacklisting.
- **The feature source** (`FeatureSource`, `FeatureLedger`).
  - The settings fixed when the source opens.
  - The feature cursor with its placeholder and blacklist.
  - The per-feature decision whether a model instance is emitted.
  - The two ledgers kept across tiles:
    - the *referenced* ledger, of model instances already placed at some LOD;
    - the *unreferenced* ledger, of archive members no feature has claimed yet.
- **The global model manager** (`ModelManager`). The replacement stack, the retired-model map and the per-URI load status.

How the C++ is modelled:

- `double` values are exact `real`s.
- `(int)` casts are `Numerics.Trunc`, which truncates toward zero.
- `round` is `Numerics.Round`, which rounds halves away from zero.
- C's `%` is `Numerics.CMod`.
- Output-stream formatting under `setfill('0')`/`setw` is `Numerics.Fmt`.
- `atoi` is `Numerics.Atoi`.
- GDAL/OGR datasets become booleans saying which dataset is open, plus parameters saying whether a file exists or opens.
- Pixel values are not modelled. Buffers are modelled as the set of bands present.
- The ledgers and maps are Dafny `map`s of sequences, in insertion order.

Points where the code does something easy to misread:

- **`Get_Contribution`.** A corner-only classification would call a target lying inside the candidate "None". The code falls back to an interval test, so that case is `Full`.
  - `Contribution.NoneIffDisjoint` proves None exactly for disjoint extents.
  - `Contribution.FullIffCovered` proves Full exactly when the target lies within the candidate.
- **Geocells fully inside a cache tile.** They are not full contributors. In the code, `Full` means the *target* lies within the contributor, so these geocells are `Partial`.
- **Ledger lookups.** The code's `mind` variable suggests the nearest lower LOD should win, but the code takes the last qualifying entry. Both lookups are modelled, and the per-feature decision `FeatureSource.Place` takes a `Versions.Version` that selects the lookups as written or corrected. This is reported under Findings.
- **Cache enumeration.** It also visits cells whose western or southern edge lies exactly on the cache tile's eastern or northern edge. Such a cell contributes nothing.
- **Models on record only from a lower LOD.** A geospecific feature whose model exists only at a lower LOD gets that LOD's name as `osge_modelname`, but it is not emitted: `valid_model` stays false (`FeatureSource.LowerLodInstanceNotEmitted`).

## Model

| member | source | states |
|---|---|---|
| Geocells.LonStep | src/osgEarthCDB/CDB_TileLIb/CDB_Tile.cpp:2642-2678 | The geocell width at a latitude is one of 1, 2, 3, 4, 6, 12 degrees and divides 360 |
| Geocells.LonStepByZone | src/osgEarthCDB/CDB_TileLIb/CDB_Tile.cpp:2642-2678 | Get_Lon_Step agrees with the zone table: the step is that of the number of zone edges the latitude's magnitude has reached, with northern edges closed below and southern ones above |
| Geocells.LonStepLowLatitudes | src/osgEarthCDB/CDB_TileLIb/CDB_Tile.cpp:2642-2678 | Strictly between 50 degrees south and north, geocells are one degree wide |
| Geocells.LonStepEdgeAsymmetry | src/osgEarthCDB/CDB_TileLIb/CDB_Tile.cpp:2642-2678 | The 50-degree edge belongs to the 2-degree zone in the north but the 1-degree zone in the south; at 89 degrees the steps are 12 north and 6 south |
| Geocells.LonStepSymmetric | src/osgEarthCDB/CDB_TileLIb/CDB_Tile.cpp:2642-2678 | Away from zone edges both hemispheres give the same step |
| Geocells.LonStepMonotone | src/osgEarthCDB/CDB_TileLIb/CDB_Tile.cpp:2642-2678 | Geocells never get narrower towards either pole |
| Geocells.LonStepConstantInBand | src/osgEarthCDB/CDB_TileLIb/CDB_Tile.cpp:2642-2678 | Every latitude in the one-degree band above a whole latitude has that latitude's step |
| Geocells.Halvings | src/osgEarthCDB/CDB_TileLIb/CDB_Tile.cpp:984-988 | The `while (n > 1) n /= 2` count is floor(log2 n): 2^k <= n < 2^(k+1) |
| Geocells.HalvingsOfPow2 | src/osgEarthCDB/CDB_TileLIb/CDB_Tile.cpp:1001-1006 | Halving 2^k down to 1 takes exactly k passes |
| Geocells.LodNumFromExtent | src/osgEarthCDB/CDB_TileLIb/CDB_Tile.cpp:849-883 | The LOD is negative exactly when fewer than 0.99 tiles fit in a degree; a negative LOD counts the halvings of half the height, a non-negative one those of the tiles per degree |
| Geocells.LodOfNativeHeight | src/osgEarthCDB/CDB_TileLIb/CDB_Tile.cpp:849-883 | Round trip: a tile 1/2^k degrees tall gets LOD k |
| Geocells.LodOfCacheHeight | src/osgEarthCDB/CDB_TileLIb/CDB_Tile.cpp:849-883 | Round trip: a cache tile 2^k degrees tall (k >= 1) gets LOD -k |
| Geocells.PathLod | src/osgEarthCDB/CDB_TileLIb/CDB_Tile.cpp:969-1009 | GetPathComponents keeps the LOD passed in for a tile of at most a geocell under 1024 pixels wide and otherwise derives it from the extent |
| Geocells.GeocellWestOnGrid | src/osgEarthCDB/CDB_TileLIb/CDB_Tile.cpp:1022-1039 | The western geocell edge computed from a tile's west is the multiple of the zone step at or just below it, in both hemispheres |
| Geocells.GeocellSouth | src/osgEarthCDB/CDB_TileLIb/CDB_Tile.cpp:1016-1018 | The southern geocell edge is the whole degree at or below the tile's south |
| Geocells.DirectoryOf | src/osgEarthCDB/CDB_TileLIb/CDB_Tile.cpp:1049-1071 | The directory of a coordinate is its floor, or the next whole degree when it lies less than DBL_EPSILON below it; a whole value is its own directory |
| Geocells.DirectoryAwayFromNextDegree | src/osgEarthCDB/CDB_TileLIb/CDB_Tile.cpp:1049-1071 | A value at least DBL_EPSILON below the next whole degree has its floor as directory |
| Geocells.Locate | src/osgEarthCDB/CDB_TileLIb/CDB_Tile.cpp:965-1105 | The location of a tile is its path LOD, the directory of its south, row and column 0 at LOD 0 and below, and otherwise the directory of its geocell's western edge |
| Geocells.TileExtent | src/osgEarthCDB/CDB_TileLIb/CDB_Tile.cpp:965-1105 | Every row and column of every LOD in every geocell has a tile extent |
| Geocells.LocateTile | src/osgEarthCDB/CDB_TileLIb/CDB_Tile.cpp:965-1105 | Round trip: GetPathComponents applied to the tile at (row, column) of native LOD k in a geocell gives back that geocell, LOD, row and column |
| Geocells.TileRowOf | src/osgEarthCDB/CDB_TileLIb/CDB_Tile.cpp:1014-1020 | The row half of that round trip: a tile's south lies in its geocell's band, with the band's step, and its row is recovered |
| Geocells.TileColumnOf | src/osgEarthCDB/CDB_TileLIb/CDB_Tile.cpp:1022-1042 | The column half: the tile's geocell west edge is recovered, and so is its column |
| TileNames.LatToken | src/osgEarthCDB/CDB_TileLIb/CDB_Tile.cpp:1071-1075 | The latitude token is 'S' exactly for a negative directory, else 'N', and for two-digit values exactly two digits holding the magnitude |
| TileNames.LonToken | src/osgEarthCDB/CDB_TileLIb/CDB_Tile.cpp:1057-1061 | The longitude token is 'W' exactly for a negative directory, else 'E', and for values up to three digits exactly three digits holding the magnitude |
| TileNames.LodToken | src/osgEarthCDB/CDB_TileLIb/CDB_Tile.cpp:1077-1083 | The LOD token has a 'C' after 'L' exactly for negative LODs, then at least two digits of the magnitude |
| TileNames.LatTokenRoundTrip | src/osgEarthCDB/CDB_TileLIb/CDB_Tile.cpp:1071-1075 | Reading a latitude token back (sign from the letter, magnitude from the digits) gives the directory |
| TileNames.LonTokenRoundTrip | src/osgEarthCDB/CDB_TileLIb/CDB_Tile.cpp:1057-1061 | Reading a longitude token back gives the directory |
| TileNames.LodTokenRoundTrip | src/osgEarthCDB/CDB_TileLIb/CDB_Tile.cpp:1077-1083 | Reading a LOD token back gives the LOD, negative for "LC" |
| TileNames.IndexRef | src/osgEarthCDB/CDB_TileLIb/CDB_Tile.cpp:1085-1103 | The row token is "U0" and the column token "R0" at LOD 0 and below; above, each is its letter plus the row's or column's decimal digits |
| TileNames.PathTokens | src/osgEarthCDB/CDB_TileLIb/CDB_Tile.cpp:1057-1103 | The five path components carry the hemisphere letters of the directories, the 'C' of a cache LOD, and "U0"/"R0" below LOD 1 |
| TileNames.Layer | src/osgEarthCDB/CDB_TileLIb/CDB_Tile.cpp:110-180 | The constructor's layer table: a cache kind exactly for a negative LOD requested without a cache level, Unknown exactly for unsupported types, a "_D" dataset code ending in the selectors, an extension starting with '.' |
| TileNames.TileFileName | src/osgEarthCDB/CDB_TileLIb/CDB_Tile.cpp:183-292 | A tile's file name is its directory, a backslash, and its base name; with global data it is the layer name, selectors, "Pnt_" and the LOD token instead |
| TileNames.TileKeyValue | src/osgEarthCDB/CDB_TileLIb/CDB_Tile.cpp:885-963 | Get_TileKeyValue fails (substr throws) exactly when the last path component is shorter than four characters |
| TileNames.KeyOfName | src/osgEarthCDB/CDB_TileLIb/CDB_Tile.cpp:885-963 | On a bare file name the key is -1 when the name is exactly four characters or lacks its row or column field |
| TileNames.TileKeyOfFile | src/osgEarthCDB/CDB_TileLIb/CDB_Tile.cpp:885-963 | Round trip: the key text read back from any tile file in any directory, taken as an unbounded number, is the key of the latitude, longitude, row and column it was written with |
| TileNames.KeyOfPath | src/osgEarthCDB/CDB_TileLIb/CDB_Tile.cpp:887-895 | Get_TileKeyValue reads only the component after the last slash or backslash |
| TileKeys.KeyPositional | src/osgEarthCDB/CDB_TileLIb/CDB_Tile.cpp:946-961 | While longitude, row and column fit three digits, the key is lat·10^9 + lon·10^6 + row·10^3 + column |
| TileKeys.KeyInjective | src/osgEarthCDB/CDB_TileLIb/CDB_Tile.cpp:946-961 | Within those widths, equal keys mean equal fields |
| TileKeys.KeyCollision | src/osgEarthCDB/CDB_TileLIb/CDB_Tile.cpp:946-961 | As written, row 1001 with column 23 and row 100 with column 1023 give one key |
| TileKeys.TileKeyCollision | src/osgEarthCDB/CDB_TileLIb/CDB_Tile.cpp:885-963 | As written, two different LOD-10 tile files of one geocell get the same key |
| TileKeys.KeyPastInt64 | src/osgEarthCDB/CDB_TileLIb/CDB_Tile.cpp:946-961 | As written, from 10 degrees north a tile whose row and column reach seven digits (LOD 20 and deeper) has a key text worth more than 2^63 - 1, which `_atoi64` cannot return |
| TileKeys.RowsRunTogether | src/osgEarthCDB/CDB_TileLIb/CDB_Tile.cpp:885-963 | Any two tiles of different rows whose zero-padded row and column digits run together the same way have different file names and one key |
| TileKeys.PackedKeyFits | src/osgEarthCDB/CDB_TileLIb/CDB_Tile.cpp:885-963 | The corrected packed key of any in-range tile fits in a signed 64-bit integer |
| TileKeys.PackedKeyInjective | src/osgEarthCDB/CDB_TileLIb/CDB_Tile.cpp:885-963 | Distinct in-range tiles get distinct packed keys |
| TileKeys.PackedKeyOfName | src/osgEarthCDB/CDB_TileLIb/CDB_Tile.cpp:885-963 | The corrected Get_TileKeyValue fails exactly on names shorter than four characters and otherwise gives -1 or a key that fits in 64 bits |
| TileKeys.PackedKeyOfFile | src/osgEarthCDB/CDB_TileLIb/CDB_Tile.cpp:885-963 | Round trip: the corrected key read back from any tile file is the packed key of its fields |
| TileKeys.PackedKeysSeparateTiles | src/osgEarthCDB/CDB_TileLIb/CDB_Tile.cpp:885-963 | With the corrected key, two tile files share a key only when they name the same geocell, row and column |
| ModelNames.SetFileType | src/osgEarthCDB/CDB_TileLIb/CDB_Tile.cpp:3604-3614 | Empty for a name without '.'; otherwise the name up to its last '.', then the new type |
| ModelNames.XmlName | src/osgEarthCDB/CDB_TileLIb/CDB_Tile.cpp:3593-3602 | Xml_Name is empty exactly for names without a '.' |
| ModelNames.XmlNameIsSetFileType | src/osgEarthCDB/CDB_TileLIb/CDB_Tile.cpp:3593-3614 | Xml_Name is Set_FileType with ".xml" |
| ModelNames.SetFileTypeOf | src/osgEarthCDB/CDB_TileLIb/CDB_Tile.cpp:3604-3614 | Replacing the type of stem + type gives stem + the new type |
| ModelNames.SetFileTypeIdempotent | src/osgEarthCDB/CDB_TileLIb/CDB_Tile.cpp:3604-3614 | Setting a type twice is setting it once |
| ModelNames.ModelLod | src/osgEarthCDB/CDB_TileLIb/CDB_Tile.cpp:3760-3778 | The LOD text of a model file is its model set's own LOD when that is non-empty, and the tile's otherwise |
| ModelNames.ModelFileName | src/osgEarthCDB/CDB_TileLIb/CDB_Tile.cpp:3760-3778 | A model file name is the dataset header at that LOD followed by the Model_KeyName |
| ModelNames.ModelHeaderName | src/osgEarthCDB/CDB_TileLIb/CDB_Tile.cpp:3837-3848 | The model header is empty except for the two model tile types, where it is the tile's dataset header |
| ModelNames.ModelFileNameSplits | src/osgEarthCDB/CDB_TileLIb/CDB_Tile.cpp:3760-3848 | Without a model set LOD of its own, a model file name is the header followed by the key name |
| ModelNames.ArchiveValidateModelName | src/osgEarthCDB/CDB_TileLIb/CDB_Tile.cpp:2035-2047 | Empty when no archive member contains the name; otherwise the first member that does |
| ModelNames.SearchText | src/osgEarthCDB/CDB_TileLIb/CDB_Tile.cpp:3850-3872 | The search text is a prefix of the header, the whole header when it has no "_S" selector |
| ModelNames.KeyNameFromArchiveName | src/osgEarthCDB/CDB_TileLIb/CDB_Tile.cpp:3850-3872 | The key name is a suffix of the member name, and empty when the member does not contain the search text |
| ModelNames.KeyNameRoundTrip | src/osgEarthCDB/CDB_TileLIb/CDB_Tile.cpp:3850-3872 | Round trip: the key comes back out of a member named header + key |
| ModelNames.KeyNameIgnoresSelectors | src/osgEarthCDB/CDB_TileLIb/CDB_Tile.cpp:3850-3872 | A member whose header differs from the tile's only after the "_S" selector still yields its key |
| ModelNames.ArchivedModelKey | src/osgEarthCDB/CDB_TileLIb/CDB_Tile.cpp:3760-3872 | The archived model file of a model tile gives back its Model_KeyName |
| Contribution.CornerTest | src/osgEarthCDB/CDB_TileLIb/CDB_Tile.cpp:2836-2869 | Image_Is_Inside_Tile never says Full, and says Partial exactly when a candidate corner lies strictly inside the target |
| Contribution.GetContribution | src/osgEarthCDB/CDB_TileLIb/CDB_Tile.cpp:2814-2834 | Full only when the target lies within the candidate; None only when the two are apart |
| Contribution.CornerInsideMeetsTarget | src/osgEarthCDB/CDB_TileLIb/CDB_Tile.cpp:2836-2869 | A corner strictly inside the target is a point the extents share |
| Contribution.WithinHasNoCornerInside | src/osgEarthCDB/CDB_TileLIb/CDB_Tile.cpp:2836-2869 | A target within the candidate has none of the candidate's corners strictly inside it |
| Contribution.Classification | src/osgEarthCDB/CDB_TileLIb/CDB_Tile.cpp:2814-2861 | The classification without the corner test: None when apart, Full when the target lies within, Partial otherwise |
| Contribution.NoneIffDisjoint | src/osgEarthCDB/CDB_TileLIb/CDB_Tile.cpp:2814-2861 | None exactly when no point lies in both extents |
| Contribution.FullIffCovered | src/osgEarthCDB/CDB_TileLIb/CDB_Tile.cpp:2814-2861 | Full exactly when every point of the target lies in the candidate |
| PixelSampling.IndexInBounds | src/osgEarthCDB/CDB_TileLIb/CDB_Tile.cpp:3234-3236 | Every cell of the grid has an index inside the buffer |
| PixelSampling.Neighbours | src/osgEarthCDB/CDB_TileLIb/CDB_Tile.cpp:2908-3022 | The bilinear readers refuse exactly the positions whose truncation is off the grid; otherwise they read the truncated cell and its next neighbours, held at the last row and column |
| PixelSampling.NeighboursInBounds | src/osgEarthCDB/CDB_TileLIb/CDB_Tile.cpp:2908-3022 | All four cells read lie inside the buffer |
| PixelSampling.MaterialIndex | src/osgEarthCDB/CDB_TileLIb/CDB_Tile.cpp:3024-3055 | As written, the material and mask readers check the truncated position but read at the rounded one |
| PixelSampling.MaterialIndexPastEnd | src/osgEarthCDB/CDB_TileLIb/CDB_Tile.cpp:3024-3038 | As written, position (1023.5, 1023) of a 1024-square tile reads index 1024·1024, one past the buffer |
| PixelSampling.MaterialIndexBeforeStart | src/osgEarthCDB/CDB_TileLIb/CDB_Tile.cpp:3024-3038 | As written, position (-0.75, 0) reads index -1 |
| PixelSampling.NearestIndex | src/osgEarthCDB/CDB_TileLIb/CDB_Tile.cpp:3024-3055 | Corrected: the same refusals, and every index read lies inside the buffer |
| PixelSampling.NearestAgrees | src/osgEarthCDB/CDB_TileLIb/CDB_Tile.cpp:3024-3055 | The corrected reader reads the same cell as the original wherever the rounded position is on the grid |
| PixelSampling.NearestIsNeighbour | src/osgEarthCDB/CDB_TileLIb/CDB_Tile.cpp:3024-3055 | The corrected reader reads the truncated cell or one of its bilinear neighbours |
| TileLifecycle.Allocate | src/osgEarthCDB/CDB_TileLIb/CDB_Tile.cpp:1108-1152 | Allocate_Buffers leaves every buffer the tile's type and files need, adds no other, and changes nothing else |
| TileLifecycle.AllocateIdempotent | src/osgEarthCDB/CDB_TileLIb/CDB_Tile.cpp:1108-1152 | Allocating twice allocates nothing more |
| TileLifecycle.Free | src/osgEarthCDB/CDB_TileLIb/CDB_Tile.cpp:1154-1197 | Free_Buffers leaves no buffer; a loaded tile drops to Opened when its primary dataset is open and to Created otherwise |
| TileLifecycle.FreeIdempotent | src/osgEarthCDB/CDB_TileLIb/CDB_Tile.cpp:1154-1197 | Freeing twice is freeing once |
| TileLifecycle.CloseAsWritten | src/osgEarthCDB/CDB_TileLIb/CDB_Tile.cpp:1199-1219 | As written, Close_Dataset closes the primary and light-map datasets and resets the status, but leaves the material dataset as it was; type, set-up, buffers and data flags are kept |
| TileLifecycle.Close | src/osgEarthCDB/CDB_TileLIb/CDB_Tile.cpp:1199-1219 | Corrected: all three datasets are closed and the status reset; type, set-up, buffers and data flags are kept |
| TileLifecycle.CloseDiffersOnlyInMaterial | src/osgEarthCDB/CDB_TileLIb/CDB_Tile.cpp:1199-1219 | The two closes agree except on the material dataset, and differ whenever it was open |
| TileLifecycle.FreeResourcesAsWritten | src/osgEarthCDB/CDB_TileLIb/CDB_Tile.cpp:843-847 | As written, Free_Resources and the destructor close the primary and light-map datasets and free every buffer, but the material dataset stays open exactly when it was open |
| TileLifecycle.FreeResources | src/osgEarthCDB/CDB_TileLIb/CDB_Tile.cpp:843-847 | Corrected: nothing stays open, no buffer is left, the tile's type and set-up are kept, and the only difference from the as-written release is the material dataset |
| TileLifecycle.MaterialDatasetOutlivesRelease | src/osgEarthCDB/CDB_TileLIb/CDB_Tile.cpp:1199-1219 | As written, an opened material tile still holds its material dataset after being released; with the corrected close nothing stays open |
| TileLifecycle.OpenTile | src/osgEarthCDB/CDB_TileLIb/CDB_Tile.cpp:1221-1341 | Open_Tile succeeds at once for a tile whose own primary dataset is open; a raster tile opens each file it has, and the open succeeds exactly when all of them open |
| TileLifecycle.OpenFreshTile | src/osgEarthCDB/CDB_TileLIb/CDB_Tile.cpp:1221-1341 | A raster tile with nothing open opens exactly when its files do |
| TileLifecycle.FirstRead | src/osgEarthCDB/CDB_TileLIb/CDB_Tile.cpp:2149-2239 | Corrected: the first band of a raster tile comes from a dataset that the open opened |
| TileLifecycle.FirstReadAsWritten | src/osgEarthCDB/CDB_TileLIb/CDB_Tile.cpp:2149-2239 | As written, a light-map imagery tile takes its first band from the primary dataset instead of the light-map one |
| TileLifecycle.ReadVia | src/osgEarthCDB/CDB_TileLIb/CDB_Tile.cpp:2149-2239 | Read fails with nothing open and succeeds at once when loaded; it dereferences a null dataset exactly when the one it reads from is closed; a success loads the tile; a failure leaves it unchanged, except that a failed mask read after the material band was read leaves the material flag set and the mask flag cleared |
| TileLifecycle.ReadAsWritten | src/osgEarthCDB/CDB_TileLIb/CDB_Tile.cpp:2149-2239 | As written, Read agrees with the corrected read whenever it does not dereference a closed dataset |
| TileLifecycle.Read | src/osgEarthCDB/CDB_TileLIb/CDB_Tile.cpp:2149-2239 | Corrected: Read always finishes, and a ready raster tile whose raster reads succeed ends up loaded |
| TileLifecycle.LightmapReadDereferencesPrimary | src/osgEarthCDB/CDB_TileLIb/CDB_Tile.cpp:2149-2239 | As written, a fresh light-map tile whose light map opens dereferences the unopened primary dataset on read |
| TileLifecycle.OpenThenRead | src/osgEarthCDB/CDB_TileLIb/CDB_Tile.cpp:2149-2239 | Whatever a raster tile opens, the corrected read that follows loads it when its raster reads succeed |
| TileLifecycle.LoadTile | src/osgEarthCDB/CDB_TileLIb/CDB_Tile.cpp:2871-2888 | Corrected: Load_Tile succeeds exactly when the tile ends loaded: at once when already loaded, never when its file does not exist, and with every needed buffer when it loads |
| TileLifecycle.LoadFreshTile | src/osgEarthCDB/CDB_TileLIb/CDB_Tile.cpp:2871-2888 | Corrected: a raster tile with nothing open, whose files exist and open and whose reads succeed, loads |
| TileLifecycle.LoadTileAsWritten | src/osgEarthCDB/CDB_TileLIb/CDB_Tile.cpp:2871-2888 | As written, Load_Tile has the same early answers, succeeds exactly when the tile ends loaded when it finishes, and agrees with the corrected load for every tile but light-map imagery |
| TileLifecycle.LoadFreshLightmapAsWritten | src/osgEarthCDB/CDB_TileLIb/CDB_Tile.cpp:2871-2888 | As written, loading a fresh light-map tile whose light map exists dereferences the primary dataset; the corrected load loads it |
| TileLifecycle.FillAsWritten | src/osgEarthCDB/CDB_TileLIb/CDB_Tile.cpp:2241-2329 | As written, Fill_Tile agrees with the corrected fill on every type but Imagery |
| TileLifecycle.Fill | src/osgEarthCDB/CDB_TileLIb/CDB_Tile.cpp:2241-2329 | Corrected: imagery fills exactly its allocated buffers, elevation its elevation buffer and the subordinate one when present, other types nothing |
| TileLifecycle.FillWritesUnallocated | src/osgEarthCDB/CDB_TileLIb/CDB_Tile.cpp:2241-2329 | As written, a material-only imagery tile has its colour bands written though they were never allocated |
| TileLifecycle.FillSkipsPlainImagery | src/osgEarthCDB/CDB_TileLIb/CDB_Tile.cpp:2241-2329 | As written, a plain imagery tile's colour bands are not filled |
| Composite.CacheSnap | src/osgEarthCDB/CDB_TileLIb/CDB_Tile.cpp:2407-2418 | The cache enumeration snaps a western edge to the multiple of the step at or below it |
| Composite.CacheSnapIsGeocellWest | src/osgEarthCDB/CDB_TileLIb/CDB_Tile.cpp:2407-2418 | That snap is the geocell edge the path code computes |
| Composite.RowCells | src/osgEarthCDB/CDB_TileLIb/CDB_Tile.cpp:2405-2440 | The western edges visited in one row start at the snapped minimum and strictly increase |
| Composite.RowCellsMembers | src/osgEarthCDB/CDB_TileLIb/CDB_Tile.cpp:2405-2440 | A row visits exactly the grid lines from the snapped start up to the maximum longitude |
| Composite.Row | src/osgEarthCDB/CDB_TileLIb/CDB_Tile.cpp:2405-2440 | One row's cells share its latitude, strictly increase in longitude and are that row's grid lines |
| Composite.CacheRows | src/osgEarthCDB/CDB_TileLIb/CDB_Tile.cpp:2399-2440 | The cells are visited row by row from the start latitude, in strictly increasing row-major order |
| Composite.CacheRowsMembers | src/osgEarthCDB/CDB_TileLIb/CDB_Tile.cpp:2399-2440 | A cell is visited exactly when its latitude is a whole degree from the start to the maximum and its longitude is a grid line of that row |
| Composite.CacheCells | src/osgEarthCDB/CDB_TileLIb/CDB_Tile.cpp:2399-2440 | The cells visited are exactly the geocells of the cache tile's whole-degree span, edges included |
| Composite.CacheRowsDistinct | src/osgEarthCDB/CDB_TileLIb/CDB_Tile.cpp:2399-2440 | No cell is visited twice |
| Composite.EarthWest | src/osgEarthCDB/CDB_TileLIb/CDB_Tile.cpp:2514-2522 | Build_Earth_Tile moves the western edge down to the multiple of the source width at or below it |
| Composite.EarthSource | src/osgEarthCDB/CDB_TileLIb/CDB_Tile.cpp:2514-2528 | The source tile has the target's rows, holds the target's western edge, and is one geocell step over the tiles per degree wide |
| Composite.EarthSourceContributes | src/osgEarthCDB/CDB_TileLIb/CDB_Tile.cpp:2499-2568 | The tile an Earth-profile tile is cut from always contributes |
| Composite.DestRect | src/osgEarthCDB/CDB_TileLIb/CDB_Tile.cpp:3209-3221 | The destination rectangle of a contributor is clamped to the buffer |
| Composite.RectInBuffer | src/osgEarthCDB/CDB_TileLIb/CDB_Tile.cpp:3232-3236 | Every cell of that rectangle has an index inside the buffer |
| Composite.FullContributorFillsBuffer | src/osgEarthCDB/CDB_TileLIb/CDB_Tile.cpp:3209-3221 | A contributor covering the whole target writes the whole buffer |
| Composite.Flagged | src/osgEarthCDB/CDB_TileLIb/CDB_Tile.cpp:3166-3184 | The tile takes the light-map flag when any contributor has one and the material flag when any has one; nothing else changes |
| Composite.Writes | src/osgEarthCDB/CDB_TileLIb/CDB_Tile.cpp:3237-3288 | A contributor's pixels go only to buffers the tile needs |
| Composite.VisitOf | src/osgEarthCDB/CDB_TileLIb/CDB_Tile.cpp:3202-3293 | A contributor is freed exactly when it contributes, writes its rectangle only when it also loads, and sets the mask only for material tiles whose contributor has mask data |
| Composite.Contribute | src/osgEarthCDB/CDB_TileLIb/CDB_Tile.cpp:3202-3298 | The tile ends loaded exactly when it was loaded or some contributor wrote a rectangle, gets a mask exactly when one wrote one, and records every rectangle and release |
| Composite.Prepare | src/osgEarthCDB/CDB_TileLIb/CDB_Tile.cpp:3186-3198 | Corrected: before the contributors, every needed buffer is allocated; building from scratch (or without a file) fills them all |
| Composite.PrepareFillsPlainImagery | src/osgEarthCDB/CDB_TileLIb/CDB_Tile.cpp:3186-3198 | A plain imagery tile built from scratch gets its colour bands from the corrected fill, where Fill_Tile as written writes none |
| Composite.BuildFromTiles | src/osgEarthCDB/CDB_TileLIb/CDB_Tile.cpp:3163-3300 | Corrected: Build_From_Tiles takes the flags from the contributors, allocates every needed buffer, keeps the written buffers among them, and frees each contributor exactly when it contributes |
| Composite.ExistingTiles | src/osgEarthCDB/CDB_TileLIb/CDB_Tile.cpp:2422-2429 | The tiles collected are exactly those of the visited cells that the store holds, in visiting order |
| Composite.StoredCells | src/osgEarthCDB/CDB_TileLIb/CDB_Tile.cpp:2422-2444 | The store holds no tile of a visited cell exactly when it holds none of the cache tile's geocells |
| Composite.CacheSources | src/osgEarthCDB/CDB_TileLIb/CDB_Tile.cpp:2399-2444 | No contributor exactly when the store has no geocell of the cache tile |
| Composite.BuildCacheTile | src/osgEarthCDB/CDB_TileLIb/CDB_Tile.cpp:2377-2466 | Corrected: Build_Cache_Tile builds exactly when the store has a geocell of the tile, leaves the tile untouched otherwise, and saves exactly when asked and the tile loaded, after which its file exists |
| Composite.BuildEarthTile | src/osgEarthCDB/CDB_TileLIb/CDB_Tile.cpp:2499-2568 | Corrected: Build_Earth_Tile builds exactly when the source tile exists, and the tile ends loaded exactly when it was or the source loads |
| Driver.Subfact | src/osgEarthCDB/CDB.cpp:474-476 | The root-tile factor is 2^(n+1) for n > 0 negative LODs and 1 otherwise |
| Driver.RoundUpTo | src/osgEarthCDB/CDB.cpp:479-495 | A tile count is raised to the least multiple of the factor at or above it |
| Driver.LimitsStep | src/osgEarthCDB/CDB.cpp:458-459 | The widening step is the larger of the geocell steps at the two latitude limits |
| Driver.Widen | src/osgEarthCDB/CDB.cpp:460-472 | Corrected: the minimum longitude snaps down and the maximum up to the nearest multiple of the step |
| Driver.LimitsProfileVia | src/osgEarthCDB/CDB.cpp:450-509 | In either version, a profile exists exactly when the widened longitudes and rounded latitudes enclose an area; it starts at the widened west edge and the rounded minimum latitude, and each side is a whole number (at least one) of root tiles, reaching less than one root tile past the widened east edge and rounded maximum latitude |
| Driver.LimitsProfile | src/osgEarthCDB/CDB.cpp:450-509 | Corrected: the profile covers the rounded limits, its western edge is the step multiple at or below the minimum longitude, and each side is a whole number (at least one) of root tiles of the factor's size; it exists when the rounded limits span something and not when the latitudes are inverted |
| Driver.LimitsAsWrittenLosesWest | src/osgEarthCDB/CDB.cpp:460-472 | As written, limits 7..9 east at 55..56 north give a profile starting at 10 east, which misses them; corrected it starts at 6 |
| Driver.Configure | src/osgEarthCDB/CDB.cpp:423-528 | A profile from the limits (profile_set) has the requested negative LODs, data levels up to the maximum + negatives + 1, whole root tiles of the factor's size and the rounded minimum latitude; without it the world profile with 5 negative LODs; inverted latitudes never give one; corrected, it covers the rounded limits and exists whenever they span an area; the default maximum data level is 14 |
| Driver.ConfigureAsWrittenDropsLimits | src/osgEarthCDB/CDB.cpp:460-509 | As written, limits 7..8 east at 55..56 north are widened to an empty range and dropped for the world profile; corrected they give a 6..8 profile |
| Driver.WorldProfileTiles | src/osgEarthCDB/CDB.cpp:528 | The world profile's root tiles are 32 degrees square |
| Driver.CacheSetting | src/osgEarthCDB/CDB.cpp:399-553 | A set cache directory turns the cache on; otherwise the default directory under the root is used when it exists, and only when no profile or error was set |
| Driver.ReadRoute | src/osgEarthCDB/CDB.cpp:68-143 | read blacklists a missing native tile in the one-degree band, builds an Earth tile outside it, builds a cache tile for a missing negative LOD, and otherwise loads the stored tile |
| Driver.ReadImage | src/osgEarthCDB/CDB.cpp:68-143 | A read gives an image only for a tile that ended loaded and was not blacklisted: a stored tile exactly when it loaded, a built one exactly when the build reported success and the tile loaded (Image_From_Tile, CDB_Tile.cpp 3466-3468) |
| Driver.StoredImageIffLoaded | src/osgEarthCDB/CDB.cpp:83-84 | A stored tile's read gives an image exactly when Load_Tile succeeds on it |
| Driver.NativeBandIsNeverBuilt | src/osgEarthCDB/CDB.cpp:68-80 | Between 50 degrees south and north a non-negative LOD is loaded or blacklisted, never built |
| Driver.NoImageIffBlacklistedOrUnbuilt | src/osgEarthCDB/CDB.cpp:68-143 | A read yields no image exactly when it blacklisted the tile, its builder reported failure, or the tile did not end loaded |
| FeatureSource.Open | src/osgEarthCDB/CDBFeatureSource.cpp:142-400 | openImplementation fails exactly when the parent fails and reports a configuration error exactly when a level option is missing. As written it builds the feature profile from a null pointer exactly when no Limits option was scanned, and from unassigned tile counts exactly when the rounded limits enclose no area; corrected it is ready whenever the levels are set, on the limits' tiling when there is one and the whole earth otherwise. The flags come from the options, and the source reads inflated models exactly when it does not read from a GeoPackage and the inflated or geotypical option is on |
| FeatureSource.LimitsTiling | src/osgEarthCDB/CDBFeatureSource.cpp:307-346 | Reading a single file, the limits widen outwards to whole degrees in one root tile; otherwise the rounded limits lie within half a degree of the given ones, with one root tile per degree, and there is a tiling exactly when they enclose an area |
| FeatureSource.OpenWithoutLimits | src/osgEarthCDB/CDBFeatureSource.cpp:307-389 | Without a Limits option, the code as written dereferences the null profile; the corrected open uses the whole-earth tiling |
| FeatureSource.OpenWithFlatLimits | src/osgEarthCDB/CDBFeatureSource.cpp:321-346 | Limits 7.2..7.4 east round to one longitude: as written the tile counts are never assigned; the corrected open uses the whole-earth tiling |
| FeatureSource.GeoTypicalForcesInflated | src/osgEarthCDB/CDBFeatureSource.cpp:169-179 | Without a file input, the geotypical option makes the source read inflated models, whenever it opens (corrected, or as written with usable limits) |
| FeatureSource.Finish | src/osgEarthCDB/CDBFeatureSource.cpp:890-933 | A kept feature that ends valid is emitted, and for the geospecific layer its reference is recorded at the tile's LOD; the unreferenced ledger is untouched |
| FeatureSource.PlaceEmits | src/osgEarthCDB/CDBFeatureSource.cpp:767-933 | In either version of the lookups, a feature is emitted exactly when it is kept and either loads its own model or is recovered from the unreferenced ledger with an existing model archive |
| FeatureSource.LowerLodInstanceNotEmitted | src/osgEarthCDB/CDBFeatureSource.cpp:818-832 | In either version, a geospecific feature whose key has a qualifying record takes the name the lookup finds but is not emitted, and both ledgers are unchanged |
| FeatureSource.ReferencedNameIsLower | src/osgEarthCDB/CDBFeatureSource.cpp:789-803 | In either version, a referenced name is attached only to a feature loading its own model from an archive, and only from the qualifying record the lookup finds at a strictly lower LOD |
| FeatureSource.PlaceKeepsLedgers | src/osgEarthCDB/CDBFeatureSource.cpp:767-933 | In either version, placing a feature keeps both ledgers well formed, records an emitted geospecific model at the tile's LOD, and adds nothing else to the referenced ledger |
| FeatureSource.PlaceRecords | src/osgEarthCDB/CDBFeatureSource.cpp:890-925 | The referenced ledger after placing is the old one with the feature's reference recorded at the tile's LOD when it is an emitted geospecific feature, and unchanged otherwise |
| FeatureSource.PlaceTakesUnreferenced | src/osgEarthCDB/CDBFeatureSource.cpp:836-870 | The unreferenced ledger changes only on the recovery path, where it becomes what taking the instance leaves |
| FeatureSource.RecoveredMemberStays | src/osgEarthCDB/CDBFeatureSource.cpp:842-870 | As written, a member recovered from a key with several unreferenced entries stays in the ledger; when that recovery is not emitted (the feature dropped or its model archive missing), the next feature of the key at the same LOD is recovered again, under the same model name |
| FeatureSource.EmittedRecoveryIsReferenced | src/osgEarthCDB/CDBFeatureSource.cpp:890-925 | An emitted recovery records its key as referenced, so the next feature of that key is never recovered again, in either version |
| FeatureSource.EmittedThenReferenced | src/osgEarthCDB/CDBFeatureSource.cpp:890-925 | In either version, a geospecific model emitted at one LOD is found on record by tiles of every LOD above it, within the 1000-LOD window; corrected, the record found is at that LOD or nearer |
| FeatureSource.CreateCursor | src/osgEarthCDB/CDBFeatureSource.cpp:441-628 | With the root directory unset and no file input there is no cursor and nothing is blacklisted; otherwise the file loop decides |
| FeatureSource.ReadFiles | src/osgEarthCDB/CDBFeatureSource.cpp:511-628 | A cursor exists exactly when some file was read; it holds the features read, or the single placeholder at the extent's centre; failed files are blacklisted, and with nothing read the last file too, never with a file input |
| FeatureLedger.CanInsert | src/osgEarthCDB/CDBFeatureSource.cpp:913-922 | The can_insert scan is true exactly when no entry has the LOD |
| FeatureLedger.Record | src/osgEarthCDB/CDBFeatureSource.cpp:897-925 | Recording puts the key in the ledger with an entry at the LOD; other keys keep their entries; a LOD already present leaves the ledger unchanged, otherwise the entry is appended |
| FeatureLedger.RecordWellFormed | src/osgEarthCDB/CDBFeatureSource.cpp:897-925 | Recording keeps at most one entry per key and LOD, and no key empty |
| FeatureLedger.RecordIdempotent | src/osgEarthCDB/CDBFeatureSource.cpp:897-925 | Recording the same entry twice is recording it once |
| FeatureLedger.LastQualifying | src/osgEarthCDB/CDBFeatureSource.cpp:1005-1020 | As written, the lookup scan ends on the last entry at most 1000 LODs below the current one, or none |
| FeatureLedger.Nearest | src/osgEarthCDB/CDBFeatureSource.cpp:1005-1020 | As intended, it ends on the qualifying entry with the highest LOD, the first such one |
| FeatureLedger.PreInstanceAsWritten | src/osgEarthCDB/CDBFeatureSource.cpp:992-1039 | find_PreInstance is Absent exactly for an unrecorded key, NoLod exactly when no entry qualifies, and otherwise finds an entry of the key |
| FeatureLedger.PreInstance | src/osgEarthCDB/CDBFeatureSource.cpp:992-1039 | Corrected: the same cases, and the entry found has the highest qualifying LOD |
| FeatureLedger.PreInstanceAgreesWhenAscending | src/osgEarthCDB/CDBFeatureSource.cpp:992-1039 | When a key's LODs were recorded coarse to fine, the two lookups agree |
| FeatureLedger.PreInstanceTakesLast | src/osgEarthCDB/CDBFeatureSource.cpp:992-1039 | As written, a key recorded at LOD 2 and then at 0 yields the LOD-0 name at LOD 3; corrected it yields the LOD-2 name |
| FeatureLedger.FindInstance | src/osgEarthCDB/CDBFeatureSource.cpp:992-1039 | find_PreInstance in either version: Absent exactly for an unrecorded key, NoLod exactly when no entry qualifies, otherwise a qualifying entry, the last one as written and the one with the highest LOD corrected |
| FeatureLedger.RecordThenFind | src/osgEarthCDB/CDBFeatureSource.cpp:992-1039 | In either version, an instance recorded at a LOD makes every lookup up to 999 LODs above it find a qualifying entry; corrected, one at a LOD at least as high |
| FeatureLedger.UnRefAsWritten | src/osgEarthCDB/CDBFeatureSource.cpp:1041-1099 | As written, find_UnRefInstance has the same three cases and picks the last qualifying entry; the ledger loses the key only when its single entry is taken, and is otherwise unchanged |
| FeatureLedger.UnRef | src/osgEarthCDB/CDBFeatureSource.cpp:1041-1099 | Corrected: the nearest qualifying entry is taken and removed, the key dropped when it empties, and every other key untouched |
| FeatureLedger.UnRefAsWrittenRepeats | src/osgEarthCDB/CDBFeatureSource.cpp:1041-1099 | As written, when a key has several entries the one taken stays, and the next lookup hands it out again |
| FeatureLedger.UnRefTakenTwice | src/osgEarthCDB/CDBFeatureSource.cpp:1041-1099 | A two-entry example of that repeat |
| FeatureLedger.UnRefConsumes | src/osgEarthCDB/CDBFeatureSource.cpp:1041-1099 | Corrected: the ledger stays well formed and the key no longer has an entry at the LOD taken |
| FeatureLedger.TakeInstance | src/osgEarthCDB/CDBFeatureSource.cpp:1041-1099 | find_UnRefInstance in either version: the same three cases, picking the last qualifying entry as written and the one with the highest LOD corrected; the key goes when its single entry is taken; otherwise its list is unchanged as written and loses the entry taken corrected; other keys are untouched |
| FeatureLedger.TakeInstanceWellFormed | src/osgEarthCDB/CDBFeatureSource.cpp:1041-1099 | In either version, taking an instance keeps the ledger well formed |
| FeatureLedger.UnclaimedKeysMembers | src/osgEarthCDB/CDBFeatureSource.cpp:947-951 | The scan gathers exactly the non-empty member keys not in the referenced ledger |
| FeatureLedger.RecordPairs | src/osgEarthCDB/CDBFeatureSource.cpp:937-988 | The unreferenced scan adds exactly the unclaimed keys, only appends to existing lists, leaves referenced keys alone and keeps the ledger well formed; a key unclaimed and without an entry at the tile's LOD gains exactly one entry, at that LOD, holding the first pair carrying it and the tile's archives, and every other key keeps its entries |
| FeatureLedger.RecordMembers | src/osgEarthCDB/CDBFeatureSource.cpp:937-988 | Over the archive's member list: the key of every member with an unclaimed key is on record at the tile's LOD, every new key comes from such a member, nothing recorded is lost; a key new at that LOD gets the entry of the first member carrying it, with the tile's archives, and only such a key gains an entry (a later member with the same key is not recorded, as `can_insert` refuses it) |
| FeatureLedger.ReferencedMembersStayOut | src/osgEarthCDB/CDBFeatureSource.cpp:937-988 | A referenced key never enters the unreferenced ledger |
| ModelManager.Push | src/osgEarthCDB/GlobalModelManager.cpp:20-25 | Pushing puts the batch on top and keeps the stack below it |
| ModelManager.HaveReplacementData | src/osgEarthCDB/GlobalModelManager.cpp:27-33 | True exactly when the stack holds a batch |
| ModelManager.TestNext | src/osgEarthCDB/GlobalModelManager.cpp:35-38 | The top batch is one on the stack |
| ModelManager.Pop | src/osgEarthCDB/GlobalModelManager.cpp:40-47 | Popping returns the batch Test_Next_Replacement shows and the stack it was pushed onto |
| ModelManager.PopUndoesPush | src/osgEarthCDB/GlobalModelManager.cpp:20-47 | Popping after a push returns the batch and the stack as it was |
| ModelManager.PeekThenPop | src/osgEarthCDB/GlobalModelManager.cpp:35-47 | A peek shows the batch the next pop returns |
| ModelManager.StackIsLifo | src/osgEarthCDB/GlobalModelManager.cpp:20-47 | A run of pushes followed by as many pops returns the batches in reverse and restores the stack |
| ModelManager.AddRetired | src/osgEarthCDB/GlobalModelManager.cpp:49-53 | Add_To_Retired_Map adds the name; an existing entry is kept as it was |
| ModelManager.HaveRetired | src/osgEarthCDB/GlobalModelManager.cpp:55-70 | True exactly when the name is in the map |
| ModelManager.RetiredIffAdded | src/osgEarthCDB/GlobalModelManager.cpp:49-70 | A model is retired exactly when some call named it, and the map keeps what the first such call gave |
| ModelManager.ModelNotLoading | src/osgEarthCDB/GlobalModelManager.cpp:72-103 | A new URI is marked Loading and may load; a recorded one may load again exactly when it is neither Loading nor Loaded, and its record is untouched |
| ModelManager.SecondRequestRefused | src/osgEarthCDB/GlobalModelManager.cpp:72-103 | After a first request for a new URI goes ahead, the next one is refused |
| ModelManager.RefusalIsStable | src/osgEarthCDB/GlobalModelManager.cpp:72-103 | A refused request changes nothing, so the next is refused too |

## Left out

- GDAL/OGR I/O: dataset handles, raster bands and features are not modelled. Whether a file exists, opens, or reads with working I/O is a parameter.
- Pixel values, fill values, colour blending and the elevation interpolation floats: only the cells and buffers touched are modelled.
- Mutexes in the model manager and the feature source: each operation is one atomic step.
- The Verbose, ABS_Z, edit-support, materials and `osge_nomultidisable` attributes of the feature source, and feature IDs. They decide no emission or ledger change.
- The texture-zip attribute and the `validate_name` recheck on the recovery path are not modelled. The recovered member is taken to be valid when its model archive exists (`Context.zipExists`).
- `readElevation` of the driver is not modelled. Elevation dispatch mirrors imagery.
- The `sscanf` parsing of the `Limits` string: for the driver an unparsable string is modelled as no limits; for the feature source it is `Unreadable`, which leaves the profile unset as written.
- FeatureSource.Open: is modelled for both versions; the corrected whole-earth fallback follows the warning "Not using Limits" and is not code of the source. `Profile::create` is outside this code, so a tiling is taken to be the profile it creates, including the zero-area one a single file's whole-degree limits can give. The EditLimits, geoInterp, Verbose and GeoPackage-feature options are not modelled.
- The vector-tile registry of global data (`FindVectorTile`, `Has_Layer`): a global tile's data source is a parameter.
- Model tile open routines (`Open_GS_Model_Tile`, `Open_GT_Model_Tile`, `Open_GP_Map_Tile`): Open_Tile's answer for model and map tiles is a parameter (`delegated`).
- The values of the `TileLoadStatus` enumeration besides Loading and Loaded are declared outside this code. They are modelled as one `Other` case.
- Save and Write of cache tiles: saving is modelled as the file coming into existence.
- Driver.ReadImage: takes the builder's answer and whether the tile ended loaded as parameters instead of following the builders, because the builders' outcome depends on the store.
- TileLifecycle.FreeResources: is the corrected release, closing the material dataset too; the code as written is TileLifecycle.FreeResourcesAsWritten.
- TileLifecycle.LoadTile: is the corrected load, reading a light-map tile from its light-map dataset; the code as written is TileLifecycle.LoadTileAsWritten, which dereferences the unopened primary dataset instead.
- TileLifecycle.LoadFreshTile: is about the corrected load; as written a fresh light-map tile dereferences a null dataset (TileLifecycle.LoadFreshLightmapAsWritten).
- Composite.Prepare: fills with the corrected Fill_Tile and reads with the corrected Read. As written, a plain imagery tile built from scratch is left unfilled, a material tile has its unallocated colour bands written, and a light-map tile read back dereferences the primary dataset.
- Composite.BuildFromTiles: starts from Composite.Prepare, so it follows the corrected Fill_Tile and Read.
- Composite.BuildCacheTile: builds through Composite.BuildFromTiles, so it follows the corrected Fill_Tile and Read.
- Composite.BuildEarthTile: builds through Composite.BuildFromTiles from scratch, so it follows the corrected Fill_Tile; as written a plain imagery tile is not filled before its contributor is copied in.
- FeatureLedger.RecordMembers: takes the tile's model and texture archive names as fixed parameters. As written they are one pair of variables per tile (CDBFeatureSource.cpp:648-649) that a recovery overwrites with the recovered entry's archives (1069-1074), so after a recovery later features of the tile (765) and the entries the scan records (962-963) carry the other tile's archive names. The model does not follow that overwrite.
- FeatureLedger.RecordPairs: takes the archive names as fixed parameters too, for the same reason.
- TileNames.TileKeyOfFile: reads the key text with the unbounded `Numerics.Atoi`. `_atoi64` returns a signed 64-bit value, and from LOD 20 rows and columns take seven digits, so from 10 degrees north the text exceeds 2^63 - 1 (TileKeys.KeyPastInt64). What `_atoi64` returns then is platform-defined, so the round trip holds as written only for keys below 2^63; the corrected key (TileKeys.PackedKeyOfFile) always fits.
- Driver.Subfact: uses the mathematical power 2^(n+1). The C shift `2 << n` overflows for 30 or more negative LODs, which no profile uses.
- Driver.LimitsProfile: counts tiles as mathematical integers, not `unsigned`. The rounded limits of a usable profile are positive and small.
- Geocells.LodNumFromExtent: takes extents as exact reals. The 0.99 threshold and the DBL_EPSILON test are kept, but double rounding of `1.0 / height` is not modelled.
- Composite.BuildCacheTile: enumerates geocells in whole degrees. Every cache tile the driver requests has whole-degree edges.

## Findings

| source | as written | input that shows it | evidently intended | confidence | as-written member | corrected member |
|---|---|---|---|---|---|---|
| src/osgEarthCDB/CDB_TileLIb/CDB_Tile.cpp:946-961 | The key is the decimal text lat(2) lon(3) row(3) column(3) read as one number; rows and columns reach 4 digits from LOD 10 | Row 1001, column 23 and row 100, column 1023 of one geocell at LOD 10 share a key | Distinct tiles get distinct keys | high, not executed | TileKeys.TileKeyCollision | TileKeys.PackedKeysSeparateTiles |
| src/osgEarthCDB/CDB_TileLIb/CDB_Tile.cpp:946-961 | The key text is read with `_atoi64` into 64 bits, yet from LOD 20 it can hold twenty digits | Latitude 89 N, longitude 179 E, row and column 1048575 at LOD 20: key text 17935910485751048575 | A key every tile of every CDB level of detail fits in | high, not executed | TileKeys.KeyPastInt64 | TileKeys.PackedKeyFits |
| src/osgEarthCDB/CDB_TileLIb/CDB_Tile.cpp:3024-3055 | The bounds check uses the truncated position, the index the rounded one | (1023.5, 1023) in a 1024 × 1024 tile reads index 1048576; (-0.75, 0) reads index -1 | Read a cell inside the buffer | high, not executed | PixelSampling.MaterialIndexPastEnd | PixelSampling.NearestIndex |
| src/osgEarthCDB/CDB_TileLIb/CDB_Tile.cpp:2149-2239 | A light-map imagery tile reads its first bands from the primary dataset, which Open_Tile never opened for it | A fresh imagery tile whose light-map file opens | Read the light-map dataset | medium, not executed | TileLifecycle.LightmapReadDereferencesPrimary | TileLifecycle.OpenThenRead |
| src/osgEarthCDB/CDB_TileLIb/CDB_Tile.cpp:1199-1219 | Close_Dataset closes the primary and light-map datasets but not the material dataset | An opened material tile, released with Free_Resources | Close all three datasets | high, not executed | TileLifecycle.MaterialDatasetOutlivesRelease | TileLifecycle.Close |
| src/osgEarthCDB/CDB_TileLIb/CDB_Tile.cpp:2241-2329 | The Imagery branch of Fill_Tile tests the subordinate flags in a form that skips plain tiles and writes colour bands for material-only tiles | A plain imagery tile (nothing filled); a material-only imagery tile (unallocated colour bands written) | Fill exactly the allocated buffers, as the cache branch does | medium, not executed | TileLifecycle.FillWritesUnallocated | TileLifecycle.Fill |
| src/osgEarthCDB/CDB.cpp:460-472 | An off-grid limit longitude is replaced by (lon ∓ step) · step | Limits 7..9 east at 55..56 north: minimum longitude 10, past the limits | Snap the minimum down and the maximum up to the step grid | high, not executed | Driver.LimitsAsWrittenLosesWest | Driver.LimitsProfile |
| src/osgEarthCDB/CDBFeatureSource.cpp:307-389 | The profile pointer starts null and is set only from a scanned Limits option; the feature profile then dereferences it unconditionally, after a mere warning | Both level options set, no Limits option | Fall back to a profile without limits, as the warning says | high, not executed | FeatureSource.OpenWithoutLimits | FeatureSource.Open |
| src/osgEarthCDB/CDBFeatureSource.cpp:316-346 | In the rounding mode, tiles_x and tiles_y are assigned only when the rounded limits enclose an area, yet the profile is created with them in every case | Limits 7.2,55,7.4,56 without a file input | Do not use limits that enclose no area | medium, not executed | FeatureSource.OpenWithFlatLimits | FeatureSource.Open |
| src/osgEarthCDB/CDBFeatureSource.cpp:992-1039 | `mind` is never lowered, so the last qualifying entry wins instead of the nearest | Key recorded at LOD 2 then LOD 0, looked up at LOD 3: the LOD-0 name is returned | The qualifying entry at the highest LOD | high, not executed | FeatureLedger.PreInstanceTakesLast | FeatureLedger.PreInstance |
| src/osgEarthCDB/CDBFeatureSource.cpp:1041-1099 | The entry taken is erased from a copy of the list, so it stays in the ledger | Key with entries at LOD 0 and 1, looked up at LOD 1 twice: the same member both times; in getFeatures a second feature receives it again only while the key is not referenced, i.e. the first recovery was not emitted | Remove the entry taken | high, not executed | FeatureLedger.UnRefTakenTwice | FeatureLedger.UnRefConsumes |

=== FILE: composite.dfy ===
/** Assembling a tile from the CDB tiles that overlap it: the geocells a
    cache tile visits (Build_Cache_Tile), the one tile an Earth-profile
    tile is cut from (Build_Earth_Tile), the buffer rectangle each
    contributor writes and the bookkeeping of Build_From_Tiles. */
module Composite {
  import opened Optional
  import opened Numerics
  import opened Extents
  import opened Geocells
  import opened TileNames
  import opened PixelSampling
  import Contribution
  import opened TileLifecycle

  // ---------------------------------------------------------------------
  // The geocells of a cache tile
  // ---------------------------------------------------------------------

  /** The longitude step of the zone holding latitude `lat` (whole
      degrees). */
  function Step(lat: int): (step: int)
    ensures step >= 1
  {
    LonStep(lat as real)
  }

  /** The western edge Build_Cache_Tile snaps a whole-degree longitude to:
      when |west| is off the zone grid, the multiple below |west| with the
      sign put back, one step further west for negative longitudes. The
      result is the grid line at or just west of `west`. */
  function CacheSnap(west: int, step: int): (c: int)
    requires step >= 1
    ensures c % step == 0 && c <= west < c + step
  {
    if step != 1 && Abs(west) % step != 0 then
      var q := Abs(west) / step;
      if west < 0 then
        MultipleMod(-(q + 1), step);
        assert -(q * step) - step == -(q + 1) * step;
        -(q * step) - step
      else
        MultipleMod(q, step);
        q * step
    else
      if west < 0 then
        assert west == -(Abs(west) / step) * step;
        MultipleMod(-(Abs(west) / step), step);
        west
      else
        MultipleMod(west / step, step);
        west
  }

  /** The snap of the cache enumeration is the geocell edge the path code
      computes for the same longitude. */
  lemma CacheSnapIsGeocellWest(west: int, step: int)
    requires step >= 1
    ensures CacheSnap(west, step) == GeocellWest(west as real, step)
  {
    assert Trunc(west as real) == west;
  }

  /** Two grid lines in order are at least a step apart. */
  lemma NextMultiple(w: int, x: int, step: int)
    requires step >= 1 && w % step == 0 && x % step == 0 && w < x
    ensures w + step <= x
  {
    var a, b := x / step, w / step;
    assert x == a * step && w == b * step;
    if a <= b {
      if a < b {
        MulStep(a, b, step);
      }
      assert false;
    }
    MulStep(b, a, step);
  }

  /** A grid line is its own snap. */
  lemma SnapOnGrid(w: int, step: int)
    requires step >= 1 && w % step == 0
    ensures CacheSnap(w, step) == w
  {
    var c := CacheSnap(w, step);
    if c < w {
      NextMultiple(c, w, step);
    }
  }

  /** The next grid line is on the grid. */
  lemma GridStep(c: int, step: int)
    requires step >= 1 && c % step == 0
    ensures (c + step) % step == 0
  {
    assert c + step == (c / step + 1) * step;
    MultipleMod(c / step + 1, step);
  }

  /** The western edges visited in one row: snap `west`, visit, step east,
      and carry on while the edge does not pass `maxLon`. The first edge
      is visited whatever `maxLon` is. */
  function RowCells(west: int, step: int, maxLon: int): (cells: seq<int>)
    requires step >= 1
    ensures |cells| >= 1 && cells[0] == CacheSnap(west, step)
    ensures forall i, j :: 0 <= i < j < |cells| ==> cells[i] < cells[j]
    decreases maxLon - west
  {
    var c := CacheSnap(west, step);
    [c] + (if c + step > maxLon then [] else RowCells(c + step, step, maxLon))
  }

  /** The edges of a row are the grid lines from the snapped start up to
      `maxLon`, the start always included. */
  lemma {:induction false} RowCellsMembers(west: int, step: int, maxLon: int, x: int)
    requires step >= 1
    ensures x in RowCells(west, step, maxLon) <==>
      var c := CacheSnap(west, step);
      x % step == 0 && c <= x && (x == c || x <= maxLon)
    decreases maxLon - west
  {
    var c := CacheSnap(west, step);
    if c + step > maxLon {
      assert RowCells(west, step, maxLon) == [c];
      if x % step == 0 && c < x {
        NextMultiple(c, x, step);
      }
    } else {
      var rest := RowCells(c + step, step, maxLon);
      assert RowCells(west, step, maxLon) == [c] + rest;
      RowCellsMembers(c + step, step, maxLon, x);
      GridStep(c, step);
      SnapOnGrid(c + step, step);
      if x % step == 0 && c < x {
        NextMultiple(c, x, step);
      }
    }
  }

  /** The cells of one row, as (south, west) pairs. */
  function Row(minLon: int, maxLon: int, lat: int): (row: seq<(int, int)>)
    ensures |row| >= 1
    ensures forall i :: 0 <= i < |row| ==> row[i].0 == lat
    ensures forall i, j :: 0 <= i < j < |row| ==> row[i].1 < row[j].1
    ensures forall lon :: (lat, lon) in row <==> lon in RowCells(minLon, Step(lat), maxLon)
  {
    var cells := RowCells(minLon, Step(lat), maxLon);
    var row := seq(|cells|, i requires 0 <= i < |cells| => (lat, cells[i]));
    assert forall lon :: lon in cells ==> (lat, lon) in row by {
      forall lon | lon in cells ensures (lat, lon) in row {
        var i :| 0 <= i < |cells| && cells[i] == lon;
        assert row[i] == (lat, lon);
      }
    }
    row
  }

  /** (south, west) comes before (south', west') in row-major order. */
  predicate Before(a: (int, int), b: (int, int)) {
    a.0 < b.0 || (a.0 == b.0 && a.1 < b.1)
  }

  /** Strictly increasing in row-major order. */
  predicate Ascending(cells: seq<(int, int)>) {
    forall i, j :: 0 <= i < j < |cells| ==> Before(cells[i], cells[j])
  }

  /** A row followed by the rows north of it is in order. */
  lemma AscendingConcat(row: seq<(int, int)>, rest: seq<(int, int)>, lat: int)
    requires forall i :: 0 <= i < |row| ==> row[i].0 == lat
    requires forall i, j :: 0 <= i < j < |row| ==> row[i].1 < row[j].1
    requires forall i :: 0 <= i < |rest| ==> rest[i].0 > lat
    requires Ascending(rest)
    ensures Ascending(row + rest)
  {
    var all := row + rest;
    forall i, j | 0 <= i < j < |all|
      ensures Before(all[i], all[j])
    {
      if j < |row| {
        assert all[i] == row[i] && all[j] == row[j];
      } else if i < |row| {
        assert all[i] == row[i] && all[j] == rest[j - |row|];
      } else {
        assert all[i] == rest[i - |row|] && all[j] == rest[j - |row|];
      }
    }
  }

  /** The cells Build_Cache_Tile asks for, row by row from `lat`: each row
      one degree high, a row visited while its southern edge does not pass
      `maxLat`, the first row always. */
  function CacheRows(minLon: int, maxLon: int, lat: int, maxLat: int): (cells: seq<(int, int)>)
    ensures forall i :: 0 <= i < |cells| ==> cells[i].0 >= lat
    ensures Ascending(cells)
    decreases maxLat - lat
  {
    var row := Row(minLon, maxLon, lat);
    if lat + 1 > maxLat then
      assert Ascending(row);
      row
    else
      var rest := CacheRows(minLon, maxLon, lat + 1, maxLat);
      AscendingConcat(row, rest, lat);
      row + rest
  }

  /** The rows visited are those from `lat` up to `maxLat` (the first
      always), each holding its row's cells. */
  lemma {:induction false} CacheRowsMembers(minLon: int, maxLon: int, lat: int, maxLat: int, s: int, w: int)
    ensures (s, w) in CacheRows(minLon, maxLon, lat, maxLat) <==>
      lat <= s && (s == lat || s <= maxLat) && w in RowCells(minLon, Step(s), maxLon)
    decreases maxLat - lat
  {
    var row := Row(minLon, maxLon, lat);
    if lat + 1 <= maxLat {
      var rest := CacheRows(minLon, maxLon, lat + 1, maxLat);
      assert CacheRows(minLon, maxLon, lat, maxLat) == row + rest;
      CacheRowsMembers(minLon, maxLon, lat + 1, maxLat, s, w);
    }
  }

  /** The geocells of a cache tile spanning whole degrees [minLat, maxLat]
      by [minLon, maxLon]: every row from minLat to maxLat, and in each
      row every geocell of the zone grid whose span reaches past minLon
      and that starts at or before maxLon. Rows and cells starting exactly
      on the northern or eastern edge are included. */
  lemma CacheCells(minLon: int, maxLon: int, minLat: int, maxLat: int, s: int, w: int)
    requires minLon <= maxLon
    ensures (s, w) in CacheRows(minLon, maxLon, minLat, maxLat) <==>
      && minLat <= s && (s == minLat || s <= maxLat)
      && w % Step(s) == 0 && minLon < w + Step(s) && w <= maxLon
  {
    var step := Step(s);
    var c := CacheSnap(minLon, step);
    CacheRowsMembers(minLon, maxLon, minLat, maxLat, s, w);
    RowCellsMembers(minLon, step, maxLon, w);
    if w % step == 0 && w < c {
      NextMultiple(w, c, step);
    }
  }

  /** No cell is visited twice. */
  lemma CacheRowsDistinct(minLon: int, maxLon: int, minLat: int, maxLat: int, i: int, j: int)
    requires 0 <= i < j < |CacheRows(minLon, maxLon, minLat, maxLat)|
    ensures CacheRows(minLon, maxLon, minLat, maxLat)[i] != CacheRows(minLon, maxLon, minLat, maxLat)[j]
  {
  }

  // ---------------------------------------------------------------------
  // The CDB tile of an Earth-profile tile
  // ---------------------------------------------------------------------

  /** The western edge Build_Earth_Tile moves the target's western edge
      to: the multiple of the CDB tile width at or below it. */
  function EarthWest(west: real, width: real): (w: real)
    requires width > 0.0
    ensures w <= west < w + width
    ensures (w / width).Floor as real == w / width
  {
    var k := (west / width).Floor;
    FloorBrackets(west, width, k);
    k as real * width
  }

  /** The multiple of `width` by the floor of `west / width` brackets
      `west` and divides back to that floor. */
  lemma FloorBrackets(west: real, width: real, k: int)
    requires width > 0.0 && k == (west / width).Floor
    ensures k as real * width <= west < k as real * width + width
    ensures (k as real * width) / width == k as real
  {
    DivTimes(west, width);
    Bracket(west, west / width, width, k);
  }

  /** Dividing by a positive number and multiplying back is the identity. */
  lemma DivTimes(x: real, c: real)
    requires c > 0.0
    ensures (x / c) * c == x
  {
  }

  /** A value `west` that is `q` widths, with q between k and k + 1, lies
      between the k-th and (k + 1)-th multiples of `width`. */
  lemma Bracket(west: real, q: real, width: real, k: int)
    requires width > 0.0 && q * width == west && k as real <= q < (k + 1) as real
    ensures k as real * width <= west < k as real * width + width
  {
    var d := q - k as real;
    assert west - k as real * width == d * width;
    FractionOfWidth(d, width);
  }

  /** A fraction in [0, 1) of a positive width is in [0, width). */
  lemma FractionOfWidth(d: real, width: real)
    requires width > 0.0 && 0.0 <= d < 1.0
    ensures 0.0 <= d * width < width
  {
    assert width - d * width == (1.0 - d) * width;
  }

  /** Scaling by a positive factor keeps the order. */
  lemma RealMulMonotone(a: real, b: real, c: real)
    requires c > 0.0
    ensures a <= b ==> a * c <= b * c
    ensures a < b ==> a * c < b * c
  {
    assert b * c - a * c == (b - a) * c;
  }

  /** The CDB tile an Earth-profile tile is cut from: the target's rows,
      and one tile width (the zone step over the tiles per degree of the
      LOD) from the snapped western edge. */
  function EarthSource(target: Extent, tilesPerDegree: int): (e: Extent)
    requires tilesPerDegree >= 1
    ensures e.north == target.north && e.south == target.south
    ensures e.west <= target.west < e.east
    ensures e.east - e.west == LonStep(target.south) as real / tilesPerDegree as real
  {
    var width := LonStep(target.south) as real / tilesPerDegree as real;
    var w := EarthWest(target.west, width);
    Extent(target.north, target.south, w + width, w)
  }

  /** The tile an Earth-profile tile is cut from always contributes. */
  lemma EarthSourceContributes(target: Extent, tilesPerDegree: int)
    requires tilesPerDegree >= 1 && target.Valid()
    ensures Contribution.GetContribution(EarthSource(target, tilesPerDegree), target) != Contribution.None
  {
    Contribution.Classification(EarthSource(target, tilesPerDegree), target);
  }

  // ---------------------------------------------------------------------
  // The rectangle a contributor writes
  // ---------------------------------------------------------------------

  /** Rows sy..ey and columns sx..ex of the buffer, both ends included. */
  datatype Rect = Rect(sy: int, ey: int, sx: int, ex: int)

  predicate InRect(r: Rect, col: int, row: int) {
    r.sy <= row <= r.ey && r.sx <= col <= r.ex
  }

  /** The buffer rectangle Build_From_Tiles fills from a contributor: the
      rows and columns its edges fall on, at the target's resolution, cut
      to the buffer at the top, bottom, left and right. */
  function DestRect(target: Extent, tile: Extent, pixX: int, pixY: int): (r: Rect)
    requires target.Valid() && pixX >= 1 && pixY >= 1
    ensures 0 <= r.sy && r.ey <= pixY - 1 && 0 <= r.sx && r.ex <= pixX - 1
  {
    var xres := target.Width() / pixX as real;
    var yres := target.Height() / pixY as real;
    var sy := Trunc((target.north - tile.north) / yres);
    var ey := Trunc((target.north - tile.south) / yres);
    var sx := Trunc((tile.west - target.west) / xres);
    var ex := Trunc((tile.east - target.west) / xres);
    Rect(if sy < 0 then 0 else sy, if ey > pixY - 1 then pixY - 1 else ey,
         if sx < 0 then 0 else sx, if ex > pixX - 1 then pixX - 1 else ex)
  }

  /** Every cell of a contributor's rectangle is a cell of the buffer, so
      the write position row * pixX + column stays inside it. */
  lemma RectInBuffer(target: Extent, tile: Extent, pixX: int, pixY: int, col: int, row: int)
    requires target.Valid() && pixX >= 1 && pixY >= 1
    requires InRect(DestRect(target, tile, pixX, pixY), col, row)
    ensures 0 <= Index(col, row, pixX) < pixX * pixY
  {
    IndexInBounds(col, row, pixX, pixY);
  }

  /** An extent measured in cells of size `span / n` spans at least n of
      them when it is at least `span` long. */
  lemma CellsAcross(len: real, span: real, n: int)
    requires span > 0.0 && len >= span && n >= 1
    ensures Trunc(len / (span / n as real)) >= n
  {
    assert len / (span / n as real) == len * n as real / span;
    assert len * n as real >= span * n as real;
    assert len * n as real / span >= n as real;
  }

  /** A non-positive offset starts at the first cell. */
  lemma CellsBefore(len: real, span: real, n: int)
    requires span > 0.0 && len <= 0.0 && n >= 1
    ensures Trunc(len / (span / n as real)) <= 0
  {
    assert span / n as real > 0.0;
  }

  /** A contributor covering the whole target writes the whole buffer. */
  lemma FullContributorFillsBuffer(target: Extent, tile: Extent, pixX: int, pixY: int)
    requires target.Valid() && pixX >= 1 && pixY >= 1
    requires Contribution.Within(target, tile)
    ensures DestRect(target, tile, pixX, pixY) == Rect(0, pixY - 1, 0, pixX - 1)
  {
    CellsBefore(target.north - tile.north, target.Height(), pixY);
    CellsAcross(target.north - tile.south, target.Height(), pixY);
    CellsBefore(tile.west - target.west, target.Width(), pixX);
    CellsAcross(tile.east - target.west, target.Width(), pixX);
  }

  // ---------------------------------------------------------------------
  // Build_From_Tiles
  // ---------------------------------------------------------------------

  /** A contributing CDB tile: its extent, whether it has a light map (or
      subordinate elevation) and a material file, whether its material
      file carries a mask band, and whether its Load_Tile succeeds. */
  datatype Source = Source(extent: Extent, sub: bool, sub2: bool, maskBand: bool, loads: bool)

  /** Has_Material_Data of a loaded contributor: its read took the
      material branch. */
  predicate HasMaterialData(src: Source) {
    src.sub2 && !src.sub
  }

  /** Has_Mask_Data of a loaded contributor, which shares the tile's mask
      setting: its material read found a mask band. */
  predicate HasMaskData(t: Tile, src: Source) {
    t.setup.maskEnabled && HasMaterialData(src) && src.maskBand
  }

  predicate AnySub(sources: seq<Source>) {
    exists i :: 0 <= i < |sources| && sources[i].sub
  }

  predicate AnySub2(sources: seq<Source>) {
    exists i :: 0 <= i < |sources| && sources[i].sub2
  }

  /** The first two loops of Build_From_Tiles: the tile takes a
      subordinate when any contributor has one (and becomes a subordinate
      composite), and a material file and material data when any
      contributor has a material file. */
  function Flagged(t: Tile, sources: seq<Source>): (u: Tile)
    ensures u.setup.sub == (t.setup.sub || AnySub(sources))
    ensures u.setup.subTile == (t.setup.subTile || AnySub(sources))
    ensures u.setup.sub2 == (t.setup.sub2 || AnySub2(sources))
    ensures u.haveMaterial == (t.haveMaterial || AnySub2(sources))
    ensures u == t.(setup := u.setup.(sub := u.setup.sub, subTile := u.setup.subTile, sub2 := u.setup.sub2),
                    haveMaterial := u.haveMaterial)
    ensures u.setup == t.setup.(sub := u.setup.sub, subTile := u.setup.subTile, sub2 := u.setup.sub2)
  {
    var u := if AnySub(sources) then t.(setup := t.setup.(sub := true, subTile := true)) else t;
    if AnySub2(sources) then u.(setup := u.setup.(sub2 := true), haveMaterial := true) else u
  }

  /** The buffers a loaded contributor's pixels are written to: colour,
      light-map, or material and mask bands for imagery; the elevation
      band, and the subordinate band for a subordinate composite when the
      contributor has one, for elevation. */
  function Writes(t: Tile, src: Source): (bands: set<Band>)
    ensures bands <= Needed(t)
  {
    if ImageryKind(t.kind) then
      if !t.setup.sub && !t.setup.sub2 then {RgbBands}
      else if t.setup.sub then {LightmapBands}
      else (if HasMaterialData(src) then {MaterialBand} else {})
           + (if HasMaskData(t, src) then {MaskBand} else {})
    else if ElevationKind(t.kind) then
      if t.setup.subTile && src.sub then {ElevationBand, SubordinateBand} else {ElevationBand}
    else {}
  }

  /** What Build_From_Tiles leaves: the tile, for each contributor the
      rectangle it wrote (None when it did not contribute or failed to
      load) and whether its resources were released, and the buffers
      written. */
  datatype Assembly = Assembly(tile: Tile, rects: seq<Option<Rect>>, freed: seq<bool>, written: set<Band>)

  predicate Contributes(src: Source, target: Extent) {
    Contribution.GetContribution(src.extent, target) != Contribution.None
  }

  /** What one contributor does to the tile being built. */
  datatype Visit = Visit(rect: Option<Rect>, freed: bool, mask: bool, written: set<Band>)

  /** One turn of the contributor loop: a Full or Partial contributor is
      released; if it also loads, it writes its rectangle into the
      buffers of `start`'s kind and, for a material composite, reports
      whether it has mask data. */
  function VisitOf(start: Tile, target: Extent, pixX: int, pixY: int, src: Source): (v: Visit)
    requires target.Valid() && pixX >= 1 && pixY >= 1
    ensures v.freed == Contributes(src, target)
    ensures v.rect == if Contributes(src, target) && src.loads
                      then Some(DestRect(target, src.extent, pixX, pixY)) else None
    ensures v.mask == (v.rect.Some? && start.setup.sub2 && HasMaskData(start, src))
    ensures v.written <= Needed(start)
  {
    var contrib := Contribution.GetContribution(src.extent, target);
    if contrib == Contribution.Full || contrib == Contribution.Partial then
      if src.loads then
        Visit(Some(DestRect(target, src.extent, pixX, pixY)), true,
              start.setup.sub2 && HasMaskData(start, src), Writes(start, src))
      else Visit(None, true, false, {})
    else Visit(None, false, false, {})
  }

  /** The turns of the contributor loop, one per contributor. */
  function Visits(start: Tile, target: Extent, pixX: int, pixY: int, sources: seq<Source>): (vs: seq<Visit>)
    requires target.Valid() && pixX >= 1 && pixY >= 1
    ensures |vs| == |sources|
    ensures forall i :: 0 <= i < |sources| ==> vs[i] == VisitOf(start, target, pixX, pixY, sources[i])
  {
    seq(|sources|, i requires 0 <= i < |sources| => VisitOf(start, target, pixX, pixY, sources[i]))
  }

  /** The contributor loop of Build_From_Tiles, from the tile `start` as
      read or filled, over its turns `vs`: the rectangles and releases are
      recorded in order, the buffers written collected, mask data noted
      when any turn reports it, and the tile is Loaded when any turn wrote
      a rectangle; nothing else about the tile changes. */
  method Contribute(start: Tile, vs: seq<Visit>) returns (a: Assembly)
    requires forall k :: 0 <= k < |vs| ==> vs[k].written <= Needed(start)
    ensures |a.rects| == |vs| && |a.freed| == |vs|
    ensures forall i :: 0 <= i < |vs| ==> a.rects[i] == vs[i].rect && a.freed[i] == vs[i].freed
    ensures a.tile.status == Loaded <==> (start.status == Loaded || exists i :: 0 <= i < |vs| && vs[i].rect.Some?)
    ensures a.tile.status != Loaded ==> a.tile.status == start.status
    ensures a.tile.haveMask <==> (start.haveMask || exists i :: 0 <= i < |vs| && vs[i].mask)
    ensures a.tile == start.(status := a.tile.status, haveMask := a.tile.haveMask)
    ensures a.written <= Needed(start)
    ensures forall i :: 0 <= i < |vs| ==> vs[i].written <= a.written
  {
    var rects: seq<Option<Rect>> := [];
    var freed: seq<bool> := [];
    var written: set<Band> := {};
    var haveSome := false;
    var haveMask := start.haveMask;
    for i := 0 to |vs|
      invariant |rects| == i && |freed| == i
      invariant forall k :: 0 <= k < i ==> rects[k] == vs[k].rect && freed[k] == vs[k].freed
      invariant haveSome <==> exists k :: 0 <= k < i && vs[k].rect.Some?
      invariant haveMask <==> (start.haveMask || exists k :: 0 <= k < i && vs[k].mask)
      invariant written <= Needed(start)
      invariant forall k :: 0 <= k < i ==> vs[k].written <= written
    {
      var v := vs[i];
      rects := rects + [v.rect];
      freed := freed + [v.freed];
      haveSome := haveSome || v.rect.Some?;
      haveMask := haveMask || v.mask;
      written := written + v.written;
    }
    var tile := start.(haveMask := haveMask);
    if haveSome {
      tile := tile.(status := Loaded);
    }
    a := Assembly(tile, rects, freed, written);
  }

  /** The tile Build_From_Tiles starts from, with the buffers it filled. */
  datatype Start = Start(tile: Tile, filled: set<Band>)

  /** Allocate the flagged tile's buffers, then either open and read the
      tile's existing file (when not building from scratch and it exists)
      or fill the buffers. */
  function Prepare(t: Tile, fromScratch: bool, files: Files, io: Io, maskBands: int): (s: Start)
    ensures Needed(t) <= s.tile.buffers
    ensures s.tile.setup == t.setup && s.tile.kind == t.kind
    ensures s.filled <= Needed(t)
    ensures fromScratch || !t.setup.fileExists ==>
      s.tile.status == t.status && (ImageryKind(t.kind) ==> s.filled == Needed(t))
  {
    var u := Allocate(t);
    if !fromScratch && t.setup.fileExists then
      var o := OpenTile(u, files, false);
      Start(Read(o.tile, io, maskBands).out.tile, {})
    else Start(u, Fill(u))
  }

  /** Prepare fills with the corrected Fill_Tile: a plain imagery tile
      built from scratch gets its colour bands, where Fill_Tile as written
      writes none. */
  lemma PrepareFillsPlainImagery(t: Tile, files: Files, io: Io, maskBands: int)
    requires t.kind == Imagery && !t.setup.sub && !t.setup.sub2
    ensures Prepare(t, true, files, io, maskBands).filled == {RgbBands}
    ensures FillAsWritten(Allocate(t)) == {}
  {
  }

  /** Build_From_Tiles. */
  method BuildFromTiles(t: Tile, target: Extent, pixX: int, pixY: int, sources: seq<Source>,
                        fromScratch: bool, files: Files, io: Io, maskBands: int)
    returns (a: Assembly, filled: set<Band>)
    requires target.Valid() && pixX >= 1 && pixY >= 1
    ensures a.tile.setup.sub == (t.setup.sub || AnySub(sources))
    ensures a.tile.setup.subTile == (t.setup.subTile || AnySub(sources))
    ensures a.tile.setup.sub2 == (t.setup.sub2 || AnySub2(sources))
    ensures Needed(a.tile) <= a.tile.buffers
    ensures a.written <= a.tile.buffers && filled <= a.tile.buffers
    ensures ImageryKind(t.kind) && (fromScratch || !t.setup.fileExists) ==> Needed(a.tile) <= filled
    ensures |a.freed| == |sources| && |a.rects| == |sources|
    ensures forall i :: 0 <= i < |sources| ==> (a.freed[i] <==> Contributes(sources[i], target))
    ensures forall i :: 0 <= i < |sources| ==>
      a.rects[i] == if Contributes(sources[i], target) && sources[i].loads
                    then Some(DestRect(target, sources[i].extent, pixX, pixY)) else None
    ensures fromScratch || !t.setup.fileExists ==>
      (a.tile.status == Loaded <==>
        (t.status == Loaded || exists i :: 0 <= i < |sources| && Contributes(sources[i], target) && sources[i].loads))
  {
    var flagged := Flagged(t, sources);
    var s := Prepare(flagged, fromScratch, files, io, maskBands);
    var vs := Visits(s.tile, target, pixX, pixY, sources);
    a := Contribute(s.tile, vs);
    filled := s.filled;
    SameNeeds(flagged, s.tile);
    SameNeeds(s.tile, a.tile);
    if fromScratch || !t.setup.fileExists {
      assert (exists i :: 0 <= i < |vs| && vs[i].rect.Some?) <==>
        exists i :: 0 <= i < |sources| && Contributes(sources[i], target) && sources[i].loads;
    }
  }

  /** The buffers a tile needs depend only on its kind and set-up. */
  lemma SameNeeds(t: Tile, u: Tile)
    requires u.setup == t.setup && u.kind == t.kind
    ensures Needed(u) == Needed(t)
  {
  }

  // ---------------------------------------------------------------------
  // Build_Cache_Tile and Build_Earth_Tile
  // ---------------------------------------------------------------------

  /** What the store holds for one CDB tile: whether it has a light map
      (or subordinate elevation) and a material file, whether the material
      file carries a mask band, and whether Load_Tile succeeds on it. */
  datatype Listing = Listing(sub: bool, sub2: bool, maskBand: bool, loads: bool)

  /** The extent of the geocell with southern edge `c.0` and western edge
      `c.1`. */
  function CellExtent(c: (int, int)): (e: Extent)
    ensures e.Valid()
  {
    Extent((c.0 + 1) as real, c.0 as real, (c.1 + Step(c.0)) as real, c.1 as real)
  }

  function SourceAt(c: (int, int), l: Listing): Source {
    Source(CellExtent(c), l.sub, l.sub2, l.maskBand, l.loads)
  }

  /** The cells Tile_Exists finds in the store, in visiting order. */
  function ExistingTiles(cells: seq<(int, int)>, store: map<(int, int), Listing>): (tiles: seq<Source>)
    ensures |tiles| == 0 <==> forall c :: c in cells ==> c !in store
    ensures forall c :: c in cells && c in store ==> SourceAt(c, store[c]) in tiles
    ensures forall k :: 0 <= k < |tiles| ==>
      exists c :: c in cells && c in store && tiles[k] == SourceAt(c, store[c])
    decreases |cells|
  {
    if |cells| == 0 then []
    else
      var rest := ExistingTiles(cells[1..], store);
      assert forall c :: c in cells <==> c == cells[0] || c in cells[1..];
      if cells[0] in store then [SourceAt(cells[0], store[cells[0]])] + rest else rest
  }

  /** A geocell of the cache tile [minLat, maxLat] by [minLon, maxLon]. */
  predicate CacheCell(minLon: int, maxLon: int, minLat: int, maxLat: int, c: (int, int)) {
    minLat <= c.0 <= maxLat && c.1 % Step(c.0) == 0 && minLon < c.1 + Step(c.0) && c.1 <= maxLon
  }

  /** The store holds a tile of a visited cell exactly when it holds one
      of the cache tile's geocells. */
  lemma StoredCells(minLon: int, maxLon: int, minLat: int, maxLat: int, store: map<(int, int), Listing>)
    requires minLon <= maxLon && minLat <= maxLat
    ensures (forall c :: c in CacheRows(minLon, maxLon, minLat, maxLat) ==> c !in store)
        <==> !exists c :: c in store && CacheCell(minLon, maxLon, minLat, maxLat, c)
  {
    var cells := CacheRows(minLon, maxLon, minLat, maxLat);
    forall c | true
      ensures c in cells <==> CacheCell(minLon, maxLon, minLat, maxLat, c)
    {
      CacheCells(minLon, maxLon, minLat, maxLat, c.0, c.1);
    }
  }

  /** The contributors of a cache tile: the stored tiles of the cells it
      visits. There are some exactly when the store holds a tile of one
      of its geocells, and each is the stored tile of one. */
  function CacheSources(minLon: int, maxLon: int, minLat: int, maxLat: int, store: map<(int, int), Listing>)
    : (tiles: seq<Source>)
    requires minLon <= maxLon && minLat <= maxLat
    ensures |tiles| == 0 <==> !exists c :: c in store && CacheCell(minLon, maxLon, minLat, maxLat, c)
  {
    StoredCells(minLon, maxLon, minLat, maxLat, store);
    ExistingTiles(CacheRows(minLon, maxLon, minLat, maxLat), store)
  }

  /** Build_Cache_Tile: collect the stored tiles of the tile's geocells;
      with none there is nothing to build; otherwise build from them on
      top of the tile's existing file, and save the result when asked to
      and it loaded. */
  method BuildCacheTile(t: Tile, minLon: int, maxLon: int, minLat: int, maxLat: int, pixX: int, pixY: int,
                        store: map<(int, int), Listing>, saveCache: bool, files: Files, io: Io, maskBands: int)
    returns (built: bool, u: Tile, saved: bool)
    requires minLon < maxLon && minLat < maxLat && pixX >= 1 && pixY >= 1
    ensures built <==> exists c :: c in store && CacheCell(minLon, maxLon, minLat, maxLat, c)
    ensures !built ==> u == t && !saved
    ensures saved <==> built && saveCache && u.status == Loaded
    ensures saved ==> u.setup.fileExists
    ensures built ==> Needed(u) <= u.buffers
  {
    var tiles := CacheSources(minLon, maxLon, minLat, maxLat, store);
    if |tiles| == 0 {
      return false, t, false;
    }
    var target := Extent(maxLat as real, minLat as real, maxLon as real, minLon as real);
    var a, filled := BuildFromTiles(t, target, pixX, pixY, tiles, false, files, io, maskBands);
    u := a.tile;
    built := true;
    saved := saveCache && u.status == Loaded;
    if saved {
      NeededIgnoresFile(u);
      u := u.(setup := u.setup.(fileExists := true));
    }
  }

  /** Saving a tile's file changes none of the buffers it needs. */
  lemma NeededIgnoresFile(t: Tile)
    ensures Needed(t.(setup := t.setup.(fileExists := true))) == Needed(t)
  {
  }

  /** Build_Earth_Tile: the one CDB tile the target is cut from, if the
      store has it, is the only contributor of a build from scratch; the
      target takes its subordinate. */
  method BuildEarthTile(t: Tile, target: Extent, tilesPerDegree: int, present: Option<Listing>,
                        pixX: int, pixY: int, files: Files, io: Io, maskBands: int)
    returns (built: bool, u: Tile)
    requires target.Valid() && tilesPerDegree >= 1 && pixX >= 1 && pixY >= 1
    ensures built <==> present.Some?
    ensures !built ==> u == t
    ensures built ==> (u.status == Loaded <==> t.status == Loaded || present.value.loads)
    ensures built ==> u.setup.subTile == (t.setup.subTile || present.value.sub)
    ensures built ==> Needed(u) <= u.buffers
  {
    if present.None? {
      return false, t;
    }
    var l := present.value;
    var src := Source(EarthSource(target, tilesPerDegree), l.sub, l.sub2, l.maskBand, l.loads);
    EarthSourceContributes(target, tilesPerDegree);
    var t1 := if l.sub then t.(setup := t.setup.(subTile := true)) else t;
    assert [src][0] == src;
    assert AnySub([src]) == l.sub by {
      if l.sub {
        assert [src][0].sub;
      }
    }
    var a, filled := BuildFromTiles(t1, target, pixX, pixY, [src], true, files, io, maskBands);
    assert a.tile.status == Loaded <==> t.status == Loaded || (Contributes(src, target) && src.loads);
    return true, a.tile;
  }
}

=== FILE: contribution.dfy ===
/** How much of a target extent a candidate tile can supply: nothing, part
    of it, or all of it. The candidate is the tile asked; the target is
    the extent of the tile being assembled. */
module Contribution {
  import opened Extents

  datatype Contrib = None | Partial | Full

  /** Point_is_Inside_Tile: strictly inside, so a point on an edge is
      outside. */
  predicate StrictlyInside(lon: real, lat: real, e: Extent) {
    e.west < lon < e.east && e.south < lat < e.north
  }

  /** Image_Is_Inside_Tile: Partial when any of the candidate's four
      corners lies strictly inside the target, None otherwise. */
  function CornerTest(candidate: Extent, target: Extent): (c: Contrib)
    ensures c != Full
    ensures c == Partial <==> exists corner :: corner in Corners(candidate)
                                && StrictlyInside(corner.0, corner.1, target)
  {
    var count :=
      (if StrictlyInside(candidate.west, candidate.north, target) then 1 else 0)
      + (if StrictlyInside(candidate.east, candidate.north, target) then 1 else 0)
      + (if StrictlyInside(candidate.east, candidate.south, target) then 1 else 0)
      + (if StrictlyInside(candidate.west, candidate.south, target) then 1 else 0);
    assert count > 0 <==> exists corner :: corner in Corners(candidate)
                             && StrictlyInside(corner.0, corner.1, target) by {
      var cs := Corners(candidate);
      assert cs[0] in cs && cs[1] in cs && cs[2] in cs && cs[3] in cs;
    }
    if count > 0 then Partial else None
  }

  /** The candidate's corners, as (longitude, latitude), in the order the
      test visits them. */
  function Corners(e: Extent): seq<(real, real)> {
    [(e.west, e.north), (e.east, e.north), (e.east, e.south), (e.west, e.south)]
  }

  /** Get_Contribution: the corner test first; failing that, None when the
      two extents are apart, Full when the target lies within the
      candidate's bounds (edges included), Partial otherwise. */
  function GetContribution(candidate: Extent, target: Extent): (c: Contrib)
    ensures c == Full ==> Within(target, candidate)
    ensures c == None ==> Apart(candidate, target)
  {
    var corners := CornerTest(candidate, target);
    if corners != None then corners
    else if target.north < candidate.south || target.south > candidate.north
         || target.east < candidate.west || target.west > candidate.east then None
    else if target.north <= candidate.north && target.south >= candidate.south
         && target.east <= candidate.east && target.west >= candidate.west then Full
    else Partial
  }

  /** The closed extents share no point. */
  predicate Apart(a: Extent, b: Extent) {
    b.north < a.south || b.south > a.north || b.east < a.west || b.west > a.east
  }

  /** `inner` lies within `outer`, edges included. */
  predicate Within(inner: Extent, outer: Extent) {
    outer.south <= inner.south && inner.north <= outer.north
    && outer.west <= inner.west && inner.east <= outer.east
  }

  /** A point of the closed extent. */
  predicate InClosed(lon: real, lat: real, e: Extent) {
    e.west <= lon <= e.east && e.south <= lat <= e.north
  }

  /** A corner strictly inside the target is a point the two share. */
  lemma CornerInsideMeetsTarget(candidate: Extent, target: Extent)
    requires candidate.Valid() && CornerTest(candidate, target) == Partial
    ensures !Apart(candidate, target)
  {
    var corner :| corner in Corners(candidate) && StrictlyInside(corner.0, corner.1, target);
  }

  /** A target within a valid candidate has none of the candidate's
      corners strictly inside it. */
  lemma WithinHasNoCornerInside(candidate: Extent, target: Extent)
    requires Within(target, candidate)
    ensures CornerTest(candidate, target) == None
  {
  }

  /** The classification, stated without the corner test: None exactly
      when the extents are apart, Full exactly when the target lies within
      the candidate, Partial for every other overlap. */
  lemma Classification(candidate: Extent, target: Extent)
    requires candidate.Valid()
    ensures GetContribution(candidate, target) ==
      if Apart(candidate, target) then None
      else if Within(target, candidate) then Full
      else Partial
  {
    if CornerTest(candidate, target) == Partial {
      CornerInsideMeetsTarget(candidate, target);
      if Within(target, candidate) {
        WithinHasNoCornerInside(candidate, target);
      }
    }
  }

  /** None exactly when no point of the plane lies in both extents. */
  lemma NoneIffDisjoint(candidate: Extent, target: Extent)
    requires candidate.Valid() && target.Valid()
    ensures GetContribution(candidate, target) == None
        <==> forall lon, lat :: !(InClosed(lon, lat, candidate) && InClosed(lon, lat, target))
  {
    Classification(candidate, target);
    if !Apart(candidate, target) {
      var lon := if candidate.west < target.west then target.west else candidate.west;
      var lat := if candidate.south < target.south then target.south else candidate.south;
      assert InClosed(lon, lat, candidate) && InClosed(lon, lat, target);
    }
  }

  /** Full exactly when every point of the target is a point of the
      candidate. */
  lemma FullIffCovered(candidate: Extent, target: Extent)
    requires candidate.Valid() && target.Valid()
    ensures GetContribution(candidate, target) == Full
        <==> forall lon, lat :: InClosed(lon, lat, target) ==> InClosed(lon, lat, candidate)
  {
    Classification(candidate, target);
    if !Within(target, candidate) {
      assert InClosed(target.west, target.north, target) && InClosed(target.east, target.south, target);
    }
  }
}

=== FILE: driver.dfy ===
/** The CDB image layer: how it lays out its profile from the Limits
    option, when it uses a cache, and which path a tile read takes. */
module Driver {
  import opened Optional
  import opened Numerics
  import opened Geocells
  import Composite
  import opened Versions
  import TileLifecycle

  // ---------------------------------------------------------------------
  // Limits and profile
  // ---------------------------------------------------------------------

  /** The four numbers of the Limits option, in the order they are given:
      minimum longitude, minimum latitude, maximum longitude, maximum
      latitude. */
  datatype Limits = Limits(minLon: real, minLat: real, maxLon: real, maxLat: real)

  /** The profile the layer creates: its bounds in whole degrees and its
      number of root tiles across and down. */
  datatype Profile = Profile(minLon: int, minLat: int, maxLon: int, maxLat: int, tilesX: int, tilesY: int)

  /** The world profile used without usable limits: -180..204 by
      -102..90 in 12 by 6 root tiles. */
  const WorldProfile := Profile(-180, -102, 204, 90, 12, 6)

  /** The number of root tiles a profile side holds per tile of LOD 0:
      `2 << n` for n negative LODs, 1 without any. */
  function Subfact(negLods: int): (f: int)
    ensures f >= 1
    ensures negLods > 0 ==> f == Pow2(negLods + 1)
    ensures negLods <= 0 ==> f == 1
  {
    if negLods > 0 then Pow2(negLods + 1) else 1
  }

  /** The tiles_x / tiles_y adjustment: a count that is not a multiple of
      `f` is raised to the next one. */
  function RoundUpTo(n: int, f: int): (m: int)
    requires n >= 1 && f >= 1
    ensures m % f == 0 && n <= m < n + f
    ensures (m / f) * f == m && m / f >= 1
  {
    if n % f != 0 then
      NextMultipleUp(n, f);
      ((n + f) / f) * f
    else
      MultipleMod(n / f, f);
      n
  }

  /** ((n + f) / f) * f is the multiple of f just above an n that is not
      one. */
  lemma NextMultipleUp(n: int, f: int)
    requires n >= 1 && f >= 1 && n % f != 0
    ensures ((n + f) / f) * f % f == 0
    ensures n < ((n + f) / f) * f < n + f
  {
    var q, r := n / f, n % f;
    var d, m := (n + f) / f, (n + f) % f;
    assert n == q * f + r;
    assert n + f == d * f + m;
    assert (q + 1) * f == q * f + f;
    if d > q + 1 {
      MulStep(q + 1, d, f);
    } else if d < q + 1 {
      MulStep(d, q + 1, f);
    }
    assert d == q + 1;
    MultipleMod(d, f);
  }

  /** The negation of a grid line is a grid line. */
  lemma NegatedOnGrid(c: int, step: int)
    requires step >= 1 && c % step == 0
    ensures (-c) % step == 0
  {
    var a := c / step;
    assert c == a * step;
    assert -c == (-a) * step;
    MultipleMod(-a, step);
  }

  /** The larger of the two longitude steps of the limits' latitudes. */
  function LimitsStep(minLat: int, maxLat: int): (step: int)
    ensures step >= 1 && step >= LonStep(minLat as real) && step >= LonStep(maxLat as real)
    ensures step == LonStep(minLat as real) || step == LonStep(maxLat as real)
  {
    if LonStep(maxLat as real) > LonStep(minLat as real) then LonStep(maxLat as real) else LonStep(minLat as real)
  }

  /** The widening of CDB.cpp as written: a minimum longitude off the
      step grid becomes (lon - step) * step, a maximum one (lon + step) *
      step. */
  function WidenAsWritten(lon: int, step: int, west: bool): int {
    if step > 1 && CMod(lon, step) != 0 then
      if west then (lon - step) * step else (lon + step) * step
    else lon
  }

  /** The widening as intended: the minimum longitude snapped down and the
      maximum snapped up to the step grid, so that whole geocells are
      kept. */
  function Widen(lon: int, step: int, west: bool): (w: int)
    requires step >= 1
    ensures w % step == 0
    ensures west ==> w <= lon < w + step
    ensures !west ==> w - step < lon <= w
  {
    if west then Composite.CacheSnap(lon, step)
    else
      var c := Composite.CacheSnap(-lon, step);
      NegatedOnGrid(c, step);
      -c
  }

  /** The western and eastern profile edges the rounded limit longitudes
      are widened to, as written or as intended. */
  function WestEdge(l: Limits, asWritten: bool): int {
    var step := LimitsStep(Round(l.minLat), Round(l.maxLat));
    if asWritten then WidenAsWritten(Round(l.minLon), step, true) else Widen(Round(l.minLon), step, true)
  }

  function EastEdge(l: Limits, asWritten: bool): int {
    var step := LimitsStep(Round(l.minLat), Round(l.maxLat));
    if asWritten then WidenAsWritten(Round(l.maxLon), step, false) else Widen(Round(l.maxLon), step, false)
  }

  /** The profile built from four limits: all four rounded to whole
      degrees, the longitudes widened to the coarser of the two latitudes'
      geocell steps (as written or as intended), then each side raised to
      a multiple of the subfactor; None when the widened limits enclose no
      area. */
  function LimitsProfileVia(l: Limits, negLods: int, asWritten: bool): (p: Option<Profile>)
    ensures p.Some? <==> EastEdge(l, asWritten) > WestEdge(l, asWritten) && Round(l.maxLat) > Round(l.minLat)
    ensures p.Some? ==>
      && p.value.minLon == WestEdge(l, asWritten) && p.value.minLat == Round(l.minLat)
      && EastEdge(l, asWritten) <= p.value.maxLon < EastEdge(l, asWritten) + Subfact(negLods)
      && Round(l.maxLat) <= p.value.maxLat < Round(l.maxLat) + Subfact(negLods)
      && p.value.tilesX >= 1 && p.value.tilesY >= 1
      && p.value.maxLon - p.value.minLon == p.value.tilesX * Subfact(negLods)
      && p.value.maxLat - p.value.minLat == p.value.tilesY * Subfact(negLods)
  {
    var minLat, maxLat := Round(l.minLat), Round(l.maxLat);
    var west, east := WestEdge(l, asWritten), EastEdge(l, asWritten);
    var f := Subfact(negLods);
    if east > west && maxLat > minLat then
      var tx, ty := RoundUpTo(east - west, f), RoundUpTo(maxLat - minLat, f);
      Some(Profile(west, minLat, west + tx, minLat + ty, tx / f, ty / f))
    else None
  }

  function LimitsProfileAsWritten(l: Limits, negLods: int): Option<Profile> {
    LimitsProfileVia(l, negLods, true)
  }

  /** The profile from the limits as intended: it covers the rounded
      limits, starts on the geocell grid, and splits into whole root tiles
      of `Subfact` degrees. */
  function LimitsProfile(l: Limits, negLods: int): (p: Option<Profile>)
    ensures p.Some? ==>
      var step := LimitsStep(Round(l.minLat), Round(l.maxLat));
      && p.value.minLon <= Round(l.minLon) < p.value.minLon + step
      && p.value.minLon % step == 0
      && Round(l.maxLon) <= p.value.maxLon
      && p.value.minLat == Round(l.minLat)
      && Round(l.maxLat) <= p.value.maxLat < Round(l.maxLat) + Subfact(negLods)
      && p.value.tilesX >= 1 && p.value.tilesY >= 1
      && p.value.maxLon - p.value.minLon == p.value.tilesX * Subfact(negLods)
      && p.value.maxLat - p.value.minLat == p.value.tilesY * Subfact(negLods)
    ensures Round(l.maxLon) > Round(l.minLon) && Round(l.maxLat) > Round(l.minLat) ==> p.Some?
    ensures Round(l.maxLat) <= Round(l.minLat) ==> p.None?
  {
    LimitsProfileVia(l, negLods, false)
  }

  /** With limits 7..9 degrees east at 55..56 degrees north, where
      geocells are two degrees wide, the profile as written starts at 10
      degrees east and misses the cells the limits ask for, whereas the
      snapped one runs from 6 to 10. */
  lemma LimitsAsWrittenLosesWest()
    ensures LimitsProfileAsWritten(Limits(7.0, 55.0, 9.0, 56.0), 0) == Some(Profile(10, 55, 22, 56, 12, 1))
    ensures LimitsProfile(Limits(7.0, 55.0, 9.0, 56.0), 0) == Some(Profile(6, 55, 10, 56, 4, 1))
  {
    assert Round(7.0) == 7 && Round(9.0) == 9 && Round(55.0) == 55 && Round(56.0) == 56;
    LonStepConstantInBand(55, 55.0);
    LonStepConstantInBand(56, 56.0);
    assert LonStep(55.0) == 2 && LonStep(56.0) == 2;
    assert CMod(7, 2) == 1 && CMod(9, 2) == 1;
    assert Composite.CacheSnap(7, 2) == 6 && Composite.CacheSnap(-9, 2) == -10;
  }

  /** What open fixes from the options: the profile, the number of
      negative LODs, the highest LOD of the data extent, and whether the
      profile came from the limits (profile_set). */
  datatype Layout = Layout(profile: Profile, negLods: int, maxDataLevel: int, fromLimits: bool)

  /** The layout, with the limits widened as in version `v`: limits that
      enclose an area give their profile with the requested negative LODs
      (default 0) and one extra level; otherwise the world profile with
      five negative LODs. MaxCDBLevel defaults to 14. */
  function Configure(v: Version, limits: Option<Limits>, maxCdbLevel: Option<int>, numNegLods: Option<int>)
    : (lay: Layout)
    ensures var maxData := if maxCdbLevel.Some? then maxCdbLevel.value else 14;
      var neg := if numNegLods.Some? then numNegLods.value else 0;
      && (!lay.fromLimits ==> lay == Layout(WorldProfile, 5, maxData + 5, false))
      && (lay.fromLimits ==>
            && limits.Some? && lay.negLods == neg && lay.maxDataLevel == maxData + neg + 1
            && lay.profile.tilesX >= 1 && lay.profile.tilesY >= 1
            && lay.profile.maxLon - lay.profile.minLon == lay.profile.tilesX * Subfact(neg)
            && lay.profile.maxLat - lay.profile.minLat == lay.profile.tilesY * Subfact(neg)
            && lay.profile.minLat == Round(limits.value.minLat)
            && Round(limits.value.maxLat) <= lay.profile.maxLat)
      && (limits.None? ==> !lay.fromLimits)
      && (limits.Some? && Round(limits.value.maxLat) <= Round(limits.value.minLat) ==> !lay.fromLimits)
    ensures v == Corrected && lay.fromLimits ==>
      lay.profile.minLon <= Round(limits.value.minLon) && Round(limits.value.maxLon) <= lay.profile.maxLon
    ensures (&& v == Corrected && limits.Some?
             && Round(limits.value.maxLon) > Round(limits.value.minLon)
             && Round(limits.value.maxLat) > Round(limits.value.minLat)) ==> lay.fromLimits
  {
    var maxData := if maxCdbLevel.Some? then maxCdbLevel.value else 14;
    var neg := if numNegLods.Some? then numNegLods.value else 0;
    var p := if limits.Some? then LimitsProfileVia(limits.value, neg, v == AsWritten) else None;
    assert v == Corrected && limits.Some? ==> p == LimitsProfile(limits.value, neg);
    match p
    case Some(prof) => Layout(prof, neg, maxData + neg + 1, true)
    case None => Layout(WorldProfile, 5, maxData + 5, false)
  }

  /** With limits 7..8 degrees east at 55..56 degrees north, the minimum
      longitude as written becomes 10, east of the maximum, so the limits
      are dropped for the world profile with five negative LODs; snapped,
      they give a 6..8 profile. */
  lemma ConfigureAsWrittenDropsLimits()
    ensures Configure(AsWritten, Some(Limits(7.0, 55.0, 8.0, 56.0)), None, None) == Layout(WorldProfile, 5, 19, false)
    ensures Configure(Corrected, Some(Limits(7.0, 55.0, 8.0, 56.0)), None, None) == Layout(Profile(6, 55, 8, 56, 2, 1), 0, 15, true)
  {
  }

  /** The world profile's root tiles are 32 degrees square, which at five
      negative LODs (a subfactor of 64) is half a LOD-0 tile: each side is
      a whole number of root tiles. */
  lemma WorldProfileTiles()
    ensures (WorldProfile.maxLon - WorldProfile.minLon) == WorldProfile.tilesX * 32
    ensures (WorldProfile.maxLat - WorldProfile.minLat) == WorldProfile.tilesY * 32
  {
  }

  // ---------------------------------------------------------------------
  // Cache
  // ---------------------------------------------------------------------

  /** Whether the layer uses a cache, and where. The cacheDir option turns
      the cache on. Without it, when the world profile is in use and no
      error occurred, the layer tries `<root>/osgEarth/CDB_Cache` and uses
      it if it exists. */
  function CacheSetting(cacheDir: Option<string>, rootDir: string, profileSet: bool, errorSet: bool,
                        defaultExists: bool): (r: (bool, string))
    ensures cacheDir.Some? ==> r == (true, cacheDir.value)
    ensures cacheDir.None? && !profileSet && !errorSet ==> r == (defaultExists, rootDir + "/osgEarth/CDB_Cache")
    ensures r.0 <==> cacheDir.Some? || (!profileSet && !errorSet && defaultExists)
  {
    if cacheDir.Some? then (true, cacheDir.value)
    else if !profileSet && !errorSet then (defaultExists, rootDir + "/osgEarth/CDB_Cache")
    else (false, "")
  }

  // ---------------------------------------------------------------------
  // Reading a tile
  // ---------------------------------------------------------------------

  /** The path a read takes: load the stored tile, blacklist its file
      name, assemble it from an Earth tile, or assemble it from cache
      tiles (using the cache or not). */
  datatype Route = LoadStored | Blacklist | BuildEarth | BuildCache(useCache: bool)

  /** read's dispatch on the tile's CDB LOD, the longitude step at its
      south edge, and whether its file exists. */
  function ReadRoute(cdbLod: int, south: real, present: bool, useCache: bool): (r: Route)
    ensures r == Blacklist <==> cdbLod >= 0 && LonStep(south) == 1 && !present
    ensures r == BuildEarth <==> cdbLod >= 0 && LonStep(south) != 1
    ensures r.BuildCache? <==> cdbLod < 0 && !present
    ensures r.BuildCache? ==> r.useCache == useCache
    ensures r == LoadStored <==> present && (cdbLod < 0 || LonStep(south) == 1)
  {
    if cdbLod >= 0 then
      if LonStep(south) == 1 then (if present then LoadStored else Blacklist)
      else BuildEarth
    else if present then LoadStored
    else BuildCache(useCache)
  }

  /** The image a read returns. Image_From_Tile gives one only for a
      tile that ended Loaded (`loaded`): the stored tile after Load_Tile,
      or a built tile when its builder reported success (`built`); a
      blacklisted tile gives none. */
  function ReadImage(r: Route, built: bool, loaded: bool): (image: bool)
    ensures image ==> loaded && r != Blacklist
    ensures r == LoadStored ==> (image <==> loaded)
    ensures (r == BuildEarth || r.BuildCache?) ==> (image <==> built && loaded)
  {
    match r
    case LoadStored => loaded
    case Blacklist => false
    case BuildEarth => built && loaded
    case BuildCache(_) => built && loaded
  }

  /** A stored tile's read gives an image exactly when Load_Tile
      succeeds on it. */
  lemma StoredImageIffLoaded(t: TileLifecycle.Tile, files: TileLifecycle.Files, io: TileLifecycle.Io,
                             maskBands: int, built: bool)
    ensures var o := TileLifecycle.LoadTile(t, files, false, io, maskBands);
      ReadImage(LoadStored, built, o.tile.status == TileLifecycle.Loaded) <==> o.ok
  {
  }

  /** A tile at a non-negative CDB LOD in the one-degree band is never
      assembled: it is read from its file or blacklisted. */
  lemma NativeBandIsNeverBuilt(cdbLod: int, south: real, present: bool, useCache: bool)
    requires cdbLod >= 0 && -50.0 < south < 50.0
    ensures ReadRoute(cdbLod, south, present, useCache) == (if present then LoadStored else Blacklist)
  {
    LonStepLowLatitudes(south);
  }

  /** A read yields no image exactly when it blacklisted the tile, a
      build reported failure, or the tile did not end Loaded. */
  lemma NoImageIffBlacklistedOrUnbuilt(cdbLod: int, south: real, present: bool, useCache: bool, built: bool, loaded: bool)
    ensures var r := ReadRoute(cdbLod, south, present, useCache);
      !ReadImage(r, built, loaded) <==>
        (cdbLod >= 0 && LonStep(south) == 1 && !present) || (!present && !built) || (cdbLod >= 0 && LonStep(south) != 1 && !built) || !loaded
  {
  }
}

=== FILE: extents.dfy ===
/** A tile's geographic bounds in degrees (the tile extent record: north,
    south, east, west). Bounds are exact reals; the double rounding of the
    C++ code is not modelled. */
module Extents {

  datatype Extent = Extent(north: real, south: real, east: real, west: real) {

    /** Non-empty in both directions, as every extent the driver builds is. */
    predicate Valid() {
      north > south && east > west
    }

    function Height(): real {
      north - south
    }

    function Width(): real {
      east - west
    }

    /** The midpoint, as (latitude, longitude). */
    function Center(): (c: (real, real))
      ensures Valid() ==> south < c.0 < north && west < c.1 < east
    {
      ((north + south) * 0.5, (east + west) * 0.5)
    }
  }
}

=== FILE: feature_ledger.dfy ===
/** The two model-instance ledgers of the feature source: the referenced
    one, which records for each model key the exact name the model was
    loaded under at each LOD, and the unreferenced one, which remembers
    archive members no feature has asked for yet. Both map a key to a list
    holding at most one entry per LOD. */
module FeatureLedger {
  import opened Optional
  import opened ModelNames
  import opened Versions

  /** One ledger entry: the LOD it was recorded at and its payload. */
  datatype Entry<T> = Entry(lod: int, data: T)

  /** Key to entries, in recording order. */
  type Ledger<T> = map<string, seq<Entry<T>>>

  /** What the unreferenced ledger keeps of an archive member: the member
      itself and the archives its geometry and textures live in. */
  datatype Archived = Archived(archive: string, modelZip: string, textureZip: string)

  /** The entries of `key`, none when it is absent. */
  function Entries<T>(l: Ledger<T>, key: string): seq<Entry<T>> {
    if key in l then l[key] else []
  }

  predicate HasLod<T>(es: seq<Entry<T>>, lod: int) {
    exists i :: 0 <= i < |es| && es[i].lod == lod
  }

  /** No two entries of a key share a LOD. */
  predicate OnePerLod<T>(l: Ledger<T>) {
    forall k, i, j :: k in l && 0 <= i < j < |l[k]| ==> l[k][i].lod != l[k][j].lod
  }

  /** No key maps to an empty list. */
  predicate Populated<T>(l: Ledger<T>) {
    forall k :: k in l ==> |l[k]| > 0
  }

  predicate WellFormed<T>(l: Ledger<T>) {
    OnePerLod(l) && Populated(l)
  }

  // ---------------------------------------------------------------------
  // Recording
  // ---------------------------------------------------------------------

  /** The `can_insert` scan: true when no entry has LOD `lod`. */
  method CanInsert<T>(es: seq<Entry<T>>, lod: int) returns (ok: bool)
    ensures ok <==> !HasLod(es, lod)
  {
    var i := 0;
    while i < |es|
      invariant 0 <= i <= |es|
      invariant forall j :: 0 <= j < i ==> es[j].lod != lod
    {
      if es[i].lod == lod {
        return false;
      }
      i := i + 1;
    }
    return true;
  }

  /** Recording `e` under `key`: a new key gets a one-entry list; an
      existing key gets `e` appended unless it already has an entry at
      `e`'s LOD, in which case nothing changes. */
  function Record<T>(l: Ledger<T>, key: string, e: Entry<T>): (r: Ledger<T>)
    ensures key in r && HasLod(r[key], e.lod)
    ensures r.Keys == l.Keys + {key}
    ensures forall k :: k in l && k != key ==> r[k] == l[k]
    ensures Entries(l, key) <= r[key] && |r[key]| <= |Entries(l, key)| + 1
    ensures HasLod(Entries(l, key), e.lod) ==> r == l
    ensures !HasLod(Entries(l, key), e.lod) ==> r[key][|r[key]| - 1] == e
  {
    if key !in l then
      assert [e][0].lod == e.lod;
      l[key := [e]]
    else if HasLod(l[key], e.lod) then l
    else
      var es := l[key] + [e];
      assert es[|es| - 1].lod == e.lod;
      l[key := es]
  }

  /** Recording keeps at most one entry per key and LOD. */
  lemma RecordWellFormed<T>(l: Ledger<T>, key: string, e: Entry<T>)
    ensures WellFormed(l) ==> WellFormed(Record(l, key, e))
  {
    var r: Ledger<T> := Record(l, key, e);
    if WellFormed(l) {
      forall k: string, i: int, j: int | k in r && 0 <= i < j < |r[k]|
        ensures r[k][i].lod != r[k][j].lod
      {
        if k == key && key in l && !HasLod(l[key], e.lod) && j == |l[key]| {
          assert r[k][i] == l[key][i];
        }
      }
    }
  }

  /** Recording the same entry twice is recording it once. */
  lemma RecordIdempotent<T>(l: Ledger<T>, key: string, e: Entry<T>)
    ensures Record(Record(l, key, e), key, e) == Record(l, key, e)
  {
  }

  // ---------------------------------------------------------------------
  // Looking up an instance
  // ---------------------------------------------------------------------

  /** The starting value of `mind` in the lookups: entries this many LODs
      or more below the current one are never chosen. */
  const MaxDistance := 1000

  /** An entry the lookups may choose at LOD `cur`. */
  predicate Qualifies<T>(e: Entry<T>, cur: int) {
    e.lod <= cur && cur - e.lod < MaxDistance
  }

  /** The lookups' scan as written: since `mind` is never lowered, every
      qualifying entry replaces the previous choice and the last one in the
      list wins. */
  function LastQualifying<T>(es: seq<Entry<T>>, cur: int): (i: Option<nat>)
    ensures i.None? <==> forall j :: 0 <= j < |es| ==> !Qualifies(es[j], cur)
    ensures i.Some? ==> i.value < |es| && Qualifies(es[i.value], cur)
    ensures i.Some? ==> forall j :: i.value < j < |es| ==> !Qualifies(es[j], cur)
  {
    if |es| == 0 then None
    else if Qualifies(es[|es| - 1], cur) then Some(|es| - 1)
    else
      var p := LastQualifying(es[..|es| - 1], cur);
      assert forall j :: 0 <= j < |es| - 1 ==> es[..|es| - 1][j] == es[j];
      p
  }

  /** The scan as its `mind` variable intends: the qualifying entry
      closest below `cur`, the first of equals. */
  function Nearest<T>(es: seq<Entry<T>>, cur: int): (i: Option<nat>)
    ensures i.None? <==> forall j :: 0 <= j < |es| ==> !Qualifies(es[j], cur)
    ensures i.Some? ==> i.value < |es| && Qualifies(es[i.value], cur)
    ensures i.Some? ==> forall j :: 0 <= j < |es| && Qualifies(es[j], cur) ==> es[j].lod <= es[i.value].lod
    ensures i.Some? ==> forall j :: 0 <= j < i.value && Qualifies(es[j], cur) ==> es[j].lod < es[i.value].lod
  {
    if |es| == 0 then None
    else
      var n := |es| - 1;
      var p := Nearest(es[..n], cur);
      assert forall j :: 0 <= j < n ==> es[..n][j] == es[j];
      if Qualifies(es[n], cur) && (p.None? || es[n].lod > es[p.value].lod) then Some(n)
      else p
  }

  /** A lookup result: the key is absent (`instanced` false), present with
      no usable LOD, or found at position `at`. */
  datatype Lookup<T> = Absent | NoLod | Found(at: nat, entry: Entry<T>)

  /** The lookup result for a chosen position. */
  function Choose<T>(es: seq<Entry<T>>, i: Option<nat>): Lookup<T>
    requires i.Some? ==> i.value < |es|
  {
    match i
    case None => NoLod
    case Some(n) => Found(n, es[n])
  }

  /** find_PreInstance as written: the last qualifying entry of the key. */
  function PreInstanceAsWritten(refs: Ledger<string>, key: string, cur: int): (r: Lookup<string>)
    ensures r.Absent? <==> key !in refs
    ensures r.NoLod? <==> key in refs && forall j :: 0 <= j < |refs[key]| ==> !Qualifies(refs[key][j], cur)
    ensures r.Found? ==> key in refs && r.at < |refs[key]| && r.entry == refs[key][r.at]
                         && Qualifies(r.entry, cur)
                         && forall j :: r.at < j < |refs[key]| ==> !Qualifies(refs[key][j], cur)
  {
    if key !in refs then Absent else Choose(refs[key], LastQualifying(refs[key], cur))
  }

  /** find_PreInstance corrected: the qualifying entry nearest below the
      current LOD. */
  function PreInstance(refs: Ledger<string>, key: string, cur: int): (r: Lookup<string>)
    ensures r.Absent? <==> key !in refs
    ensures r.NoLod? <==> key in refs && forall j :: 0 <= j < |refs[key]| ==> !Qualifies(refs[key][j], cur)
    ensures r.Found? ==> key in refs && r.at < |refs[key]| && r.entry == refs[key][r.at]
                         && Qualifies(r.entry, cur)
                         && forall j :: 0 <= j < |refs[key]| && Qualifies(refs[key][j], cur) ==> refs[key][j].lod <= r.entry.lod
  {
    if key !in refs then Absent else Choose(refs[key], Nearest(refs[key], cur))
  }

  /** Entries recorded in rising LOD order. */
  predicate Ascending<T>(es: seq<Entry<T>>) {
    forall i, j :: 0 <= i < j < |es| ==> es[i].lod < es[j].lod
  }

  /** When a key's LODs were recorded coarse to fine the two lookups
      agree: the last qualifying entry is then the nearest one. */
  lemma PreInstanceAgreesWhenAscending(refs: Ledger<string>, key: string, cur: int)
    requires key in refs ==> Ascending(refs[key])
    ensures PreInstanceAsWritten(refs, key, cur) == PreInstance(refs, key, cur)
  {
    if key in refs {
      var es := refs[key];
      var a, b := LastQualifying(es, cur), Nearest(es, cur);
      if a.Some? {
        var i, n := a.value, b.value;
        assert es[i].lod <= es[n].lod && n <= i;
      }
    }
  }

  /** A key recorded at LOD 2 and then at LOD 0 — tiles of different LODs
      are read in no fixed order — makes the lookup at LOD 3 choose the
      LOD-0 name, although the LOD-2 one is nearer. */
  lemma PreInstanceTakesLast()
    ensures var refs := Record(Record(map[], "m", Entry(2, "near")), "m", Entry(0, "far"));
      && refs == map["m" := [Entry(2, "near"), Entry(0, "far")]]
      && PreInstanceAsWritten(refs, "m", 3) == Found(1, Entry(0, "far"))
      && PreInstance(refs, "m", 3) == Found(0, Entry(2, "near"))
  {
    var refs := Record(Record(map[], "m", Entry(2, "near")), "m", Entry(0, "far"));
    assert !HasLod([Entry(2, "near")], 0);
    assert refs["m"] == [Entry(2, "near"), Entry(0, "far")];
    assert refs == map["m" := [Entry(2, "near"), Entry(0, "far")]];
    var es := refs["m"];
    assert es[..1] == [Entry(2, "near")];
    assert [Entry(2, "near")][..0] == [];
  }

  /** find_PreInstance in version `v`: both versions find a qualifying
      entry whenever the key has one; as written it is the last in the
      list, corrected the one at the highest LOD. */
  function FindInstance(v: Version, refs: Ledger<string>, key: string, cur: int): (r: Lookup<string>)
    ensures r.Absent? <==> key !in refs
    ensures r.NoLod? <==> key in refs && forall j :: 0 <= j < |refs[key]| ==> !Qualifies(refs[key][j], cur)
    ensures r.Found? ==> key in refs && r.at < |refs[key]| && r.entry == refs[key][r.at] && Qualifies(r.entry, cur)
    ensures r.Found? && v == AsWritten ==> forall j :: r.at < j < |refs[key]| ==> !Qualifies(refs[key][j], cur)
    ensures r.Found? && v == Corrected ==>
      forall j :: 0 <= j < |refs[key]| && Qualifies(refs[key][j], cur) ==> refs[key][j].lod <= r.entry.lod
  {
    if v == AsWritten then PreInstanceAsWritten(refs, key, cur) else PreInstance(refs, key, cur)
  }

  /** An instance recorded at LOD `lod` is found by every later lookup
      from `lod` up to MaxDistance - 1 LODs above it; corrected, at `lod`
      or nearer. */
  lemma RecordThenFind(v: Version, refs: Ledger<string>, key: string, lod: int, name: string, cur: int)
    requires lod <= cur < lod + MaxDistance
    ensures var r := FindInstance(v, Record(refs, key, Entry(lod, name)), key, cur);
      r.Found? && r.entry.lod <= cur && (v == Corrected ==> lod <= r.entry.lod)
  {
    var l := Record(refs, key, Entry(lod, name));
    var es := l[key];
    var i :| 0 <= i < |es| && es[i].lod == lod;
    assert Qualifies(es[i], cur);
  }

  // ---------------------------------------------------------------------
  // Taking an unreferenced instance
  // ---------------------------------------------------------------------

  /** `es` without position `i`. */
  function Without<T>(es: seq<Entry<T>>, i: nat): (r: seq<Entry<T>>)
    requires i < |es|
    ensures |r| == |es| - 1
    ensures forall j :: 0 <= j < i ==> r[j] == es[j]
    ensures forall j :: i <= j < |r| ==> r[j] == es[j + 1]
  {
    es[..i] + es[i + 1..]
  }

  /** find_UnRefInstance as written: the last qualifying entry is chosen
      and erased from a copy of the key's list, so the ledger loses the key
      when that list had one entry and is otherwise left as it was. */
  function UnRefAsWritten(unrefs: Ledger<Archived>, key: string, cur: int): (r: (Lookup<Archived>, Ledger<Archived>))
    ensures r.0.Absent? <==> key !in unrefs
    ensures r.0.NoLod? <==> key in unrefs && forall j :: 0 <= j < |unrefs[key]| ==> !Qualifies(unrefs[key][j], cur)
    ensures r.0.Found? ==> key in unrefs && r.0.at < |unrefs[key]| && r.0.entry == unrefs[key][r.0.at]
                           && Qualifies(r.0.entry, cur)
                           && forall j :: r.0.at < j < |unrefs[key]| ==> !Qualifies(unrefs[key][j], cur)
    ensures r.0.Found? && |unrefs[key]| == 1 ==> r.1 == unrefs - {key}
    ensures !(r.0.Found? && |unrefs[key]| == 1) ==> r.1 == unrefs
  {
    if key !in unrefs then (Absent, unrefs)
    else
      var es := unrefs[key];
      match LastQualifying(es, cur)
      case None => (NoLod, unrefs)
      case Some(n) =>
        var copy := Without(es, n);
        (Found(n, es[n]), if |copy| == 0 then unrefs - {key} else unrefs)
  }

  /** find_UnRefInstance corrected: the nearest qualifying entry is taken
      out of the ledger itself, and the key goes when its list empties. */
  function UnRef(unrefs: Ledger<Archived>, key: string, cur: int): (r: (Lookup<Archived>, Ledger<Archived>))
    ensures r.0.Absent? <==> key !in unrefs
    ensures r.0.NoLod? <==> key in unrefs && forall j :: 0 <= j < |unrefs[key]| ==> !Qualifies(unrefs[key][j], cur)
    ensures r.0.Found? ==> key in unrefs && r.0.at < |unrefs[key]| && r.0.entry == unrefs[key][r.0.at]
                           && Qualifies(r.0.entry, cur)
                           && forall j :: 0 <= j < |unrefs[key]| && Qualifies(unrefs[key][j], cur) ==> unrefs[key][j].lod <= r.0.entry.lod
    ensures !r.0.Found? ==> r.1 == unrefs
    ensures r.0.Found? ==> r.1.Keys == (if |unrefs[key]| == 1 then unrefs.Keys - {key} else unrefs.Keys)
    ensures r.0.Found? && key in r.1 ==> r.1[key] == Without(unrefs[key], r.0.at)
    ensures forall k :: k in unrefs && k != key ==> k in r.1 && r.1[k] == unrefs[k]
  {
    if key !in unrefs then (Absent, unrefs)
    else
      var es := unrefs[key];
      match Nearest(es, cur)
      case None => (NoLod, unrefs)
      case Some(n) =>
        var rest := Without(es, n);
        (Found(n, es[n]), if |rest| == 0 then unrefs - {key} else unrefs[key := rest])
  }

  /** As written, a key with several entries keeps the one just taken, so
      the next lookup at the same LOD hands out the same member again. */
  lemma UnRefAsWrittenRepeats(unrefs: Ledger<Archived>, key: string, cur: int)
    requires UnRefAsWritten(unrefs, key, cur).0.Found?
    requires |unrefs[key]| > 1
    ensures var (first, after) := UnRefAsWritten(unrefs, key, cur);
      UnRefAsWritten(after, key, cur).0 == first
  {
  }

  /** A two-entry example of the repeat. */
  lemma UnRefTakenTwice()
    ensures var unrefs := map["m" := [Entry(0, Archived("a0", "z", "t")), Entry(1, Archived("a1", "z", "t"))]];
      var (first, after) := UnRefAsWritten(unrefs, "m", 1);
      && first == Found(1, Entry(1, Archived("a1", "z", "t")))
      && UnRefAsWritten(after, "m", 1).0 == first
  {
  }

  /** find_UnRefInstance in version `v`: the same choice as
      FindInstance; as written the ledger loses the key when its list had
      one entry and keeps it unchanged otherwise, corrected the entry taken
      leaves the list. Other keys are untouched either way. */
  function TakeInstance(v: Version, unrefs: Ledger<Archived>, key: string, cur: int): (r: (Lookup<Archived>, Ledger<Archived>))
    ensures r.0.Absent? <==> key !in unrefs
    ensures r.0.NoLod? <==> key in unrefs && forall j :: 0 <= j < |unrefs[key]| ==> !Qualifies(unrefs[key][j], cur)
    ensures r.0.Found? ==> key in unrefs && r.0.at < |unrefs[key]| && r.0.entry == unrefs[key][r.0.at]
                           && Qualifies(r.0.entry, cur)
    ensures r.0.Found? && v == AsWritten ==> forall j :: r.0.at < j < |unrefs[key]| ==> !Qualifies(unrefs[key][j], cur)
    ensures r.0.Found? && v == Corrected ==>
      forall j :: 0 <= j < |unrefs[key]| && Qualifies(unrefs[key][j], cur) ==> unrefs[key][j].lod <= r.0.entry.lod
    ensures !r.0.Found? ==> r.1 == unrefs
    ensures r.0.Found? ==> r.1.Keys == (if |unrefs[key]| == 1 then unrefs.Keys - {key} else unrefs.Keys)
    ensures r.0.Found? && key in r.1 ==>
      r.1[key] == (if v == AsWritten then unrefs[key] else Without(unrefs[key], r.0.at))
    ensures forall k :: k in unrefs && k != key ==> k in r.1 && r.1[k] == unrefs[k]
  {
    if v == AsWritten then UnRefAsWritten(unrefs, key, cur) else UnRef(unrefs, key, cur)
  }

  /** Taking an instance, in either version, keeps the ledger well
      formed. */
  lemma TakeInstanceWellFormed(v: Version, unrefs: Ledger<Archived>, key: string, cur: int)
    requires WellFormed(unrefs)
    ensures WellFormed(TakeInstance(v, unrefs, key, cur).1)
  {
    if v == Corrected && UnRef(unrefs, key, cur).0.Found? {
      UnRefConsumes(unrefs, key, cur);
    }
  }

  /** Corrected, the ledger stays well formed and the key no longer has an
      entry at the LOD just taken, so it is never handed out twice. */
  lemma UnRefConsumes(unrefs: Ledger<Archived>, key: string, cur: int)
    requires WellFormed(unrefs)
    requires UnRef(unrefs, key, cur).0.Found?
    ensures var (taken, after) := UnRef(unrefs, key, cur);
      && WellFormed(after)
      && !HasLod(Entries(after, key), taken.entry.lod)
  {
    var (taken, after) := UnRef(unrefs, key, cur);
    var es := unrefs[key];
    var n := taken.at;
    if key in after {
      var rest := after[key];
      forall j | 0 <= j < |rest|
        ensures rest[j].lod != es[n].lod
      {
        if j < n {
          assert rest[j] == es[j];
        } else {
          assert rest[j] == es[j + 1];
        }
      }
      forall k: string, i: int, j: int | k in after && 0 <= i < j < |after[k]|
        ensures after[k][i].lod != after[k][j].lod
      {
        if k == key {
          var i', j' := if i < n then i else i + 1, if j < n then j else j + 1;
          assert after[k][i] == es[i'] && after[k][j] == es[j'];
        }
      }
    }
  }

  // ---------------------------------------------------------------------
  // Recording unreferenced archive members
  // ---------------------------------------------------------------------

  /** The key an archive member names under the tile's model header. */
  function MemberKey(member: string, header: string): string {
    KeyNameFromArchiveName(member, header)
  }

  /** A key the scan records: non-empty and not referenced by any
      feature. */
  predicate Unclaimed(key: string, refs: Ledger<string>) {
    key != "" && key !in refs
  }

  /** Each archive member paired with its key. */
  function Keyed(members: seq<string>, header: string): (ps: seq<(string, string)>)
    ensures |ps| == |members|
    ensures forall i :: 0 <= i < |ps| ==> ps[i] == (MemberKey(members[i], header), members[i])
  {
    seq(|members|, i requires 0 <= i < |members| => (MemberKey(members[i], header), members[i]))
  }

  /** The unclaimed keys among (key, member) pairs, gathered in order. */
  function UnclaimedKeys(ps: seq<(string, string)>, refs: Ledger<string>): set<string> {
    if |ps| == 0 then {}
    else
      var n := |ps| - 1;
      UnclaimedKeys(ps[..n], refs) + (if Unclaimed(ps[n].0, refs) then {ps[n].0} else {})
  }

  /** A key is gathered exactly when some pair carries it unclaimed. */
  lemma {:induction false} UnclaimedKeysMembers(ps: seq<(string, string)>, refs: Ledger<string>, k: string)
    ensures k in UnclaimedKeys(ps, refs) <==> exists i :: 0 <= i < |ps| && ps[i].0 == k && Unclaimed(k, refs)
  {
    if |ps| > 0 {
      var n := |ps| - 1;
      UnclaimedKeysMembers(ps[..n], refs, k);
      if exists i :: 0 <= i < |ps| && ps[i].0 == k && Unclaimed(k, refs) {
        var i :| 0 <= i < |ps| && ps[i].0 == k && Unclaimed(k, refs);
        if i < n {
          assert ps[..n][i] == ps[i];
        }
      }
    }
  }

  /** The position of the first pair carrying `k`, or |ps| when none
      does. */
  function FirstIndex(ps: seq<(string, string)>, k: string): (i: nat)
    ensures i <= |ps|
    ensures i < |ps| ==> ps[i].0 == k
    ensures forall j :: 0 <= j < i && j < |ps| ==> ps[j].0 != k
  {
    if |ps| == 0 then 0
    else
      var n := |ps| - 1;
      var i := FirstIndex(ps[..n], k);
      assert forall j :: 0 <= j < n ==> ps[..n][j] == ps[j];
      if i < n then i else if ps[n].0 == k then n else |ps|
  }

  /** A key the scan gives a new entry at `lod`: unclaimed, carried by
      some pair, and without an entry at `lod` so far. */
  predicate NewAt(unrefs: Ledger<Archived>, refs: Ledger<string>, ps: seq<(string, string)>, k: string, lod: int) {
    Unclaimed(k, refs) && FirstIndex(ps, k) < |ps| && !HasLod(Entries(unrefs, k), lod)
  }

  /** The archive scan at the end of getFeatures, over (key, member)
      pairs: in order, every pair whose key is unclaimed is recorded as
      unreferenced at LOD `lod`, once per key and LOD. */
  function RecordPairs(unrefs: Ledger<Archived>, refs: Ledger<string>, ps: seq<(string, string)>,
                       lod: int, modelZip: string, textureZip: string): (r: Ledger<Archived>)
    ensures r.Keys == unrefs.Keys + UnclaimedKeys(ps, refs)
    ensures forall k :: k in UnclaimedKeys(ps, refs) ==> HasLod(r[k], lod)
    ensures forall k :: k in unrefs ==> unrefs[k] <= r[k]
    ensures forall k :: k in refs && k in unrefs ==> r[k] == unrefs[k]
    ensures WellFormed(unrefs) ==> WellFormed(r)
    ensures forall k :: ScannedKey(unrefs, refs, ps, lod, modelZip, textureZip, r, k)
    decreases |ps|
  {
    if |ps| == 0 then unrefs
    else
      var n := |ps| - 1;
      var before := RecordPairs(unrefs, refs, ps[..n], lod, modelZip, textureZip);
      PayloadStep(unrefs, refs, ps, ps[..n], ps[n], before, lod, modelZip, textureZip);
      if Unclaimed(ps[n].0, refs) then
        RecordStep(unrefs, refs, before, UnclaimedKeys(ps[..n], refs), ps[n].0, ScanEntry(ps[n], lod, modelZip, textureZip));
        ScanStep(before, refs, ps[n], lod, modelZip, textureZip)
      else
        ScanStep(before, refs, ps[n], lod, modelZip, textureZip)
  }

  /** The entry the scan records for a (key, member) pair. */
  function ScanEntry(p: (string, string), lod: int, modelZip: string, textureZip: string): Entry<Archived> {
    Entry(lod, Archived(p.1, modelZip, textureZip))
  }

  /** One step of the scan: a pair whose key is unclaimed is recorded. */
  function ScanStep(l: Ledger<Archived>, refs: Ledger<string>, p: (string, string),
                    lod: int, modelZip: string, textureZip: string): Ledger<Archived> {
    if Unclaimed(p.0, refs) then Record(l, p.0, ScanEntry(p, lod, modelZip, textureZip)) else l
  }

  /** What the scan over `ps` leaves under `k` in `r`: the entry of the
      first pair carrying `k` appended when `k` is new at `lod`, and the
      entries of `unrefs` otherwise. */
  predicate ScannedKey(unrefs: Ledger<Archived>, refs: Ledger<string>, ps: seq<(string, string)>,
                       lod: int, modelZip: string, textureZip: string, r: Ledger<Archived>, k: string) {
    if NewAt(unrefs, refs, ps, k, lod)
    then Entries(r, k) == Entries(unrefs, k) + [ScanEntry(ps[FirstIndex(ps, k)], lod, modelZip, textureZip)]
    else Entries(r, k) == Entries(unrefs, k)
  }

  /** One step of the scan, for the payload: the entry a key gains is the
      one of the first pair carrying it, and only a key new at `lod`
      gains one. */
  lemma PayloadStep(unrefs: Ledger<Archived>, refs: Ledger<string>, ps: seq<(string, string)>,
                    pre: seq<(string, string)>, last: (string, string),
                    before: Ledger<Archived>, lod: int, modelZip: string, textureZip: string)
    requires |ps| > 0 && pre == ps[..|ps| - 1] && last == ps[|ps| - 1]
    requires forall k :: ScannedKey(unrefs, refs, pre, lod, modelZip, textureZip, before, k)
    ensures forall k :: ScannedKey(unrefs, refs, ps, lod, modelZip, textureZip,
                                   ScanStep(before, refs, last, lod, modelZip, textureZip), k)
  {
    forall k
      ensures ScannedKey(unrefs, refs, ps, lod, modelZip, textureZip,
                         ScanStep(before, refs, last, lod, modelZip, textureZip), k)
    {
      var n := |ps| - 1;
      var i := FirstIndex(ps[..n], k);
      if i < n {
        assert ps[..n][i] == ps[i];
        PayloadEarlier(unrefs, refs, ps, before, lod, modelZip, textureZip, k);
      } else if ps[n].0 == k && Unclaimed(k, refs) {
        PayloadFirst(unrefs, refs, ps, before, lod, modelZip, textureZip, k);
      } else {
        PayloadAbsent(unrefs, refs, ps, before, lod, modelZip, textureZip, k);
      }
    }
  }

  /** A key an earlier pair carries keeps what the scan gave it. */
  lemma PayloadEarlier(unrefs: Ledger<Archived>, refs: Ledger<string>, ps: seq<(string, string)>,
                       before: Ledger<Archived>, lod: int, modelZip: string, textureZip: string, k: string)
    requires |ps| > 0 && FirstIndex(ps[..|ps| - 1], k) < |ps| - 1
    requires ScannedKey(unrefs, refs, ps[..|ps| - 1], lod, modelZip, textureZip, before, k)
    ensures ScannedKey(unrefs, refs, ps, lod, modelZip, textureZip,
                       ScanStep(before, refs, ps[|ps| - 1], lod, modelZip, textureZip), k)
  {
    var n := |ps| - 1;
    var p := ps[n];
    var i := FirstIndex(ps[..n], k);
    assert ps[..n][i] == ps[i];
    assert FirstIndex(ps, k) == i;
    if Unclaimed(p.0, refs) {
      if p.0 == k {
        RecordKeepsLod(before, k, ScanEntry(p, lod, modelZip, textureZip), unrefs);
      } else {
        RecordElsewhere(before, p.0, ScanEntry(p, lod, modelZip, textureZip), k);
      }
    }
  }

  /** The key of the last pair, carried by no earlier one and unclaimed,
      gets that pair's entry when it is new at `lod`. */
  lemma PayloadFirst(unrefs: Ledger<Archived>, refs: Ledger<string>, ps: seq<(string, string)>,
                     before: Ledger<Archived>, lod: int, modelZip: string, textureZip: string, k: string)
    requires |ps| > 0 && FirstIndex(ps[..|ps| - 1], k) == |ps| - 1
    requires ps[|ps| - 1].0 == k && Unclaimed(k, refs)
    requires ScannedKey(unrefs, refs, ps[..|ps| - 1], lod, modelZip, textureZip, before, k)
    ensures ScannedKey(unrefs, refs, ps, lod, modelZip, textureZip,
                       Record(before, k, ScanEntry(ps[|ps| - 1], lod, modelZip, textureZip)), k)
  {
    var n := |ps| - 1;
    assert FirstIndex(ps, k) == n;
    assert !NewAt(unrefs, refs, ps[..n], k, lod);
    RecordFirst(before, k, ScanEntry(ps[n], lod, modelZip, textureZip), unrefs);
  }

  /** A key no pair carries unclaimed keeps its entries. */
  lemma PayloadAbsent(unrefs: Ledger<Archived>, refs: Ledger<string>, ps: seq<(string, string)>,
                      before: Ledger<Archived>, lod: int, modelZip: string, textureZip: string, k: string)
    requires |ps| > 0 && FirstIndex(ps[..|ps| - 1], k) == |ps| - 1
    requires !(ps[|ps| - 1].0 == k && Unclaimed(k, refs))
    requires ScannedKey(unrefs, refs, ps[..|ps| - 1], lod, modelZip, textureZip, before, k)
    ensures ScannedKey(unrefs, refs, ps, lod, modelZip, textureZip,
                       ScanStep(before, refs, ps[|ps| - 1], lod, modelZip, textureZip), k)
  {
    var n := |ps| - 1;
    var p := ps[n];
    assert !NewAt(unrefs, refs, ps[..n], k, lod);
    assert !NewAt(unrefs, refs, ps, k, lod);
    if Unclaimed(p.0, refs) && p.0 != k {
      RecordElsewhere(before, p.0, ScanEntry(p, lod, modelZip, textureZip), k);
    }
  }

  /** Recording under another key leaves a key's entries alone. */
  lemma RecordElsewhere<T>(l: Ledger<T>, key: string, e: Entry<T>, k: string)
    requires k != key
    ensures Entries(Record(l, key, e), k) == Entries(l, k)
  {
  }

  /** Recording a key whose entries are those of `base`: `e` is appended
      exactly when `base` has no entry at its LOD. */
  lemma RecordFirst<T>(l: Ledger<T>, key: string, e: Entry<T>, base: Ledger<T>)
    requires Entries(l, key) == Entries(base, key)
    ensures HasLod(Entries(base, key), e.lod) ==> Entries(Record(l, key, e), key) == Entries(base, key)
    ensures !HasLod(Entries(base, key), e.lod) ==> Entries(Record(l, key, e), key) == Entries(base, key) + [e]
  {
    if !HasLod(Entries(base, key), e.lod) {
      RecordAppends(l, key, e);
    }
  }

  /** A key without an entry at `e`'s LOD gets `e` appended. */
  lemma RecordAppends<T>(l: Ledger<T>, key: string, e: Entry<T>)
    requires !HasLod(Entries(l, key), e.lod)
    ensures Entries(Record(l, key, e), key) == Entries(l, key) + [e]
  {
    var es := Record(l, key, e)[key];
    assert Entries(l, key) <= es && |es| == |Entries(l, key)| + 1;
  }

  /** A key whose entries end in one at `e`'s LOD, or already had one,
      is left alone. */
  lemma RecordKeepsLod<T>(l: Ledger<T>, key: string, e: Entry<T>, base: Ledger<T>)
    requires HasLod(Entries(base, key), e.lod) ==> Entries(l, key) == Entries(base, key)
    requires !HasLod(Entries(base, key), e.lod) ==> exists d :: Entries(l, key) == Entries(base, key) + [Entry(e.lod, d)]
    ensures Record(l, key, e) == l
  {
    if !HasLod(Entries(base, key), e.lod) {
      var d :| Entries(l, key) == Entries(base, key) + [Entry(e.lod, d)];
      var es := Entries(l, key);
      assert es[|es| - 1].lod == e.lod;
    }
  }

  /** One step of the scan: recording an unclaimed key keeps what the scan
      promises so far and adds the key. */
  lemma RecordStep<T>(unrefs: Ledger<T>, refs: Ledger<string>, before: Ledger<T>, keys: set<string>,
                      key: string, e: Entry<T>)
    requires before.Keys == unrefs.Keys + keys
    requires forall k :: k in keys ==> HasLod(before[k], e.lod)
    requires forall k :: k in unrefs ==> unrefs[k] <= before[k]
    requires forall k :: k in refs && k in unrefs ==> before[k] == unrefs[k]
    requires WellFormed(unrefs) ==> WellFormed(before)
    requires Unclaimed(key, refs)
    ensures var r := Record(before, key, e);
      && r.Keys == unrefs.Keys + (keys + {key})
      && (forall k :: k in keys + {key} ==> HasLod(r[k], e.lod))
      && (forall k :: k in unrefs ==> unrefs[k] <= r[k])
      && (forall k :: k in refs && k in unrefs ==> r[k] == unrefs[k])
      && (WellFormed(unrefs) ==> WellFormed(r))
  {
    var r := Record(before, key, e);
    RecordWellFormed(before, key, e);
    forall k | k in unrefs
      ensures unrefs[k] <= r[k]
    {
      if k == key {
        PrefixTransitive(unrefs[k], before[k], r[k]);
      }
    }
  }

  lemma PrefixTransitive<T>(a: seq<T>, b: seq<T>, c: seq<T>)
    requires a <= b && b <= c
    ensures a <= c
  {
    assert b[..|a|] == a;
  }

  /** The archive scan over the archive's member list: each member whose
      non-empty key no feature referenced gains an entry at `lod`, and
      nothing else is added. */
  function RecordMembers(unrefs: Ledger<Archived>, refs: Ledger<string>, members: seq<string>, header: string,
                         lod: int, modelZip: string, textureZip: string): (r: Ledger<Archived>)
    ensures forall i :: 0 <= i < |members| && Unclaimed(MemberKey(members[i], header), refs)
              ==> MemberKey(members[i], header) in r && HasLod(r[MemberKey(members[i], header)], lod)
    ensures forall k :: k in r && k !in unrefs ==>
              exists i :: 0 <= i < |members| && MemberKey(members[i], header) == k && Unclaimed(k, refs)
    ensures forall k :: k in unrefs ==> k in r && unrefs[k] <= r[k]
    ensures forall k :: k in refs && k in unrefs ==> r[k] == unrefs[k]
    ensures WellFormed(unrefs) ==> WellFormed(r)
    ensures forall k :: NewAt(unrefs, refs, Keyed(members, header), k, lod) ==>
              Entries(r, k) == Entries(unrefs, k)
                + [Entry(lod, Archived(members[FirstIndex(Keyed(members, header), k)], modelZip, textureZip))]
    ensures forall k :: !NewAt(unrefs, refs, Keyed(members, header), k, lod) ==> Entries(r, k) == Entries(unrefs, k)
  {
    var ps := Keyed(members, header);
    var r := RecordPairs(unrefs, refs, ps, lod, modelZip, textureZip);
    MembersGathered(members, header, refs);
    GatheredFromMembers(members, header, refs);
    MembersPayload(unrefs, refs, members, header, lod, modelZip, textureZip, r);
    r
  }

  /** The scan's payload over (key, member) pairs, read back over the
      members. */
  lemma MembersPayload(unrefs: Ledger<Archived>, refs: Ledger<string>, members: seq<string>, header: string,
                       lod: int, modelZip: string, textureZip: string, r: Ledger<Archived>)
    requires forall k :: ScannedKey(unrefs, refs, Keyed(members, header), lod, modelZip, textureZip, r, k)
    ensures forall k :: NewAt(unrefs, refs, Keyed(members, header), k, lod) ==>
              Entries(r, k) == Entries(unrefs, k)
                + [Entry(lod, Archived(members[FirstIndex(Keyed(members, header), k)], modelZip, textureZip))]
    ensures forall k :: !NewAt(unrefs, refs, Keyed(members, header), k, lod) ==> Entries(r, k) == Entries(unrefs, k)
  {
    var ps := Keyed(members, header);
    forall k
      ensures NewAt(unrefs, refs, ps, k, lod) ==>
                Entries(r, k) == Entries(unrefs, k)
                  + [Entry(lod, Archived(members[FirstIndex(ps, k)], modelZip, textureZip))]
      ensures !NewAt(unrefs, refs, ps, k, lod) ==> Entries(r, k) == Entries(unrefs, k)
    {
      assert ScannedKey(unrefs, refs, ps, lod, modelZip, textureZip, r, k);
    }
  }

  /** Every member whose key is unclaimed has its key gathered. */
  lemma MembersGathered(members: seq<string>, header: string, refs: Ledger<string>)
    ensures forall i :: 0 <= i < |members| && Unclaimed(MemberKey(members[i], header), refs)
              ==> MemberKey(members[i], header) in UnclaimedKeys(Keyed(members, header), refs)
  {
    var ps := Keyed(members, header);
    forall i | 0 <= i < |members| && Unclaimed(MemberKey(members[i], header), refs)
      ensures MemberKey(members[i], header) in UnclaimedKeys(ps, refs)
    {
      UnclaimedKeysMembers(ps, refs, MemberKey(members[i], header));
      assert ps[i].0 == MemberKey(members[i], header);
    }
  }

  /** Every gathered key is the unclaimed key of some member. */
  lemma GatheredFromMembers(members: seq<string>, header: string, refs: Ledger<string>)
    ensures forall k :: k in UnclaimedKeys(Keyed(members, header), refs) ==>
              exists i :: 0 <= i < |members| && MemberKey(members[i], header) == k && Unclaimed(k, refs)
  {
    var ps := Keyed(members, header);
    forall k | k in UnclaimedKeys(ps, refs)
      ensures exists i :: 0 <= i < |members| && MemberKey(members[i], header) == k && Unclaimed(k, refs)
    {
      UnclaimedKeysMembers(ps, refs, k);
      var i :| 0 <= i < |ps| && ps[i].0 == k && Unclaimed(k, refs);
      assert MemberKey(members[i], header) == k;
    }
  }

  /** A referenced key never enters the unreferenced ledger. */
  lemma ReferencedMembersStayOut(unrefs: Ledger<Archived>, refs: Ledger<string>, members: seq<string>, header: string,
                                 lod: int, modelZip: string, textureZip: string)
    requires forall k :: k in unrefs ==> k !in refs
    ensures forall k :: k in RecordMembers(unrefs, refs, members, header, lod, modelZip, textureZip) ==> k !in refs
  {
  }
}

=== FILE: feature_source.dfy ===
/** The CDB feature source: the settings fixed when it opens, the decision
    made for each model feature read from a tile (load it, point it at an
    instance from a lower LOD, recover it from the unreferenced ledger, or
    drop it), and the cursor a query gets back. */
module FeatureSource {
  import opened Optional
  import opened Extents
  import opened FeatureLedger
  import opened Versions
  import opened Numerics
  import Driver

  // ---------------------------------------------------------------------
  // Opening
  // ---------------------------------------------------------------------

  /** Where FileName points, when it is set: a WFS description (".xml")
      or a single tile file, and whether that vector file or tile opened. */
  datatype FileInput = FileInput(wfs: bool, isOpen: bool)

  /** The options openImplementation consults. */
  datatype Options = Options(
    minLevel: Option<int>, maxLevel: Option<int>,
    inflated: Option<bool>, geoTypical: Option<bool>,
    gsUsesGtTex: Option<bool>, noSecondRef: Option<bool>,
    fileName: Option<FileInput>, limits: Option<LimitsOption>)

  /** The Limits option as sscanf leaves it: all four numbers read, in
      the order minimum longitude, minimum latitude, maximum longitude,
      maximum latitude, or fewer. */
  datatype LimitsOption = Scanned(l: Driver.Limits) | Unreadable

  /** The settings the source reads features with. */
  datatype Settings = Settings(inflated: bool, geoTypical: bool, gsUsesGtTex: bool,
                               noSecondRef: bool, fileInput: bool)

  /** What openImplementation ends with. NullProfile and UnsetTileCount
      are the two ways the code as written builds the feature profile
      from a tiling profile it never set up: a null pointer, or one
      created with tile counts that were never assigned. */
  datatype Opened = ParentFailed | ConfigurationError | NullProfile | UnsetTileCount
                  | Ready(settings: Settings, tiling: Tiling)

  /** An option's value, or `default` when it is unset. */
  function ValueOr(o: Option<bool>, default: bool): bool {
    match o
    case None => default
    case Some(v) => v
  }

  /** A file input that switches the source to read models out of a
      GeoPackage: a WFS file that opened, for the geotypical layer, or a
      single tile file that opened. */
  predicate ReadsGeoPackage(f: Option<FileInput>, geoTypical: bool) {
    f.Some? && f.value.isOpen && (!f.value.wfs || geoTypical)
  }

  /** C `ceil(x)`: the least integer not below x. */
  function Ceil(x: real): (r: int)
    ensures x <= r as real < x + 1.0
  {
    -((-x).Floor)
  }

  /** The tiling profile a feature profile is laid on: its bounds in
      whole degrees and its number of root tiles across and down. */
  datatype Tiling = Tiling(minLon: int, minLat: int, maxLon: int, maxLat: int, tilesX: int, tilesY: int)

  /** The whole-earth geodetic tiling, two root tiles by one: what the
      source falls back to once it has warned that it is not using the
      limits. */
  const WorldTiling := Tiling(-180, -90, 180, 90, 2, 1)

  /** The tiling built from four scanned limits. Reading a single file,
      the limits are widened outwards to whole degrees and form one root
      tile. Otherwise they are rounded to whole degrees, one root tile per
      degree; when the rounded limits enclose no area the tile counts are
      never assigned, and there is no tiling. */
  function LimitsTiling(l: Driver.Limits, fileInput: bool): (t: Option<Tiling>)
    ensures fileInput ==> t.Some? && t.value.tilesX == 1 && t.value.tilesY == 1
    ensures fileInput && t.Some? ==>
      && t.value.minLon as real <= l.minLon < t.value.minLon as real + 1.0
      && t.value.minLat as real <= l.minLat < t.value.minLat as real + 1.0
      && l.maxLon <= t.value.maxLon as real < l.maxLon + 1.0
      && l.maxLat <= t.value.maxLat as real < l.maxLat + 1.0
    ensures !fileInput ==> (t.Some? <==> Round(l.maxLon) > Round(l.minLon) && Round(l.maxLat) > Round(l.minLat))
    ensures !fileInput && t.Some? ==>
      && RealAbs(t.value.minLon as real - l.minLon) <= 0.5 && RealAbs(t.value.maxLon as real - l.maxLon) <= 0.5
      && RealAbs(t.value.minLat as real - l.minLat) <= 0.5 && RealAbs(t.value.maxLat as real - l.maxLat) <= 0.5
      && t.value.tilesX >= 1 && t.value.tilesY >= 1
      && t.value.maxLon - t.value.minLon == t.value.tilesX
      && t.value.maxLat - t.value.minLat == t.value.tilesY
  {
    if fileInput then
      Some(Tiling(l.minLon.Floor, l.minLat.Floor, Ceil(l.maxLon), Ceil(l.maxLat), 1, 1))
    else
      var w, s, e, n := Round(l.minLon), Round(l.minLat), Round(l.maxLon), Round(l.maxLat);
      if e > w && n > s then Some(Tiling(w, s, e, n, e - w, n - s)) else None
  }

  /** The Limits option set, all four numbers read, and a tiling built
      from them. */
  predicate UsableLimits(o: Options) {
    o.limits.Some? && o.limits.value.Scanned? && LimitsTiling(o.limits.value.l, o.fileName.Some?).Some?
  }

  /** openImplementation: a failing parent wins; then both level options
      must be set; every flag defaults to false; the geotypical layer is
      inflated, except that models read out of a GeoPackage never are.
      The feature profile is laid on the tiling built from the limits. As
      written there is no other: without a scanned Limits option the
      profile pointer is still null, and in the rounding mode limits that
      enclose no area leave the tile counts unassigned. Corrected, both
      fall back to the whole-earth tiling. */
  function Open(v: Version, parentOk: bool, o: Options): (r: Opened)
    ensures r.ParentFailed? <==> !parentOk
    ensures r.ConfigurationError? <==> parentOk && (o.minLevel.None? || o.maxLevel.None?)
    ensures v == AsWritten ==> (r.NullProfile? <==>
              parentOk && o.minLevel.Some? && o.maxLevel.Some? && !(o.limits.Some? && o.limits.value.Scanned?))
    ensures v == AsWritten ==> (r.UnsetTileCount? <==>
              (&& parentOk && o.minLevel.Some? && o.maxLevel.Some?
               && o.limits.Some? && o.limits.value.Scanned? && o.fileName.None?
               && !(Round(o.limits.value.l.maxLon) > Round(o.limits.value.l.minLon)
                    && Round(o.limits.value.l.maxLat) > Round(o.limits.value.l.minLat))))
    ensures v == Corrected ==> (r.Ready? <==> parentOk && o.minLevel.Some? && o.maxLevel.Some?)
    ensures v == Corrected ==> !r.NullProfile? && !r.UnsetTileCount?
    ensures r.Ready? && v == AsWritten ==> UsableLimits(o)
    ensures r.Ready? && UsableLimits(o) ==> Some(r.tiling) == LimitsTiling(o.limits.value.l, o.fileName.Some?)
    ensures r.Ready? && !UsableLimits(o) ==> r.tiling == WorldTiling
    ensures r.Ready? ==> r.settings.geoTypical == (o.geoTypical == Some(true))
    ensures r.Ready? ==> r.settings.noSecondRef == (o.noSecondRef == Some(true))
    ensures r.Ready? ==> r.settings.gsUsesGtTex == (o.gsUsesGtTex == Some(true))
    ensures r.Ready? ==> (r.settings.fileInput <==> o.fileName.Some?)
    ensures r.Ready? ==> (r.settings.inflated <==>
              !ReadsGeoPackage(o.fileName, r.settings.geoTypical)
              && (o.inflated == Some(true) || r.settings.geoTypical))
  {
    if !parentOk then ParentFailed
    else if o.minLevel.None? || o.maxLevel.None? then ConfigurationError
    else
      var geoTypical := ValueOr(o.geoTypical, false);
      var inflated := if geoTypical then true else ValueOr(o.inflated, false);
      var inflated' := if ReadsGeoPackage(o.fileName, geoTypical) then false else inflated;
      var settings := Settings(inflated', geoTypical, ValueOr(o.gsUsesGtTex, false),
                               ValueOr(o.noSecondRef, false), o.fileName.Some?);
      var tiling := if o.limits.Some? && o.limits.value.Scanned?
                    then LimitsTiling(o.limits.value.l, o.fileName.Some?) else None;
      match v
      case AsWritten =>
        if !(o.limits.Some? && o.limits.value.Scanned?) then NullProfile
        else if tiling.None? then UnsetTileCount
        else Ready(settings, tiling.value)
      case Corrected =>
        Ready(settings, if tiling.Some? then tiling.value else WorldTiling)
  }

  /** Without a file input, turning the geotypical option on makes the
      source inflated whatever the inflated option says. */
  lemma GeoTypicalForcesInflated(v: Version, parentOk: bool, o: Options)
    requires parentOk && o.minLevel.Some? && o.maxLevel.Some?
    requires o.geoTypical == Some(true) && o.fileName.None?
    requires v == Corrected || UsableLimits(o)
    ensures Open(v, parentOk, o).Ready? && Open(v, parentOk, o).settings.inflated
  {
  }

  /** The Limits option is optional, yet as written a source opened
      without it dereferences the null profile, where the corrected open
      uses the whole earth. */
  lemma OpenWithoutLimits(o: Options)
    requires o.minLevel.Some? && o.maxLevel.Some? && o.limits.None?
    ensures Open(AsWritten, true, o) == NullProfile
    ensures Open(Corrected, true, o).Ready? && Open(Corrected, true, o).tiling == WorldTiling
  {
  }

  /** Limits 7.2..7.4 east round to one longitude: as written the tiling
      profile gets unassigned tile counts, where the corrected open uses
      the whole earth. */
  lemma OpenWithFlatLimits(o: Options)
    requires o.minLevel.Some? && o.maxLevel.Some? && o.fileName.None?
    requires o.limits == Some(Scanned(Driver.Limits(7.2, 55.0, 7.4, 56.0)))
    ensures Open(AsWritten, true, o) == UnsetTileCount
    ensures Open(Corrected, true, o).Ready? && Open(Corrected, true, o).tiling == WorldTiling
  {
  }

  // ---------------------------------------------------------------------
  // One model feature
  // ---------------------------------------------------------------------

  /** The two ledgers the source keeps across tiles. */
  datatype Ledgers = Ledgers(refs: Ledger<string>, unrefs: Ledger<Archived>)

  predicate LedgersWellFormed(ls: Ledgers) {
    WellFormed(ls.refs) && WellFormed(ls.unrefs)
  }

  /** What the tile reader reports for one feature: its model key, the
      model's full name and archive member name, whether the member is in
      this tile's archive, whether the feature is a second instance
      (`inst` = 1), and whether the feature survives (valid and not
      blacklisted). */
  datatype Candidate = Candidate(key: string, fullName: string, archiveName: string,
                                 inArchive: bool, secondInstance: bool, kept: bool)

  /** Per-tile facts: the settings, whether the models come from an
      archive, the tile's CDB LOD, and whether the recovered model archive
      exists on disk (validate_name). */
  datatype Context = Context(settings: Settings, haveArchive: bool, lod: int, zipExists: bool)

  /** The result for one feature: whether it is emitted, the model name it
      carries (osge_modelname, "" when none is set), the lower-LOD name it
      refers to (osge_referencedName), and the ledgers afterwards. */
  datatype Placement = Placement(emitted: bool, modelName: string, referencedName: Option<string>,
                                 ledgers: Ledgers)

  /** The feature can load its own model: the member is in the archive,
      unless the geotypical layer drops second instances. */
  predicate LoadsOwnModel(c: Candidate, ctx: Context) {
    c.inArchive && !(ctx.settings.geoTypical && ctx.settings.noSecondRef && c.secondInstance)
  }

  /** The reference name the referenced ledger records for the feature. */
  function ReferenceName(c: Candidate, ctx: Context, archiveName: string): string {
    if ctx.haveArchive then archiveName else c.fullName
  }

  /** The last step of getFeatures for one feature: a kept feature that
      ends up valid is emitted, and for the geospecific layer its model is
      recorded as referenced at the tile's LOD. */
  function Finish(ls: Ledgers, c: Candidate, ctx: Context, valid: bool, name: string,
                  referenced: Option<string>, archiveName: string): (p: Placement)
    ensures p.emitted == (c.kept && valid)
    ensures p.ledgers.unrefs == ls.unrefs
    ensures p.emitted && !ctx.settings.geoTypical ==>
              p.ledgers.refs == Record(ls.refs, c.key, Entry(ctx.lod, ReferenceName(c, ctx, archiveName)))
    ensures !(p.emitted && !ctx.settings.geoTypical) ==> p.ledgers.refs == ls.refs
  {
    var refs := if c.kept && valid && !ctx.settings.geoTypical
                then Record(ls.refs, c.key, Entry(ctx.lod, ReferenceName(c, ctx, archiveName)))
                else ls.refs;
    Placement(c.kept && valid, name, referenced, Ledgers(refs, ls.unrefs))
  }

  /** The decision getFeatures makes for one feature, with the ledger
      lookups of version `v`. A feature whose model is here loads it
      (pointing at a lower-LOD instance when one is on record). Otherwise,
      for the geospecific layer only: an instance on record lends its name
      but the feature stays invalid; a key on record without a usable LOD
      is dropped; a key never recorded is looked up in the unreferenced
      ledger, and a member found there is loaded when its model archive
      exists. */
  function Place(v: Version, ls: Ledgers, c: Candidate, ctx: Context): (p: Placement)
  {
    if LoadsOwnModel(c, ctx) then
      var name := if ctx.haveArchive then c.archiveName else c.fullName;
      var referenced :=
        if !ctx.haveArchive then None
        else match FindInstance(v, ls.refs, c.key, ctx.lod)
             case Found(_, e) => if e.lod < ctx.lod then Some(e.data) else None
             case _ => None;
      Finish(ls, c, ctx, true, name, referenced, c.archiveName)
    else if ctx.settings.geoTypical then
      Finish(ls, c, ctx, false, "", None, c.archiveName)
    else
      match FindInstance(v, ls.refs, c.key, ctx.lod)
      case Found(_, e) => Finish(ls, c, ctx, false, e.data, None, c.archiveName)
      case NoLod => Finish(ls, c, ctx, false, "", None, c.archiveName)
      case Absent =>
        if !ctx.haveArchive then Finish(ls, c, ctx, false, "", None, c.archiveName)
        else
          var (u, unrefs) := TakeInstance(v, ls.unrefs, c.key, ctx.lod);
          match u
          case Found(_, e) =>
            Finish(ls.(unrefs := unrefs), c, ctx, ctx.zipExists, e.data.archive, None, e.data.archive)
          case _ => Finish(ls.(unrefs := unrefs), c, ctx, false, "", None, c.archiveName)
  }

  /** The recovery path: a kept geospecific feature whose model is neither
      here nor on record, found in the unreferenced ledger. */
  predicate Recovered(v: Version, ls: Ledgers, c: Candidate, ctx: Context) {
    && !LoadsOwnModel(c, ctx) && !ctx.settings.geoTypical && ctx.haveArchive
    && c.key !in ls.refs
    && TakeInstance(v, ls.unrefs, c.key, ctx.lod).0.Found?
  }

  /** A feature is emitted exactly when it is kept and either loads its
      own model or is recovered from the unreferenced ledger with an
      existing model archive. */
  lemma PlaceEmits(v: Version, ls: Ledgers, c: Candidate, ctx: Context)
    ensures Place(v, ls, c, ctx).emitted
        <==> c.kept && (LoadsOwnModel(c, ctx) || (Recovered(v, ls, c, ctx) && ctx.zipExists))
  {
  }

  /** A feature whose model is only on record from a lower LOD lends that
      record's name but is not emitted. */
  lemma LowerLodInstanceNotEmitted(v: Version, ls: Ledgers, c: Candidate, ctx: Context)
    requires !LoadsOwnModel(c, ctx) && !ctx.settings.geoTypical
    requires c.key in ls.refs && exists j :: 0 <= j < |ls.refs[c.key]| && Qualifies(ls.refs[c.key][j], ctx.lod)
    ensures var p := Place(v, ls, c, ctx);
      var r := FindInstance(v, ls.refs, c.key, ctx.lod);
      && !p.emitted && r.Found? && p.modelName == r.entry.data
      && p.ledgers == ls
  {
  }

  /** A referenced name is only attached to a feature loading its own
      model, and only when it comes from a strictly lower LOD on record. */
  lemma ReferencedNameIsLower(v: Version, ls: Ledgers, c: Candidate, ctx: Context)
    requires Place(v, ls, c, ctx).referencedName.Some?
    ensures LoadsOwnModel(c, ctx) && ctx.haveArchive
    ensures var r := FindInstance(v, ls.refs, c.key, ctx.lod);
      && r.Found? && r.entry.lod < ctx.lod && Qualifies(r.entry, ctx.lod)
      && Place(v, ls, c, ctx).referencedName == Some(r.entry.data)
  {
  }

  /** Placing a feature changes the unreferenced ledger only on the
      recovery path, where it is what taking the instance leaves. */
  lemma PlaceTakesUnreferenced(v: Version, ls: Ledgers, c: Candidate, ctx: Context)
    ensures !Recovered(v, ls, c, ctx) ==> Place(v, ls, c, ctx).ledgers.unrefs == ls.unrefs
    ensures Recovered(v, ls, c, ctx) ==> Place(v, ls, c, ctx).ledgers.unrefs == TakeInstance(v, ls.unrefs, c.key, ctx.lod).1
  {
  }

  /** Placing a feature keeps both ledgers well formed and records an
      emitted geospecific model so that later LODs find it; nothing else
      enters the referenced ledger. */
  lemma PlaceKeepsLedgers(v: Version, ls: Ledgers, c: Candidate, ctx: Context)
    requires LedgersWellFormed(ls)
    ensures var p := Place(v, ls, c, ctx);
      && LedgersWellFormed(p.ledgers)
      && (p.emitted && !ctx.settings.geoTypical ==> c.key in p.ledgers.refs && HasLod(p.ledgers.refs[c.key], ctx.lod))
      && (!(p.emitted && !ctx.settings.geoTypical) ==> p.ledgers.refs == ls.refs)
  {
    PlaceTakesUnreferenced(v, ls, c, ctx);
    TakeInstanceWellFormed(v, ls.unrefs, c.key, ctx.lod);
    PlaceRecords(v, ls, c, ctx);
    RecordWellFormed(ls.refs, c.key, Entry(ctx.lod, ReferenceName(c, ctx, ArchiveNameOf(v, ls, c, ctx))));
  }

  /** The archive member name a placed feature is recorded under: the
      recovered member on the recovery path, its own otherwise. */
  function ArchiveNameOf(v: Version, ls: Ledgers, c: Candidate, ctx: Context): string {
    if Recovered(v, ls, c, ctx) then TakeInstance(v, ls.unrefs, c.key, ctx.lod).0.entry.data.archive else c.archiveName
  }

  /** What placing a feature records in the referenced ledger. */
  lemma PlaceRecords(v: Version, ls: Ledgers, c: Candidate, ctx: Context)
    ensures var p := Place(v, ls, c, ctx);
      p.ledgers.refs == if p.emitted && !ctx.settings.geoTypical
                        then Record(ls.refs, c.key, Entry(ctx.lod, ReferenceName(c, ctx, ArchiveNameOf(v, ls, c, ctx))))
                        else ls.refs
  {
  }

  /** As written, a member recovered from a key with several unreferenced
      entries stays in the ledger. While the key is not referenced — the
      recovery was not emitted, because the feature was dropped or its
      model archive is missing — the next feature of that key at the same
      LOD recovers the same member again. */
  lemma RecoveredMemberStays(ls: Ledgers, c: Candidate, ctx: Context)
    requires Recovered(AsWritten, ls, c, ctx) && |ls.unrefs[c.key]| > 1
    requires !Place(AsWritten, ls, c, ctx).emitted
    ensures var p := Place(AsWritten, ls, c, ctx);
      && p.ledgers == ls
      && TakeInstance(AsWritten, p.ledgers.unrefs, c.key, ctx.lod).0 == TakeInstance(AsWritten, ls.unrefs, c.key, ctx.lod).0
      && Recovered(AsWritten, p.ledgers, c, ctx)
      && Place(AsWritten, p.ledgers, c, ctx).modelName == p.modelName
  {
  }

  /** An emitted recovery records the key as referenced, so the next
      feature of that key takes the referenced-instance branch and is not
      recovered again, in either version. */
  lemma EmittedRecoveryIsReferenced(v: Version, ls: Ledgers, c: Candidate, ctx: Context)
    requires Recovered(v, ls, c, ctx) && Place(v, ls, c, ctx).emitted
    ensures c.key in Place(v, ls, c, ctx).ledgers.refs
    ensures !Recovered(v, Place(v, ls, c, ctx).ledgers, c, ctx)
  {
  }

  /** A geospecific model emitted at one LOD is found on record by the
      tiles of every LOD above it, within MaxDistance; corrected, at that
      LOD or nearer. */
  lemma EmittedThenReferenced(v: Version, ls: Ledgers, c: Candidate, ctx: Context, later: int)
    requires Place(v, ls, c, ctx).emitted && !ctx.settings.geoTypical
    requires ctx.lod <= later < ctx.lod + MaxDistance
    ensures var r := FindInstance(v, Place(v, ls, c, ctx).ledgers.refs, c.key, later);
      r.Found? && r.entry.lod <= later && (v == Corrected ==> ctx.lod <= r.entry.lod)
  {
    PlaceRecords(v, ls, c, ctx);
    RecordThenFind(v, ls.refs, c.key, ctx.lod, ReferenceName(c, ctx, ArchiveNameOf(v, ls, c, ctx)), later);
  }

  // ---------------------------------------------------------------------
  // The cursor
  // ---------------------------------------------------------------------

  /** A feature handed to osgEarth: a model, or the placeholder marked
      osge_ignore that stands for a tile read without features. */
  datatype Feature = Model(name: string) | Placeholder(lon: real, lat: real)

  /** How one of the tile's model files fared: already blacklisted,
      missing, present but unreadable (getFeatures false), or read. */
  datatype FileOutcome = Skipped | Missing | Failed | Read(features: seq<Feature>)

  datatype ModelFile = ModelFile(name: string, outcome: FileOutcome)

  /** The features of every file read, in file order. */
  function AllFeatures(files: seq<ModelFile>): seq<Feature> {
    if |files| == 0 then []
    else
      var n := |files| - 1;
      AllFeatures(files[..n]) + (if files[n].outcome.Read? then files[n].outcome.features else [])
  }

  /** The names of the files that failed to read, in file order. */
  function FailedNames(files: seq<ModelFile>): seq<string> {
    if |files| == 0 then []
    else
      var n := |files| - 1;
      FailedNames(files[..n]) + (if files[n].outcome.Failed? then [files[n].name] else [])
  }

  predicate AnyRead(files: seq<ModelFile>) {
    exists i :: 0 <= i < |files| && files[i].outcome.Read?
  }

  /** The placeholder for a tile: the centre of its extent. */
  function PlaceholderFor(e: Extent): Feature {
    Placeholder((e.west + e.east) * 0.5, (e.north + e.south) * 0.5)
  }

  /** createFeatureCursor: no cursor and no file looked at when the root
      directory is not set outside file input; otherwise the tile's model
      files are read. */
  method CreateCursor(files: seq<ModelFile>, rootDirSet: bool, fileInput: bool, extent: Extent)
    returns (cursor: Option<seq<Feature>>, blacklist: seq<string>)
    ensures !rootDirSet && !fileInput ==> cursor == None && blacklist == []
    ensures rootDirSet || fileInput ==> (cursor.Some? <==> AnyRead(files))
    ensures cursor.Some? && |AllFeatures(files)| > 0 ==> cursor.value == AllFeatures(files)
    ensures cursor.Some? && |AllFeatures(files)| == 0 ==> cursor.value == [PlaceholderFor(extent)]
    ensures fileInput ==> blacklist == []
    ensures rootDirSet && !fileInput && AnyRead(files) ==> blacklist == FailedNames(files)
    ensures rootDirSet && !fileInput && !AnyRead(files) && |files| > 0 ==>
              blacklist == FailedNames(files) + [files[|files| - 1].name]
  {
    if !rootDirSet && !fileInput {
      return None, [];
    }
    cursor, blacklist := ReadFiles(files, fileInput, extent);
  }

  /** The file loop of createFeatureCursor: the features of every file
      read; a single placeholder when files were read but none had
      features; no cursor when no file was read. Outside file input, files
      that failed are blacklisted, and so is the last file when no file was
      read at all. */
  method ReadFiles(files: seq<ModelFile>, fileInput: bool, extent: Extent)
    returns (cursor: Option<seq<Feature>>, blacklist: seq<string>)
    ensures cursor.Some? <==> AnyRead(files)
    ensures cursor.Some? && |AllFeatures(files)| > 0 ==> cursor.value == AllFeatures(files)
    ensures cursor.Some? && |AllFeatures(files)| == 0 ==> cursor.value == [PlaceholderFor(extent)]
    ensures fileInput ==> blacklist == []
    ensures !fileInput && AnyRead(files) ==> blacklist == FailedNames(files)
    ensures !fileInput && !AnyRead(files) && |files| > 0 ==>
              blacklist == FailedNames(files) + [files[|files| - 1].name]
  {
    var features: seq<Feature> := [];
    var dataOk := false;
    blacklist := [];
    var i := 0;
    while i < |files|
      invariant 0 <= i <= |files|
      invariant features == AllFeatures(files[..i])
      invariant dataOk <==> AnyRead(files[..i])
      invariant blacklist == if fileInput then [] else FailedNames(files[..i])
    {
      assert files[..i + 1][..i] == files[..i];
      match files[i].outcome {
        case Read(fs) =>
          features := features + fs;
          dataOk := true;
        case Failed =>
          if !fileInput {
            blacklist := blacklist + [files[i].name];
          }
        case _ =>
      }
      assert dataOk <==> AnyRead(files[..i + 1]) by {
        if AnyRead(files[..i]) {
          var j :| 0 <= j < i && files[..i][j].outcome.Read?;
          assert files[..i + 1][j] == files[..i][j];
        }
        if AnyRead(files[..i + 1]) && !files[i].outcome.Read? {
          var j :| 0 <= j < i + 1 && files[..i + 1][j].outcome.Read?;
          assert files[..i][j] == files[..i + 1][j];
        }
      }
      i := i + 1;
    }
    assert files[..|files|] == files;
    if !dataOk {
      if !fileInput && |files| > 0 {
        blacklist := blacklist + [files[|files| - 1].name];
      }
      return None, blacklist;
    }
    if |features| == 0 {
      features := [PlaceholderFor(extent)];
    }
    return Some(features), blacklist;
  }
}

=== FILE: geocells.dfy ===
/** Where a tile sits in the CDB grid: the geocell width by latitude zone,
    the level of detail implied by an extent's size, and the geocell
    directory, LOD, row (U) and column (R) the path is built from
    (CDB_Tile::Get_Lon_Step, LodNumFromExtent, GetPathComponents). */
module Geocells {
  import opened Numerics
  import opened Extents

  /** DBL_EPSILON (2^-52), the tolerance of the directory rounding check. */
  const Epsilon: real := 1.0 / 4503599627370496.0

  // ---------------------------------------------------------------------
  // Longitude step by latitude zone
  // ---------------------------------------------------------------------

  /** Get_Lon_Step: the geocell width in degrees of longitude at `lat`.
      Northern zones are closed below and open above in |lat|; southern
      zones are open below and closed above, so the two hemispheres
      disagree exactly on the zone edges. */
  function LonStep(lat: real): (step: int)
    ensures step in {1, 2, 3, 4, 6, 12}
    ensures 360 % step == 0
  {
    var m := RealAbs(lat);
    if lat >= 0.0 then
      if m < 50.0 then 1
      else if m < 70.0 then 2
      else if m < 75.0 then 3
      else if m < 80.0 then 4
      else if m < 89.0 then 6
      else 12
    else
      if m <= 50.0 then 1
      else if m <= 70.0 then 2
      else if m <= 75.0 then 3
      else if m <= 80.0 then 4
      else if m <= 89.0 then 6
      else 12
  }

  /** The zone table: the |latitude| edges and the step in each zone. */
  const ZoneEdges: seq<real> := [50.0, 70.0, 75.0, 80.0, 89.0]
  const ZoneSteps: seq<int> := [1, 2, 3, 4, 6, 12]

  /** Whether magnitude `m` has reached a zone edge: in the northern
      hemisphere an edge belongs to the zone above it, in the southern
      hemisphere to the zone below it. */
  predicate Reached(edge: real, m: real, northern: bool) {
    if northern then m >= edge else m > edge
  }

  /** How many of the zone edges `m` has reached. */
  function EdgesPassed(edges: seq<real>, m: real, northern: bool): (n: nat)
    ensures n <= |edges|
  {
    if |edges| == 0 then 0
    else (if Reached(edges[0], m, northern) then 1 else 0) + EdgesPassed(edges[1..], m, northern)
  }

  /** Get_Lon_Step agrees with the zone table. */
  lemma LonStepByZone(lat: real)
    ensures LonStep(lat) == ZoneSteps[EdgesPassed(ZoneEdges, RealAbs(lat), lat >= 0.0)]
  {
    var m, n := RealAbs(lat), lat >= 0.0;
    var e := ZoneEdges;
    assert e[4..] == [89.0] && e[4..][1..] == [];
    assert e[3..] == [80.0, 89.0] && e[3..][1..] == e[4..];
    assert e[2..] == [75.0, 80.0, 89.0] && e[2..][1..] == e[3..];
    assert e[1..] == [70.0, 75.0, 80.0, 89.0] && e[1..][1..] == e[2..];
    var c4 := EdgesPassed(e[4..], m, n);
    assert c4 == (if Reached(89.0, m, n) then 1 else 0);
    var c3 := EdgesPassed(e[3..], m, n);
    assert c3 == (if Reached(80.0, m, n) then 1 else 0) + c4;
    var c2 := EdgesPassed(e[2..], m, n);
    assert c2 == (if Reached(75.0, m, n) then 1 else 0) + c3;
    var c1 := EdgesPassed(e[1..], m, n);
    assert c1 == (if Reached(70.0, m, n) then 1 else 0) + c2;
    assert EdgesPassed(e, m, n) == (if Reached(50.0, m, n) then 1 else 0) + c1;
  }

  /** Below 50 degrees of latitude geocells are one degree wide. */
  lemma LonStepLowLatitudes(lat: real)
    requires -50.0 < lat < 50.0
    ensures LonStep(lat) == 1
  {
  }

  /** The zone edge at 50 degrees belongs to the wide zone in the north and
      to the narrow zone in the south. */
  lemma LonStepEdgeAsymmetry()
    ensures LonStep(50.0) == 2 && LonStep(-50.0) == 1
    ensures LonStep(89.0) == 12 && LonStep(-89.0) == 6
  {
  }

  /** Away from the zone edges the two hemispheres agree. */
  lemma LonStepSymmetric(lat: real)
    requires lat > 0.0 && lat !in ZoneEdges
    ensures LonStep(-lat) == LonStep(lat)
  {
  }

  /** Geocells never get narrower towards the poles. */
  lemma LonStepMonotone(a: real, b: real)
    requires RealAbs(a) <= RealAbs(b)
    requires (a >= 0.0) == (b >= 0.0)
    ensures LonStep(a) <= LonStep(b)
  {
  }

  /** All latitudes of the one-degree band starting at an integer latitude
      `c` share its step: zone edges are whole degrees. */
  lemma LonStepConstantInBand(c: int, lat: real)
    requires c as real <= lat < c as real + 1.0
    ensures LonStep(lat) == LonStep(c as real)
  {
  }

  // ---------------------------------------------------------------------
  // Level of detail
  // ---------------------------------------------------------------------

  function Pow2(k: nat): (p: nat)
    ensures p >= 1
  {
    if k == 0 then 1 else 2 * Pow2(k - 1)
  }

  /** The number of passes of `while (n > 1) n /= 2;`: floor(log2 n). */
  function Halvings(n: int): (k: nat)
    ensures n <= 1 ==> k == 0
    ensures n >= 1 ==> Pow2(k) <= n < Pow2(k + 1)
    decreases n
  {
    if n > 1 then 1 + Halvings(n / 2) else 0
  }

  lemma Pow2Monotone(a: nat, b: nat)
    requires a <= b
    ensures Pow2(a) <= Pow2(b)
    decreases b
  {
    if a < b {
      Pow2Monotone(a, b - 1);
    }
  }

  lemma {:induction false} Pow2Add(a: nat, b: nat)
    ensures Pow2(a + b) == Pow2(a) * Pow2(b)
    decreases a
  {
    if a > 0 {
      Pow2Add(a - 1, b);
    }
  }

  /** A native LOD never exceeds 52 halvings, the precision of a double. */
  lemma Pow2Bound(k: nat)
    requires k <= 52
    ensures Pow2(k) <= 4503599627370496
  {
    Pow2Monotone(k, 52);
    Pow2Of52();
  }

  /** 2^52, the reciprocal of DBL_EPSILON. */
  lemma Pow2Of52()
    ensures Pow2(52) == 4503599627370496
  {
    Pow2Of13();
    Pow2Square(13, 8192);
    Pow2Square(26, 67108864);
  }

  lemma Pow2Of13()
    ensures Pow2(13) == 8192
  {
  }

  /** Doubling the exponent squares the power. */
  lemma Pow2Square(k: nat, p: nat)
    requires Pow2(k) == p
    ensures Pow2(2 * k) == p * p
  {
    Pow2Add(k, k);
  }

  /** The halving count of a power of two is its exponent. */
  lemma {:induction false} HalvingsOfPow2(k: nat)
    ensures Halvings(Pow2(k)) == k
  {
    if k > 0 {
      assert Pow2(k) / 2 == Pow2(k - 1);
      HalvingsOfPow2(k - 1);
    }
  }

  /** LodNumFromExtent: the CDB LOD whose tile is as tall as `e`. A tile
      taller than about one degree (under 0.99 tiles per degree) is a cache
      tile covering several geocells and gets a negative LOD, one lower for
      each halving of round(height / 2); otherwise the LOD counts the
      halvings of round(tiles per degree). */
  function LodNumFromExtent(e: Extent): (lod: int)
    requires e.Valid()
    ensures lod <= -1 <==> 1.0 / e.Height() < 0.99
    ensures lod <= -1 ==> Halvings(Round(e.Height() / 2.0)) == -1 - lod
    ensures lod >= 0 ==> Halvings(Round(1.0 / e.Height())) == lod
  {
    var tilesPerDeg := 1.0 / e.Height();
    if tilesPerDeg < 0.99 then
      var span := 1.0 / tilesPerDeg;
      assert span == e.Height();
      -1 - Halvings(Round(span / 2.0))
    else
      Halvings(Round(tilesPerDeg))
  }
  /** Round-trip: a native tile of LOD k is 1/2^k degrees tall, and the LOD
      recovered from that height is k. */
  lemma {:induction false} LodOfNativeHeight(e: Extent, k: nat)
    requires e.Valid() && e.Height() * (Pow2(k) as real) == 1.0
    ensures LodNumFromExtent(e) == k
  {
    var p := Pow2(k) as real;
    assert 1.0 / e.Height() == p;
    assert Round(p) == Pow2(k);
    HalvingsOfPow2(k);
  }

  /** Round-trip: a cache tile 2^k degrees tall (k >= 1) has LOD -k. */
  lemma {:induction false} LodOfCacheHeight(e: Extent, k: nat)
    requires e.Valid() && k >= 1 && e.Height() == Pow2(k) as real
    ensures LodNumFromExtent(e) == -(k as int)
  {
    var h := e.Height();
    assert 1.0 / h <= 0.5;
    assert (1.0 / (1.0 / h)) / 2.0 == Pow2(k - 1) as real;
    assert Round(Pow2(k - 1) as real) == Pow2(k - 1);
    HalvingsOfPow2(k - 1);
  }

  /** The LOD part of GetPathComponents: as LodNumFromExtent, except that a
      tile of at most a geocell whose pixel width is below 1024 keeps the
      LOD it was constructed with. */
  function PathLod(e: Extent, pixX: int, presetLod: int): (lod: int)
    requires e.Valid()
    ensures 1.0 / e.Height() < 0.99 || pixX >= 1024 ==> lod == LodNumFromExtent(e)
    ensures 1.0 / e.Height() >= 0.99 && pixX < 1024 ==> lod == presetLod
  {
    var tilesPerDeg := 1.0 / e.Height();
    if tilesPerDeg < 0.99 then LodNumFromExtent(e)
    else if pixX < 1024 then presetLod
    else LodNumFromExtent(e)
  }

  // ---------------------------------------------------------------------
  // Geocell, row and column
  // ---------------------------------------------------------------------

  /** The western edge of the geocell holding longitude `west`, in a zone
      `step` degrees wide: the integer part of `west`, moved down to a
      multiple of `step` and down once more when `west` lies west of it. */
  function GeocellWest(west: real, step: int): int
    requires step >= 1
  {
    var base := Trunc(west);
    var check := Abs(base);
    var snapped :=
      if step != 1 && check % step != 0 then
        if base < 0 then -(check / step * step) - step else check / step * step
      else base;
    if west < snapped as real then snapped - step else snapped
  }

  /** The geocell's western edge is the multiple of the zone step at or
      just below `west`, whatever the hemisphere. */
  lemma GeocellWestOnGrid(west: real, step: int)
    requires step >= 1
    ensures GeocellWest(west, step) % step == 0
    ensures GeocellWest(west, step) as real <= west < (GeocellWest(west, step) + step) as real
  {
    var base := Trunc(west);
    var check := Abs(base);
    if step != 1 && check % step != 0 {
      if base < 0 {
        SnapWest(west, step);
      } else {
        SnapEast(west, step);
      }
    } else {
      OnGridAlready(west, step);
    }
  }

  /** West of the meridian, off the grid: the multiple below |trunc|,
      negated, then one step further west. */
  lemma SnapWest(west: real, step: int)
    requires step >= 2 && Trunc(west) < 0 && Abs(Trunc(west)) % step != 0
    ensures GeocellWest(west, step) % step == 0
    ensures GeocellWest(west, step) as real <= west < (GeocellWest(west, step) + step) as real
  {
    var base := Trunc(west);
    var q := Abs(base) / step;
    var snapped := -(q * step) - step;
    assert GeocellWest(west, step) == snapped;
    assert snapped == (-(q + 1)) * step;
    MultipleMod(-(q + 1), step);
  }

  /** East of the meridian, off the grid: the multiple below trunc. */
  lemma SnapEast(west: real, step: int)
    requires step >= 2 && Trunc(west) >= 0 && Abs(Trunc(west)) % step != 0
    ensures GeocellWest(west, step) % step == 0
    ensures GeocellWest(west, step) as real <= west < (GeocellWest(west, step) + step) as real
  {
    var q := Abs(Trunc(west)) / step;
    assert GeocellWest(west, step) == q * step;
    MultipleMod(q, step);
  }

  /** On the grid (or one-degree zones): trunc, one step west when `west`
      lies west of it. */
  lemma OnGridAlready(west: real, step: int)
    requires step >= 1 && (step == 1 || Abs(Trunc(west)) % step == 0)
    ensures GeocellWest(west, step) % step == 0
    ensures GeocellWest(west, step) as real <= west < (GeocellWest(west, step) + step) as real
  {
    var base := Trunc(west);
    var q := Abs(base) / step;
    var m := if base < 0 then -q else q;
    assert base == m * step;
    MultipleMod(m, step);
    assert (m - 1) * step == base - step;
    MultipleMod(m - 1, step);
  }

  /** The southern edge of the geocell holding latitude `south`. */
  function GeocellSouth(south: real): (b: int)
    ensures b as real <= south < b as real + 1.0
  {
    var t := Trunc(south);
    if south < t as real then t - 1 else t
  }

  /** The directory rounding of GetPathComponents: the integer part, one
      lower for a western or southern value, except that a value within
      DBL_EPSILON below the next integer is taken as that integer. */
  function DirectoryOf(x: real): (d: int)
    ensures d == x.Floor || (d == x.Floor + 1 && 0.0 < d as real - x < Epsilon)
    ensures x == x.Floor as real ==> d == x.Floor
  {
    var t := Trunc(x);
    if RealAbs((t as real + 1.0) - x) < Epsilon then t + 1
    else if x < t as real then t - 1
    else t
  }

  /** The location GetPathComponents derives from a tile: the geocell
      directory (latitude and longitude of its south-west corner), the LOD,
      and the row (U) and column (R) of the tile inside the geocell. */
  datatype Location = Location(latDir: int, lonDir: int, lod: int, row: int, col: int)

  function Locate(e: Extent, pixX: int, presetLod: int): (loc: Location)
    requires e.Valid()
    ensures loc.lod == PathLod(e, pixX, presetLod)
    ensures loc.latDir == DirectoryOf(e.south)
    ensures loc.lod < 1 ==> loc.row == 0 && loc.col == 0
    ensures loc.lod < 1 ==> loc.lonDir == DirectoryOf(e.west)
    ensures loc.lod >= 1 ==> loc.lonDir == DirectoryOf(CellWest(e) as real)
  {
    var lod := PathLod(e, pixX, presetLod);
    if lod > 0 then
      var cellWest := CellWest(e);
      Location(DirectoryOf(e.south), DirectoryOf(cellWest as real), lod,
               RowInCell(e, GeocellSouth(e.south)), ColInCell(e, cellWest))
    else
      Location(DirectoryOf(e.south), DirectoryOf(e.west), lod, 0, 0)
  }

  /** The western edge of the geocell of a tile, in its zone. */
  function CellWest(e: Extent): int {
    GeocellWest(e.west, LonStep(e.south))
  }

  /** The row (U) of a tile: how many tile heights its southern edge lies
      above `cellSouth`, the southern edge of its geocell, rounded. */
  function RowInCell(e: Extent, cellSouth: int): int
    requires e.Valid()
  {
    CellIndex(e.south - cellSouth as real, e.Height())
  }

  /** How many steps of `size` fit into `offset`, rounded, computed as the
      source does: `offset * (1.0 / size)`. */
  function CellIndex(offset: real, size: real): int
    requires size > 0.0
  {
    Round(offset * (1.0 / size))
  }

  /** The column (R) of a tile: how many tile widths its western edge lies
      east of `cellWest`, the western edge of its geocell, rounded. */
  function ColInCell(e: Extent, cellWest: int): int
    requires e.Valid()
  {
    CellIndex(e.west - cellWest as real, e.Width())
  }

  /** The tile in row `row`, column `col` of LOD `k` inside the geocell whose
      south-west corner is (`lat`, `lon`) and whose zone is `step` degrees
      wide: 2^-k degrees tall and 2^-k geocell widths wide. */
  predicate IsTile(e: Extent, lat: int, lon: int, step: int, k: nat, row: nat, col: nat) {
    && e.Valid() && row < Pow2(k) && col < Pow2(k)
    && e.Height() * Pow2(k) as real == 1.0
    && e.south == lat as real + row as real * e.Height()
    && e.Width() == step as real * e.Height()
    && e.west == lon as real + col as real * e.Width()
  }

  /** The extent of that tile, built edge by edge: every row and column of
      every LOD has one. */
  function TileExtent(lat: int, lon: int, step: nat, k: nat, row: nat, col: nat): (e: Extent)
    requires step >= 1 && row < Pow2(k) && col < Pow2(k)
    ensures IsTile(e, lat, lon, step, k, row, col)
  {
    var size := TileSize(k);
    var width := step as real * size;
    var south := lat as real + row as real * size;
    var west := lon as real + col as real * width;
    var e := Extent(south + size, south, west + width, west);
    TileShape(lat, lon, step, k, row, col, size, e);
    e
  }

  /** The height of a tile of LOD k: 2^-k degrees. */
  function TileSize(k: nat): (size: real)
    ensures size > 0.0 && size * Pow2(k) as real == 1.0
  {
    Reciprocal(Pow2(k));
    1.0 / Pow2(k) as real
  }

  /** An extent laid out from a tile size whose product with 2^k is 1 is
      the tile in its row and column. */
  lemma TileShape(lat: int, lon: int, step: nat, k: nat, row: nat, col: nat, size: real, e: Extent)
    requires step >= 1 && row < Pow2(k) && col < Pow2(k)
    requires size > 0.0 && size * Pow2(k) as real == 1.0
    requires e.south == lat as real + row as real * size && e.north == e.south + size
    requires e.west == lon as real + col as real * (step as real * size)
    requires e.east == e.west + step as real * size
    ensures IsTile(e, lat, lon, step, k, row, col)
  {
    RealMulMonotone(0.0, size, step as real);
    assert e.Height() == size;
  }

  lemma Reciprocal(n: nat)
    requires n >= 1
    ensures 1.0 / n as real > 0.0
    ensures (1.0 / n as real) * n as real == 1.0
  {
  }

  /** Scaling by a positive factor keeps the order. */
  lemma RealMulMonotone(a: real, b: real, c: real)
    requires c > 0.0
    ensures a < b ==> a * c < b * c
  {
    assert b * c - a * c == (b - a) * c;
  }

  /** Round-trip: locating the tile at (row, col) of native LOD k in a
      geocell gives back that geocell, LOD, row and column. */
  lemma LocateTile(e: Extent, lat: int, lon: int, k: nat, row: nat, col: nat, pixX: int, presetLod: int)
    requires 1 <= k <= 52 && pixX >= 1024
    requires lon % LonStep(lat as real) == 0
    requires IsTile(e, lat, lon, LonStep(lat as real), k, row, col)
    ensures Locate(e, pixX, presetLod) == Location(lat, lon, k, row, col)
  {
    var step := LonStep(lat as real);
    Pow2Bound(k);
    TileLodOf(e, lat, lon, step, k, row, col, pixX, presetLod);
    TileRowOf(e, lat, lon, step, k, row, col);
    TileColumnOf(e, lat, lon, step, k, row, col);
    LocateFromSides(e, pixX, presetLod, Location(lat, lon, k, row, col));
  }

  /** The LOD half of the round trip. */
  lemma TileLodOf(e: Extent, lat: int, lon: int, step: int, k: nat, row: nat, col: nat, pixX: int, presetLod: int)
    requires k >= 1 && pixX >= 1024
    requires IsTile(e, lat, lon, step, k, row, col)
    ensures PathLod(e, pixX, presetLod) == k
  {
    TileLod(e, k, pixX, presetLod);
  }

  /** The row half of the round trip: geocell band, zone and row. */
  lemma TileRowOf(e: Extent, lat: int, lon: int, step: int, k: nat, row: nat, col: nat)
    requires Pow2(k) <= 4503599627370496
    requires IsTile(e, lat, lon, step, k, row, col)
    ensures DirectoryOf(e.south) == lat && GeocellSouth(e.south) == lat
    ensures LonStep(e.south) == LonStep(lat as real)
    ensures RowInCell(e, lat) == row
  {
    TileBandOf(e, lat, lon, step, k, row, col);
    TileRowIndexOf(e, lat, lon, step, k, row, col);
  }

  lemma TileBandOf(e: Extent, lat: int, lon: int, step: int, k: nat, row: nat, col: nat)
    requires Pow2(k) <= 4503599627370496
    requires IsTile(e, lat, lon, step, k, row, col)
    ensures DirectoryOf(e.south) == lat && GeocellSouth(e.south) == lat
    ensures LonStep(e.south) == LonStep(lat as real)
  {
    TileBand(e, lat, Pow2(k), row);
  }

  lemma TileRowIndexOf(e: Extent, lat: int, lon: int, step: int, k: nat, row: nat, col: nat)
    requires IsTile(e, lat, lon, step, k, row, col)
    ensures RowInCell(e, lat) == row
  {
    TileRowIndex(e, lat, Pow2(k), row);
  }

  /** The column half of the round trip: geocell west edge and column. */
  lemma TileColumnOf(e: Extent, lat: int, lon: int, step: int, k: nat, row: nat, col: nat)
    requires step >= 1 && lon % step == 0 && LonStep(e.south) == step
    requires IsTile(e, lat, lon, step, k, row, col)
    ensures CellWest(e) == lon && DirectoryOf(lon as real) == lon
    ensures ColInCell(e, lon) == col
  {
    var n := Pow2(k);
    TileCellWest(e, lon, step, n, col);
    TileColumnIndex(e, lon, step, n, col);
  }

  /** Locate, for a tile of positive LOD, from its separate parts. */
  lemma LocateFromSides(e: Extent, pixX: int, presetLod: int, loc: Location)
    requires e.Valid() && PathLod(e, pixX, presetLod) == loc.lod && loc.lod > 0
    requires DirectoryOf(e.south) == loc.latDir && GeocellSouth(e.south) == loc.latDir
    requires CellWest(e) == loc.lonDir && DirectoryOf(loc.lonDir as real) == loc.lonDir
    requires RowInCell(e, loc.latDir) == loc.row && ColInCell(e, loc.lonDir) == loc.col
    ensures Locate(e, pixX, presetLod) == loc
  {
  }

  lemma TileLod(e: Extent, k: nat, pixX: int, presetLod: int)
    requires e.Valid() && k >= 1 && pixX >= 1024
    requires e.Height() * Pow2(k) as real == 1.0
    ensures PathLod(e, pixX, presetLod) == k
  {
    assert PathLod(e, pixX, presetLod) == LodNumFromExtent(e);
    LodOfNativeHeight(e, k);
  }

  /** A row of height 1/n starting `row` rows above the whole latitude `lat`
      lies in the band of `lat`: that is its geocell and its directory. */
  lemma TileBand(e: Extent, lat: int, n: nat, row: nat)
    requires e.Valid() && row < n <= 4503599627370496
    requires e.Height() * n as real == 1.0
    requires e.south == lat as real + row as real * e.Height()
    ensures DirectoryOf(e.south) == lat && GeocellSouth(e.south) == lat
    ensures LonStep(e.south) == LonStep(lat as real)
  {
    InverseHeight(e.Height(), n, row);
    RowOffset(lat, e.south, n, row);
    DirectoryAwayFromNextDegree(e.south);
    LonStepConstantInBand(lat, e.south);
  }

  lemma InverseHeight(h: real, n: nat, row: nat)
    requires n >= 1 && h * n as real == 1.0
    ensures row as real * h == row as real / n as real
  {
    assert h == 1.0 / n as real;
  }

  /** The row a tile's southern edge lies in is the row it was laid out in. */
  lemma TileRowIndex(e: Extent, lat: int, n: nat, row: nat)
    requires e.Valid() && n >= 1
    requires e.Height() * n as real == 1.0
    requires e.south == lat as real + row as real * e.Height()
    ensures RowInCell(e, lat) == row
  {
    TileRowOffset(e, lat, n, row);
    RowValue(e, lat, row);
  }

  /** The column a tile's western edge lies in is the column it was laid
      out in. */
  lemma TileColumnIndex(e: Extent, lon: int, step: int, n: nat, col: nat)
    requires e.Valid() && step >= 1 && n >= 1
    requires e.Height() * n as real == 1.0
    requires e.Width() == step as real * e.Height()
    requires e.west == lon as real + col as real * e.Width()
    ensures ColInCell(e, lon) == col
  {
    TileColumnOffset(e, lon, step, n, col);
    ColumnValue(e, lon, col);
  }

  lemma TileRowOffset(e: Extent, lat: int, n: nat, row: nat)
    requires e.Valid() && n >= 1
    requires e.Height() * n as real == 1.0
    requires e.south == lat as real + row as real * e.Height()
    ensures (e.south - lat as real) * (1.0 / e.Height()) == row as real
  {
  }

  lemma RowValue(e: Extent, cellSouth: int, row: nat)
    requires e.Valid()
    requires (e.south - cellSouth as real) * (1.0 / e.Height()) == row as real
    ensures RowInCell(e, cellSouth) == row
  {
    WholeCellIndex(e.south - cellSouth as real, e.Height(), row);
  }

  /** A column `col` of `n` in a zone `step` wide east of the grid line
      `lon` belongs to the geocell whose western edge is `lon`. */
  lemma TileCellWest(e: Extent, lon: int, step: int, n: nat, col: nat)
    requires e.Valid() && step >= 1 && lon % step == 0 && col < n
    requires LonStep(e.south) == step
    requires e.Height() * n as real == 1.0
    requires e.Width() == step as real * e.Height()
    requires e.west == lon as real + col as real * e.Width()
    ensures CellWest(e) == lon && DirectoryOf(lon as real) == lon
  {
    ColumnBounds(lon, e.west, step, e.Height(), n, col);
    GeocellWestOf(e.west, lon, step);
    CellWestIs(e, step, lon);
  }

  lemma CellWestIs(e: Extent, step: int, lon: int)
    requires LonStep(e.south) == step && step >= 1
    requires GeocellWest(e.west, step) == lon
    ensures CellWest(e) == lon
  {
  }

  /** The geocell of a longitude within one step east of a grid line
      starts at that grid line. */
  lemma GeocellWestOf(west: real, lon: int, step: int)
    requires step >= 1 && lon % step == 0
    requires lon as real <= west < (lon + step) as real
    ensures GeocellWest(west, step) == lon
  {
    GeocellWestOnGrid(west, step);
    SameMultiple(GeocellWest(west, step), lon, step);
  }

  lemma ColumnBounds(lon: int, west: real, step: int, size: real, n: nat, col: nat)
    requires step >= 1 && col < n
    requires size * n as real == 1.0
    requires west == lon as real + col as real * (step as real * size)
    ensures lon as real <= west < (lon + step) as real
  {
    assert size == 1.0 / n as real;
    ColumnInCell(col, n, step as real);
  }

  lemma TileColumnOffset(e: Extent, lon: int, step: int, n: nat, col: nat)
    requires e.Valid() && step >= 1 && n >= 1
    requires e.Height() * n as real == 1.0
    requires e.Width() == step as real * e.Height()
    requires e.west == lon as real + col as real * e.Width()
    ensures (e.west - lon as real) * (1.0 / e.Width()) == col as real
  {
  }

  lemma ColumnValue(e: Extent, cellWest: int, col: nat)
    requires e.Valid()
    requires (e.west - cellWest as real) * (1.0 / e.Width()) == col as real
    ensures ColInCell(e, cellWest) == col
  {
    WholeCellIndex(e.west - cellWest as real, e.Width(), col);
  }

  /** An offset of a whole number of steps gives that number back. */
  lemma WholeCellIndex(offset: real, size: real, n: nat)
    requires size > 0.0 && offset * (1.0 / size) == n as real
    ensures CellIndex(offset, size) == n
  {
    RoundWhole(n, offset * (1.0 / size));
  }

  lemma RoundWhole(n: nat, x: real)
    requires x == n as real
    ensures Round(x) == n
  {
  }

  /** Column `col` of `n` starts inside the geocell. */
  lemma ColumnInCell(col: nat, n: nat, step: real)
    requires col < n && step > 0.0
    ensures 0.0 <= col as real * (step * (1.0 / n as real)) < step
  {
    RowGap(col, n);
    var f := col as real / n as real;
    assert f < 1.0;
    assert col as real * (step * (1.0 / n as real)) == f * step;
  }

  /** Two multiples of `step` less than `step` apart are equal. */
  lemma SameMultiple(a: int, b: int, step: int)
    requires step >= 1 && a % step == 0 && b % step == 0
    requires a - step < b < a + step
    ensures a == b
  {
    var qa, qb := a / step, b / step;
    assert a == qa * step && b == qb * step;
    if qa < qb {
      MulStep(qa, qb, step);
    } else if qa > qb {
      MulStep(qb, qa, step);
    }
  }

  /** Row `row` of `n` starts at a fraction of the band at least one row
      below its top. */
  lemma RowGap(row: nat, n: nat)
    requires row < n
    ensures 0.0 <= row as real / n as real
    ensures row as real / n as real + 1.0 / n as real <= 1.0
  {
    var p := n as real;
    var inv := 1.0 / p;
    assert row as real / p == row as real * inv;
    assert (row + 1) as real * inv <= p * inv by {
      assert (row + 1) as real <= p;
    }
    assert p * inv == 1.0;
  }

  lemma ReciprocalAntitone(a: real, b: real)
    requires 0.0 < a <= b
    ensures 1.0 / b <= 1.0 / a
  {
    assert (1.0 / b) * a <= (1.0 / b) * b;
  }

  /** The southern edge of row `row` of `n` lies in the band of `lat` and at
      least 1/n, no less than DBL_EPSILON, below the next whole degree. */
  lemma RowOffset(lat: int, south: real, n: nat, row: nat)
    requires row < n <= 4503599627370496
    requires south == lat as real + row as real / n as real
    ensures lat as real <= south < lat as real + 1.0
    ensures south.Floor == lat
    ensures (lat + 1) as real - south >= Epsilon
  {
    var p := n as real;
    RowGap(row, n);
    var inv := 1.0 / p;
    ReciprocalAntitone(p, 4503599627370496.0);
    assert inv >= Epsilon;
  }

  /** A value at least DBL_EPSILON below the next whole number has its
      integer part as directory. */
  lemma DirectoryAwayFromNextDegree(x: real)
    requires (x.Floor + 1) as real - x >= Epsilon
    ensures DirectoryOf(x) == x.Floor
  {
  }
}

=== FILE: model_manager.dfy ===
/** The global model manager: a stack handing batches of replacement
    models from feature processing to the scene graph, the map of retired
    geospecific models, and the load status of each model URI, which keeps
    two workers from loading the same model at once. The locks around each
    structure are not modelled; each operation is one atomic step. */
module ModelManager {
  import opened Optional

  // ---------------------------------------------------------------------
  // Replacement stack
  // ---------------------------------------------------------------------

  /** The replacement stack, bottom first. */
  type Stack<B> = seq<B>

  /** Add_To_Replacment_Stack. */
  function Push<B>(s: Stack<B>, batch: B): (r: Stack<B>)
    ensures |r| == |s| + 1 && r[..|s|] == s && r[|s|] == batch
  {
    s + [batch]
  }

  /** Have_Replacement_Data: the stack holds a batch. */
  function HaveReplacementData<B>(s: Stack<B>): (r: bool)
    ensures r <==> s != []
  {
    |s| > 0
  }

  /** Test_Next_Replacement: the top batch. Like std::stack::top, it needs
      a batch to be there. */
  function TestNext<B>(s: Stack<B>): (b: B)
    requires HaveReplacementData(s)
    ensures b in s
  {
    s[|s| - 1]
  }

  /** Get_Next_Replacement_From_Stack: the top batch, and the stack
      without it. */
  function Pop<B>(s: Stack<B>): (r: (B, Stack<B>))
    requires HaveReplacementData(s)
    ensures r.0 == TestNext(s)
    ensures |r.1| == |s| - 1 && r.1 + [r.0] == s
  {
    (s[|s| - 1], s[..|s| - 1])
  }

  /** The most recently pushed batch comes off first, and the stack is
      left as it was before the push. */
  lemma PopUndoesPush<B>(s: Stack<B>, batch: B)
    ensures HaveReplacementData(Push(s, batch))
    ensures Pop(Push(s, batch)) == (batch, s)
  {
    assert Push(s, batch)[..|s|] == s;
  }

  /** Peeking changes nothing: after a peek the pop returns the batch
      peeked. */
  lemma PeekThenPop<B>(s: Stack<B>)
    requires HaveReplacementData(s)
    ensures Pop(s).0 == TestNext(s)
  {
  }

  /** Push every batch of `bs` in order. */
  function PushAll<B>(s: Stack<B>, bs: seq<B>): Stack<B>
    decreases |bs|
  {
    if |bs| == 0 then s else PushAll(Push(s, bs[0]), bs[1..])
  }

  /** Pop `n` batches, collecting them in the order they come off. */
  function PopN<B>(s: Stack<B>, n: nat): (r: (seq<B>, Stack<B>))
    requires n <= |s|
  {
    if n == 0 then ([], s)
    else
      var (b, rest) := Pop(s);
      var (more, left) := PopN(rest, n - 1);
      ([b] + more, left)
  }

  /** `bs` back to front. */
  function Reverse<B>(bs: seq<B>): (r: seq<B>)
    ensures |r| == |bs|
    ensures forall i :: 0 <= i < |bs| ==> r[i] == bs[|bs| - 1 - i]
  {
    if |bs| == 0 then [] else Reverse(bs[1..]) + [bs[0]]
  }

  /** Pushing batches onto a stack appends them. */
  lemma {:induction false} PushAllAppends<B>(s: Stack<B>, bs: seq<B>)
    ensures PushAll(s, bs) == s + bs
    decreases |bs|
  {
    if |bs| > 0 {
      PushAllAppends(Push(s, bs[0]), bs[1..]);
      assert Push(s, bs[0]) + bs[1..] == s + bs;
    }
  }

  /** Popping n batches off s + bs, with n = |bs|, hands them back newest
      first and leaves s. */
  lemma {:induction false} PopNReturnsNewestFirst<B>(s: Stack<B>, bs: seq<B>)
    ensures PopN(s + bs, |bs|) == (Reverse(bs), s)
    decreases |bs|
  {
    if |bs| > 0 {
      var n := |bs| - 1;
      assert (s + bs)[..|s + bs| - 1] == s + bs[..n];
      assert Pop(s + bs) == (bs[n], s + bs[..n]);
      PopNReturnsNewestFirst(s, bs[..n]);
      assert Reverse(bs) == [bs[n]] + Reverse(bs[..n]);
      assert PopN(s + bs, |bs|) == ([bs[n]] + Reverse(bs[..n]), s);
    } else {
      assert s + bs == s;
    }
  }

  /** The stack is LIFO: a batch of pushes, then as many pops, returns the
      batches in reverse order and restores the stack. */
  lemma StackIsLifo<B>(s: Stack<B>, bs: seq<B>)
    ensures |bs| <= |PushAll(s, bs)|
    ensures PopN(PushAll(s, bs), |bs|) == (Reverse(bs), s)
  {
    PushAllAppends(s, bs);
    PopNReturnsNewestFirst(s, bs);
  }

  // ---------------------------------------------------------------------
  // Retired models
  // ---------------------------------------------------------------------

  /** What is kept of a retired model: its transform's name and its old
      scene node. */
  datatype Retired<N> = Retired(xform: string, node: N)

  type RetiredMap<N> = map<string, Retired<N>>

  /** Add_To_Retired_Map: std::map::insert, which leaves an existing entry
      in place. */
  function AddRetired<N>(m: RetiredMap<N>, name: string, xform: string, node: N): (r: RetiredMap<N>)
    ensures r.Keys == m.Keys + {name}
    ensures name in m ==> r[name] == m[name]
    ensures name !in m ==> r[name] == Retired(xform, node)
    ensures forall k :: k in m ==> r[k] == m[k]
  {
    if name in m then m else m[name := Retired(xform, node)]
  }

  /** Have_RetiredModel. */
  function HaveRetired<N>(m: RetiredMap<N>, name: string): (r: bool)
    ensures r <==> name in m
  {
    name in m
  }

  /** One call of Add_To_Retired_Map. */
  datatype Retirement<N> = Retirement(name: string, xform: string, node: N)

  /** The retired map after the given calls, in order, from empty. */
  function RetireAll<N>(rs: seq<Retirement<N>>): RetiredMap<N>
    decreases |rs|
  {
    if |rs| == 0 then map[]
    else
      var n := |rs| - 1;
      AddRetired(RetireAll(rs[..n]), rs[n].name, rs[n].xform, rs[n].node)
  }

  /** A model is retired exactly when some call named it, and the map
      keeps what the first such call gave. */
  lemma {:induction false} RetiredIffAdded<N>(rs: seq<Retirement<N>>, name: string)
    ensures HaveRetired(RetireAll(rs), name) <==> exists i :: 0 <= i < |rs| && rs[i].name == name
    ensures forall i :: 0 <= i < |rs| && rs[i].name == name
              && (forall j :: 0 <= j < i ==> rs[j].name != name)
              ==> RetireAll(rs)[name] == Retired(rs[i].xform, rs[i].node)
    decreases |rs|
  {
    if |rs| > 0 {
      var n := |rs| - 1;
      RetiredIffAdded(rs[..n], name);
      assert forall i :: 0 <= i < n ==> rs[..n][i] == rs[i];
    }
  }

  // ---------------------------------------------------------------------
  // Load status
  // ---------------------------------------------------------------------

  /** The load status of a model URI. Loading and Loaded are the two the
      manager tests; every other value of the enumeration, declared outside
      this file, behaves alike and is modelled as Other. */
  datatype LoadStatus = Loading | Loaded | Other(code: int)

  /** ModelNotLoading: a URI seen for the first time is marked Loading and
      may be loaded; a recorded URI may be loaded again unless it is Loading
      or Loaded, and its record is not touched. */
  function ModelNotLoading(status: map<string, LoadStatus>, uri: string): (r: (bool, map<string, LoadStatus>))
    ensures uri !in status ==> r.0 && r.1 == status[uri := Loading]
    ensures uri in status ==> r.1 == status
    ensures uri in status ==> (r.0 <==> status[uri].Other?)
  {
    if uri in status then
      (!(status[uri] == Loading || status[uri] == Loaded), status)
    else
      (true, status[uri := Loading])
  }

  /** Two requests for the same URI never both get a go-ahead unless the
      first found it in another state: after a first request, the next one
      is refused. */
  lemma SecondRequestRefused(status: map<string, LoadStatus>, uri: string)
    requires uri !in status
    ensures var (first, after) := ModelNotLoading(status, uri);
      first && !ModelNotLoading(after, uri).0
  {
  }

  /** A refused request changes nothing, so refusing is stable. */
  lemma RefusalIsStable(status: map<string, LoadStatus>, uri: string)
    requires !ModelNotLoading(status, uri).0
    ensures ModelNotLoading(status, uri).1 == status
    ensures !ModelNotLoading(ModelNotLoading(status, uri).1, uri).0
  {
  }
}

=== FILE: model_names.dfy ===
/** The string helpers around 3D-model files: changing a file's type,
    the model key a feature names, the model file of a tile, the header
    all the models of one tile share, and reading the key back out of an
    archive member's name. */
module ModelNames {
  import opened Optional
  import opened Strings
  import opened TileNames

  // ---------------------------------------------------------------------
  // File types
  // ---------------------------------------------------------------------

  /** Set_FileType: everything before the last '.', then `fileType`; empty
      when the name has no '.'. */
  function SetFileType(name: string, fileType: string): (r: string)
    ensures '.' !in name ==> r == ""
    ensures '.' in name ==> |fileType| <= |r| < |name| + |fileType| && r[|r| - |fileType|..] == fileType
    ensures '.' in name ==> '.' !in name[|r| - |fileType| + 1..]
    ensures '.' in name ==> r[..|r| - |fileType|] == name[..|r| - |fileType|]
    ensures '.' in name ==> name[|r| - |fileType|] == '.'
  {
    match FindLastChar(name, '.')
    case None => ""
    case Some(p) => name[..p] + fileType
  }

  /** Xml_Name: the same name with the ".xml" type. */
  function XmlName(name: string): (r: string)
    ensures '.' in name <==> r != ""
  {
    match FindLastChar(name, '.')
    case None => ""
    case Some(p) => name[..p] + ".xml"
  }

  /** Xml_Name is Set_FileType with ".xml". */
  lemma XmlNameIsSetFileType(name: string)
    ensures XmlName(name) == SetFileType(name, ".xml")
  {
  }

  /** A type that starts with its only '.'. */
  predicate FileType(t: string) {
    |t| >= 1 && t[0] == '.' && '.' !in t[1..]
  }

  /** Replacing the type of a stem + type name gives stem + the new type. */
  lemma {:induction false} SetFileTypeOf(stem: string, current: string, wanted: string)
    requires FileType(current)
    ensures SetFileType(stem + current, wanted) == stem + wanted
  {
    var name := stem + current;
    assert name[|stem|] == '.';
    forall j | |stem| < j < |name|
      ensures name[j] != '.'
    {
      assert name[j] == current[1..][j - |stem| - 1];
    }
    LastCharAt(name, '.', |stem|);
    assert name[..|stem|] == stem;
  }

  /** Setting a type twice is setting it once. */
  lemma SetFileTypeIdempotent(name: string, t: string)
    requires FileType(t) && '.' in name
    ensures SetFileType(SetFileType(name, t), t) == SetFileType(name, t)
  {
    var p := FindLastChar(name, '.').value;
    SetFileTypeOf(name[..p], t, t);
  }

  /** find_last_of reports the position after which no `c` follows. */
  lemma LastCharAt(s: string, c: char, k: nat)
    requires k < |s| && s[k] == c
    requires forall j :: k < j < |s| ==> s[j] != c
    ensures FindLastChar(s, c) == Some(k)
  {
    var r := FindLastChar(s, c);
    assert c in s;
    if r.value < k {
    } else if r.value > k {
    }
  }

  // ---------------------------------------------------------------------
  // Model names
  // ---------------------------------------------------------------------

  /** Model_KeyName: feature code, subcode and model name, then ".flt". */
  function ModelKeyName(facc: string, fsc: string, baseName: string): string {
    facc + "_" + fsc + "_" + baseName + ".flt"
  }

  /** The dataset, selector and LOD part every model file of a tile
      starts with. */
  function ModelDataset(t: Tokens, lodStr: string): string {
    t.lat + t.lon + "_D300_S001_T001_" + lodStr + "_" + t.u + "_" + t.r + "_"
  }

  /** The LOD text Model_FileName writes: that of model set `sel` when
      `sel` is positive and the set has its own, the tile's otherwise.
      `setLods` holds each model set's LOD text ("" when it has none). */
  function ModelLod(t: Tokens, setLods: seq<string>, sel: int): (lod: string)
    requires sel > 0 ==> sel < |setLods|
    ensures sel <= 0 ==> lod == t.lod
    ensures sel > 0 && |setLods[sel]| > 0 ==> lod == setLods[sel]
    ensures sel > 0 && |setLods[sel]| == 0 ==> lod == t.lod
  {
    if sel > 0 then
      if |setLods[sel]| > 0 then setLods[sel] else t.lod
    else t.lod
  }

  /** Model_FileName: the tile's model header followed by the model key. */
  function ModelFileName(t: Tokens, setLods: seq<string>, sel: int, facc: string, fsc: string, baseName: string): (name: string)
    requires sel > 0 ==> sel < |setLods|
    ensures name == ModelDataset(t, ModelLod(t, setLods, sel)) + ModelKeyName(facc, fsc, baseName)
  {
    var lod := ModelLod(t, setLods, sel);
    t.lat + t.lon + "_D300_S001_T001_" + lod + "_" + t.u + "_" + t.r + "_"
      + facc + "_" + fsc + "_" + baseName + ".flt"
  }

  /** Model_HeaderName: the header of the tile's model files for the two
      model layers, empty for every other tile type. */
  function ModelHeaderName(kind: TileType, t: Tokens): (h: string)
    ensures kind != GeoSpecificModel && kind != GeoTypicalModel ==> h == ""
    ensures kind == GeoSpecificModel || kind == GeoTypicalModel ==> h == ModelDataset(t, t.lod)
  {
    if kind != GeoSpecificModel && kind != GeoTypicalModel then ""
    else t.lat + t.lon + "_D300_S001_T001_" + t.lod + "_" + t.u + "_" + t.r + "_"
  }

  /** A model file of a model tile, without a set of its own, is its header
      followed by its key name. */
  lemma ModelFileNameSplits(kind: TileType, t: Tokens, setLods: seq<string>, sel: int, facc: string, fsc: string, baseName: string)
    requires kind == GeoSpecificModel || kind == GeoTypicalModel
    requires sel > 0 ==> sel < |setLods| && |setLods[sel]| == 0
    ensures ModelFileName(t, setLods, sel, facc, fsc, baseName) == ModelHeaderName(kind, t) + ModelKeyName(facc, fsc, baseName)
  {
  }

  // ---------------------------------------------------------------------
  // Archives
  // ---------------------------------------------------------------------

  /** archive_validate_modelname: the first member whose name contains
      `filename`, "" when there is none. */
  method ArchiveValidateModelName(members: seq<string>, filename: string) returns (result: string)
    ensures (forall j :: 0 <= j < |members| ==> !Contains(members[j], filename)) ==> result == ""
    ensures forall k :: (0 <= k < |members| && Contains(members[k], filename)
                         && forall j :: 0 <= j < k ==> !Contains(members[j], filename))
                        ==> result == members[k]
  {
    var i := 0;
    while i < |members|
      invariant 0 <= i <= |members|
      invariant forall j :: 0 <= j < i ==> !Contains(members[j], filename)
    {
      if Find(members[i], filename).Some? {
        return members[i];
      }
      i := i + 1;
    }
    return "";
  }

  /** The search text of Model_KeyNameFromArchiveName: the header up to and
      including its first "_S", so that selectors do not have to match;
      the whole header when it has none. */
  function SearchText(header: string): (s: string)
    ensures |s| <= |header| && s == header[..|s|]
    ensures !Contains(header, "_S") ==> s == header
  {
    match Find(header, "_S")
    case None => header
    case Some(p) => header[..p + 2]
  }

  /** Model_KeyNameFromArchiveName: what follows the header in the archive
      member's name, found by its selector-free prefix; "" when the prefix
      is missing or nothing follows. */
  function KeyNameFromArchiveName(archiveName: string, header: string): (key: string)
    ensures |key| <= |archiveName| && key == archiveName[|archiveName| - |key|..]
    ensures !Contains(archiveName, SearchText(header)) ==> key == ""
  {
    match Find(archiveName, SearchText(header))
    case None => ""
    case Some(pos1) =>
      var pos2 := pos1 + |header|;
      if pos2 < |archiveName| then archiveName[pos2..] else ""
  }

  /** The key name comes back out of a member named header + key. */
  lemma KeyNameRoundTrip(header: string, key: string)
    requires |key| > 0
    ensures KeyNameFromArchiveName(header + key, header) == key
  {
    var s := SearchText(header);
    FindAtFront(header + key, s);
    assert (header + key)[|header|..] == key;
  }

  /** Selectors are masked: a member whose header differs from the tile's
      only after the first "_S" still yields its key. */
  lemma KeyNameIgnoresSelectors(header: string, memberHeader: string, key: string)
    requires |key| > 0 && |memberHeader| == |header|
    requires Contains(header, "_S")
    requires memberHeader[..Find(header, "_S").value + 2] == header[..Find(header, "_S").value + 2]
    ensures KeyNameFromArchiveName(memberHeader + key, header) == key
  {
    var s := SearchText(header);
    var name := memberHeader + key;
    assert name[..|s|] == s;
    FindAtFront(name, s);
    assert name[|header|..] == key;
  }

  /** The archived model files of a model tile give back their key names. */
  lemma ArchivedModelKey(kind: TileType, t: Tokens, facc: string, fsc: string, baseName: string)
    requires kind == GeoSpecificModel || kind == GeoTypicalModel
    ensures KeyNameFromArchiveName(ModelFileName(t, [], 0, facc, fsc, baseName), ModelHeaderName(kind, t))
         == ModelKeyName(facc, fsc, baseName)
  {
    ModelFileNameSplits(kind, t, [], 0, facc, fsc, baseName);
    KeyNameRoundTrip(ModelHeaderName(kind, t), ModelKeyName(facc, fsc, baseName));
  }
}

=== FILE: numerics.dfy ===
/** The C and C++ number handling the tile code leans on, stated exactly:
    casts from double to int (truncation toward zero), round() (half away
    from zero), truncating integer division, what an ostream writes for an
    int under setfill('0') << setw(w), and what atoi / _atoi64 read back. */
module Numerics {

  // ---------------------------------------------------------------------
  // Casts and rounding
  // ---------------------------------------------------------------------

  /** `(int)x` in C: the integer part, truncated toward zero. */
  function Trunc(x: real): (r: int)
    ensures 0.0 <= x ==> 0 <= r && r as real <= x < r as real + 1.0
    ensures x < 0.0 ==> r <= 0 && r as real - 1.0 < x <= r as real
  {
    if x >= 0.0 then x.Floor else -((-x).Floor)
  }

  /** C `round(x)`: nearest integer, halfway cases away from zero. */
  function Round(x: real): (r: int)
    ensures 0.0 <= x ==> 0 <= r && r as real - 0.5 <= x < r as real + 0.5
    ensures x < 0.0 ==> r <= 0 && r as real - 0.5 < x <= r as real + 0.5
  {
    if x >= 0.0 then (x + 0.5).Floor else -((-x + 0.5).Floor)
  }

  function Abs(x: int): (r: nat)
    ensures r == x || r == -x
  {
    if x < 0 then -x else x
  }

  function RealAbs(x: real): (r: real)
    ensures r >= 0.0 && (r == x || r == -x)
  {
    if x < 0.0 then -x else x
  }

  /** C integer remainder `a % b` for a positive divisor: unlike Dafny's
      Euclidean `%`, it takes the sign of the dividend. */
  function CMod(a: int, b: int): (r: int)
    requires b > 0
    ensures -b < r < b
    ensures 0 <= a ==> 0 <= r && r == a % b
    ensures a < 0 ==> r <= 0 && -r == (-a) % b
  {
    if a >= 0 then a % b else -((-a) % b)
  }

  // ---------------------------------------------------------------------
  // Decimal strings
  // ---------------------------------------------------------------------

  function Pow10(n: nat): (p: nat)
    ensures p >= 1
  {
    if n == 0 then 1 else 10 * Pow10(n - 1)
  }

  predicate IsDigit(c: char) {
    '0' <= c <= '9'
  }

  predicate AllDigits(s: string) {
    forall i :: 0 <= i < |s| ==> IsDigit(s[i])
  }

  function DigitChar(d: nat): (c: char)
    requires d < 10
    ensures IsDigit(c) && c as int - '0' as int == d
  {
    ('0' as int + d) as char
  }

  function DigitValue(c: char): (d: nat)
    requires IsDigit(c)
    ensures d < 10 && DigitChar(d) == c
  {
    c as int - '0' as int
  }

  /** The number a string of decimal digits denotes, most significant first. */
  function DigitsValue(s: string): nat
    requires AllDigits(s)
  {
    if |s| == 0 then 0 else DigitsValue(s[..|s| - 1]) * 10 + DigitValue(s[|s| - 1])
  }

  /** The shortest decimal spelling of `n`, as `ostream << n` writes it. */
  function Decimal(n: nat): (s: string)
    ensures 1 <= |s| && AllDigits(s)
    ensures DigitsValue(s) == n
    ensures |s| > 1 ==> s[0] != '0'
    decreases n
  {
    if n < 10 then [DigitChar(n)]
    else
      var prefix := Decimal(n / 10);
      var s := prefix + [DigitChar(n % 10)];
      assert s[..|s| - 1] == prefix;
      s
  }

  /** `ostream << v` for a signed int: a minus sign, then the digits of |v|. */
  function Signed(v: int): (s: string)
    ensures v >= 0 ==> s == Decimal(v)
    ensures v < 0 ==> s == "-" + Decimal(-v)
  {
    if v < 0 then "-" + Decimal(-v) else Decimal(v)
  }

  function Repeat(c: char, n: nat): (s: string)
    ensures |s| == n && forall i :: 0 <= i < n ==> s[i] == c
  {
    if n == 0 then [] else [c] + Repeat(c, n - 1)
  }

  /** setfill(c) << setw(w): pad on the left up to width `w`; never truncate. */
  function PadLeft(s: string, w: nat, c: char): (r: string)
    ensures |s| >= w ==> r == s
    ensures |s| < w ==> |r| == w
    ensures exists k :: 0 <= k <= |r| && r[k..] == s && r[..k] == Repeat(c, k)
  {
    if |s| >= w then
      assert s[0..] == s && s[..0] == Repeat(c, 0);
      s
    else
      var r := Repeat(c, w - |s|) + s;
      assert r[w - |s|..] == s && r[..w - |s|] == Repeat(c, w - |s|);
      r
  }

  /** `setfill('0') << setw(w) << v` with the default (right) adjustment:
      zeros go in front of the whole text, sign included. */
  function Fmt(v: int, w: nat): string {
    PadLeft(Signed(v), w, '0')
  }

  // ---------------------------------------------------------------------
  // atoi
  // ---------------------------------------------------------------------

  /** The characters C's isspace accepts. */
  predicate IsSpace(c: char) {
    c == ' ' || c == '\t' || c == '\n' || c == '\r' || c == '\U{000B}' || c == '\U{000C}'
  }

  function SkipSpace(s: string): (t: string)
    ensures |t| <= |s| && t == s[|s| - |t|..]
    ensures |t| > 0 ==> !IsSpace(t[0])
    ensures forall i :: 0 <= i < |s| - |t| ==> IsSpace(s[i])
  {
    if |s| > 0 && IsSpace(s[0]) then SkipSpace(s[1..]) else s
  }

  /** The longest prefix of `s` made of digits. */
  function LeadingDigits(s: string): (d: string)
    ensures AllDigits(d) && |d| <= |s| && d == s[..|d|]
    ensures |d| < |s| ==> !IsDigit(s[|d|])
  {
    if |s| > 0 && IsDigit(s[0]) then
      var rest := LeadingDigits(s[1..]);
      assert [s[0]] + rest == s[..1 + |rest|];
      [s[0]] + rest
    else []
  }

  /** atoi / _atoi64: skip white space, read an optional sign, then as many
      digits as follow. The C result is undefined on overflow; integers are
      unbounded here. */
  function Atoi(s: string): int {
    var t := SkipSpace(s);
    if |t| > 0 && t[0] == '-' then -(DigitsValue(LeadingDigits(t[1..])) as int)
    else if |t| > 0 && t[0] == '+' then DigitsValue(LeadingDigits(t[1..]))
    else DigitsValue(LeadingDigits(t))
  }

  // ---------------------------------------------------------------------
  // Lemmas
  // ---------------------------------------------------------------------

  /** Reading a concatenation of digit strings is positional. */
  lemma {:induction false} DigitsValueAppend(a: string, b: string)
    requires AllDigits(a) && AllDigits(b)
    ensures AllDigits(a + b)
    ensures DigitsValue(a + b) == DigitsValue(a) * Pow10(|b|) + DigitsValue(b)
    decreases |b|
  {
    var ab := a + b;
    assert AllDigits(ab) by {
      forall i | 0 <= i < |ab| ensures IsDigit(ab[i]) {
        if i < |a| { assert ab[i] == a[i]; } else { assert ab[i] == b[i - |a|]; }
      }
    }
    if |b| == 0 {
      assert ab == a;
    } else {
      var b' := b[..|b| - 1];
      var last := b[|b| - 1];
      assert ab[..|ab| - 1] == a + b';
      assert ab[|ab| - 1] == last;
      DigitsValueAppend(a, b');
      assert DigitsValue(b) == DigitsValue(b') * 10 + DigitValue(last);
      assert DigitsValue(ab) == DigitsValue(a + b') * 10 + DigitValue(last);
      ShiftOneDigit(DigitsValue(a), DigitsValue(b'), Pow10(|b'|), DigitValue(last));
    }
  }

  lemma ShiftOneDigit(x: int, y: int, p: int, d: int)
    ensures (x * p + y) * 10 + d == x * (p * 10) + (y * 10 + d)
  {
  }

  lemma {:induction false} ZerosValue(n: nat)
    ensures AllDigits(Repeat('0', n)) && DigitsValue(Repeat('0', n)) == 0
  {
    if n > 0 {
      var z := Repeat('0', n);
      assert z[..n - 1] == Repeat('0', n - 1);
      ZerosValue(n - 1);
    }
  }

  /** A value below 10^w needs at most w digits. */
  lemma {:induction false} DecimalFits(n: nat, w: nat)
    requires 1 <= w && n < Pow10(w)
    ensures |Decimal(n)| <= w
    decreases w
  {
    if n >= 10 {
      DecimalFits(n / 10, w - 1);
    }
  }

  /** A value of at least 10^w needs more than w digits. */
  lemma {:induction false} DecimalExceeds(n: nat, w: nat)
    requires Pow10(w) <= n
    ensures |Decimal(n)| > w
    decreases w
  {
    if w > 0 {
      DecimalExceeds(n / 10, w - 1);
    }
  }

  /** A non-negative value under setw(w): zeros, then its decimal digits. */
  lemma FmtNatShape(v: nat, w: nat)
    ensures Fmt(v, w) == Repeat('0', PadCount(|Decimal(v)|, w)) + Decimal(v)
  {
    var d := Decimal(v);
    if |d| >= w {
      assert Repeat('0', 0) + d == d;
    }
  }

  /** How many fill characters setw(w) adds to a text of length n. */
  function PadCount(n: nat, w: nat): (k: nat)
    ensures n + k == if n < w then w else n
  {
    if n < w then w - n else 0
  }

  /** A non-negative value of any size reads back from its padded text;
      a value too wide for the field simply takes more digits. */
  lemma FmtNatValue(v: nat, w: nat)
    ensures AllDigits(Fmt(v, w)) && DigitsValue(Fmt(v, w)) == v
    ensures |Fmt(v, w)| == if |Decimal(v)| < w then w else |Decimal(v)|
  {
    var d := Decimal(v);
    var n := PadCount(|d|, w);
    FmtNatShape(v, w);
    ZerosValue(n);
    DigitsValueAppend(Repeat('0', n), d);
  }

  /** A non-negative value below 10^w is written in exactly w digits, and
      reading them back gives the value: leading zeros are harmless. */
  lemma FmtNatRoundTrip(v: nat, w: nat)
    requires 1 <= w && v < Pow10(w)
    ensures |Fmt(v, w)| == w && AllDigits(Fmt(v, w))
    ensures DigitsValue(Fmt(v, w)) == v
  {
    DecimalFits(v, w);
    FmtNatValue(v, w);
  }

  /** FmtNatRoundTrip, for any value, under the hypothesis that it fits. */
  lemma FmtWhenFits(v: nat, w: nat)
    requires 1 <= w
    ensures v < Pow10(w) ==> |Fmt(v, w)| == w && AllDigits(Fmt(v, w)) && DigitsValue(Fmt(v, w)) == v
  {
    if v < Pow10(w) {
      FmtNatRoundTrip(v, w);
    }
  }

  /** Digits are none of the separators a path or file name uses. */
  lemma DigitsAreNoSeparators(s: string)
    requires AllDigits(s)
    ensures '_' !in s && '/' !in s && '\\' !in s && '.' !in s
  {
  }

  /** atoi reads a plain digit string exactly. */
  lemma AtoiDigits(s: string)
    requires AllDigits(s)
    ensures Atoi(s) == DigitsValue(s)
  {
    if |s| > 0 {
      assert !IsSpace(s[0]);
      assert SkipSpace(s) == s;
    }
    var d := LeadingDigits(s);
    assert d == s;
  }

  /** atoi stops at the first character that is not a digit. */
  lemma AtoiStops(d: string, rest: string)
    requires AllDigits(d) && (|rest| > 0 ==> !IsDigit(rest[0]))
    requires |d| > 0
    ensures Atoi(d + rest) == DigitsValue(d)
  {
    var s := d + rest;
    assert !IsSpace(s[0]);
    assert SkipSpace(s) == s;
    LeadingDigitsOfDigits(d, rest);
  }

  lemma {:induction false} LeadingDigitsOfDigits(d: string, rest: string)
    requires AllDigits(d) && (|rest| > 0 ==> !IsDigit(rest[0]))
    ensures LeadingDigits(d + rest) == d
    decreases |d|
  {
    if |d| > 0 {
      assert (d + rest)[1..] == d[1..] + rest;
      LeadingDigitsOfDigits(d[1..], rest);
      assert [d[0]] + d[1..] == d;
    } else {
      assert d + rest == rest;
    }
  }

  // ---------------------------------------------------------------------
  // Multiplication facts the solver does not find alone
  // ---------------------------------------------------------------------

  lemma {:induction false} MulAtLeast(d: int, s: int)
    requires d >= 1 && s >= 0
    ensures d * s >= s
    decreases d
  {
    if d > 1 {
      MulAtLeast(d - 1, s);
      assert d * s == (d - 1) * s + s;
    }
  }

  /** Products of non-negative factors grow with both factors. */
  lemma ScaleAtLeast(x: int, p: int, m: int, q: int)
    requires x >= m >= 0 && p >= q >= 0
    ensures x * p >= m * q
  {
    assert (x - m) * p >= 0;
    assert m * (p - q) >= 0;
  }

  lemma {:induction false} Pow10Grows(m: nat, n: nat)
    requires m <= n
    ensures Pow10(m) <= Pow10(n)
    decreases n
  {
    if m < n {
      Pow10Grows(m, n - 1);
    }
  }

  /** Consecutive multiples of `s` are `s` apart. */
  lemma MulStep(a: int, b: int, s: int)
    requires s >= 1 && a < b
    ensures a * s + s <= b * s
  {
    MulAtLeast(b - a, s);
    assert (b - a) * s == b * s - a * s;
  }

  lemma MultipleMod(m: int, s: int)
    requires s >= 1
    ensures (m * s) % s == 0
  {
    var q, r := (m * s) / s, (m * s) % s;
    assert m * s == q * s + r;
    if m < q {
      MulStep(m, q, s);
    } else if m > q {
      MulStep(q, m, s);
    }
  }
}

=== FILE: optional.dfy ===
/** The optional value used wherever the C++ code signals "nothing" with a
    sentinel: std::string::npos, an empty string, a null pointer or -1. */
module Optional {

  datatype Option<+T> = None | Some(value: T) {

    /** The wrapped value, or `default` when there is none. */
    function GetOr(default: T): T {
      match this
      case Some(v) => v
      case None => default
    }
  }
}

=== FILE: pixel_sampling.dfy ===
/** Which buffer cells the Get_*_Pixel readers touch for a pixel position
    (x, y) in a pixX by pixY tile, stored row by row. Only the index
    arithmetic is modelled; the blended values are not. */
module PixelSampling {
  import opened Optional
  import opened Numerics

  /** The cell at column `col`, row `row`. */
  function Index(col: int, row: int, pixX: int): int {
    row * pixX + col
  }

  /** (col, row) is a cell of the tile. */
  predicate InGrid(col: int, row: int, pixX: int, pixY: int) {
    0 <= col <= pixX - 1 && 0 <= row <= pixY - 1
  }

  /** The next column or row, held at the last one. */
  function Next(n: int, size: int): int {
    if n + 1 > size - 1 then size - 1 else n + 1
  }

  /** Every cell of the grid lies in the buffer. */
  lemma IndexInBounds(col: int, row: int, pixX: int, pixY: int)
    requires InGrid(col, row, pixX, pixY)
    ensures 0 <= Index(col, row, pixX) < pixX * pixY
  {
    MulStep(row, pixY, pixX);
    assert row * pixX >= 0;
  }

  /** The four cells a bilinear sample reads. */
  datatype Quad = Quad(p1: int, p2: int, p3: int, p4: int)

  /** The neighbour indices of Get_Image_Pixel, Get_Lightmap_Pixel,
      Get_Elevation_Pixel and Get_Subordinate_Elevation_Pixel: None when
      the truncated position is off the tile; otherwise the cell, its
      right neighbour, the one below and the one diagonally below, each
      folded back onto an existing cell at the right and bottom edges. */
  function Neighbours(x: real, y: real, pixX: int, pixY: int): (q: Option<Quad>)
    ensures q.None? <==> !InGrid(Trunc(x), Trunc(y), pixX, pixY)
    ensures q.Some? ==>
      var tx, ty := Trunc(x), Trunc(y);
      q.value == Quad(Index(tx, ty, pixX), Index(Next(tx, pixX), ty, pixX),
                      Index(tx, Next(ty, pixY), pixX), Index(Next(tx, pixX), Next(ty, pixY), pixX))
  {
    var tx, ty := Trunc(x), Trunc(y);
    if tx < 0 || tx > pixX - 1 || ty < 0 || ty > pixY - 1 then None
    else
      var b1 := ty * pixX + tx;
      assert b1 + pixX == (ty + 1) * pixX + tx;
      var b2, b4 := if tx == pixX - 1 then b1 else b1 + 1, if tx == pixX - 1 then b1 + pixX else b1 + pixX + 1;
      var b3 := b1 + pixX;
      var b3', b4' := if ty == pixY - 1 then b1 else b3,
                      if ty == pixY - 1 then (if tx == pixX - 1 then b1 else b2) else b4;
      Some(Quad(b1, b2, b3', b4'))
  }

  /** All four cells read lie in the buffer. */
  lemma NeighboursInBounds(x: real, y: real, pixX: int, pixY: int)
    requires Neighbours(x, y, pixX, pixY).Some?
    ensures var q := Neighbours(x, y, pixX, pixY).value;
      && 0 <= q.p1 < pixX * pixY && 0 <= q.p2 < pixX * pixY
      && 0 <= q.p3 < pixX * pixY && 0 <= q.p4 < pixX * pixY
  {
    var tx, ty := Trunc(x), Trunc(y);
    IndexInBounds(tx, ty, pixX, pixY);
    IndexInBounds(Next(tx, pixX), ty, pixX, pixY);
    IndexInBounds(tx, Next(ty, pixY), pixX, pixY);
    IndexInBounds(Next(tx, pixX), Next(ty, pixY), pixX, pixY);
  }

  // ---------------------------------------------------------------------
  // Nearest-cell readers
  // ---------------------------------------------------------------------

  /** Get_Material_Pixel and Get_Mask_Pixel as written: the bounds check
      is made on the truncated position, the cell read is the rounded
      one. */
  function MaterialIndex(x: real, y: real, pixX: int, pixY: int): (i: Option<int>)
    ensures i.None? <==> !InGrid(Trunc(x), Trunc(y), pixX, pixY)
    ensures i.Some? ==> i.value == Index(Round(x), Round(y), pixX)
  {
    var tx, ty := Trunc(x), Trunc(y);
    if tx < 0 || tx > pixX - 1 || ty < 0 || ty > pixY - 1 then None
    else Some(Round(y) * pixX + Round(x))
  }

  /** A position half a cell past the last column of the last row passes
      the check and reads one past the end of a 1024 by 1024 buffer. */
  lemma MaterialIndexPastEnd()
    ensures MaterialIndex(1023.5, 1023.0, 1024, 1024) == Some(1024 * 1024)
  {
  }

  /** A position just left of the first column truncates to column 0 and
      rounds to column -1: the cell before the buffer. */
  lemma MaterialIndexBeforeStart()
    ensures MaterialIndex(-0.75, 0.0, 1024, 1024) == Some(-1)
  {
  }

  /** The nearest cell with the rounded position held inside the tile. */
  function NearestIndex(x: real, y: real, pixX: int, pixY: int): (i: Option<int>)
    ensures i.None? <==> !InGrid(Trunc(x), Trunc(y), pixX, pixY)
    ensures i.Some? ==> 0 <= i.value < pixX * pixY
  {
    var tx, ty := Trunc(x), Trunc(y);
    if tx < 0 || tx > pixX - 1 || ty < 0 || ty > pixY - 1 then None
    else
      var col, row := Clamp(Round(x), pixX), Clamp(Round(y), pixY);
      IndexInBounds(col, row, pixX, pixY);
      Some(Index(col, row, pixX))
  }

  /** `n` held within 0 .. size - 1. */
  function Clamp(n: int, size: int): (c: int)
    requires size >= 1
    ensures 0 <= c <= size - 1
    ensures 0 <= n <= size - 1 ==> c == n
  {
    if n < 0 then 0 else if n > size - 1 then size - 1 else n
  }

  /** The corrected reader reads the same cell as the original wherever
      the original's rounded cell exists. */
  lemma NearestAgrees(x: real, y: real, pixX: int, pixY: int)
    requires MaterialIndex(x, y, pixX, pixY).Some?
    requires InGrid(Round(x), Round(y), pixX, pixY)
    ensures NearestIndex(x, y, pixX, pixY) == MaterialIndex(x, y, pixX, pixY)
  {
  }

  /** The cell read is the truncated cell or one of its next neighbours. */
  lemma NearestIsNeighbour(x: real, y: real, pixX: int, pixY: int)
    requires NearestIndex(x, y, pixX, pixY).Some?
    ensures var q := Neighbours(x, y, pixX, pixY).value;
      NearestIndex(x, y, pixX, pixY).value in {q.p1, q.p2, q.p3, q.p4}
  {
  }
}

=== FILE: strings.dfy ===
/** The std::string searches the naming code uses: find, find_last_of for a
    single character, and the separator rewriting of file paths. A search
    that fails (std::string::npos) is None. */
module Strings {
  import opened Optional

  /** `pat` occurs in `s` starting at index `i`. */
  predicate IsAt(s: string, pat: string, i: nat) {
    i + |pat| <= |s| && s[i..i + |pat|] == pat
  }

  predicate Contains(s: string, pat: string) {
    exists i: nat | i <= |s| :: IsAt(s, pat, i)
  }

  /** `s.find(pat, from)`: the first occurrence at or after `from`. */
  function FindFrom(s: string, pat: string, from: nat): (r: Option<nat>)
    ensures r.Some? ==> from <= r.value && IsAt(s, pat, r.value)
    ensures r.Some? ==> forall j: nat :: from <= j < r.value ==> !IsAt(s, pat, j)
    ensures r.None? ==> forall j: nat :: from <= j ==> !IsAt(s, pat, j)
    decreases |s| - from
  {
    if from + |pat| > |s| then None
    else if s[from..from + |pat|] == pat then Some(from)
    else FindFrom(s, pat, from + 1)
  }

  /** `s.find(pat)`: the first occurrence. */
  function Find(s: string, pat: string): (r: Option<nat>)
    ensures r.Some? ==> IsAt(s, pat, r.value)
    ensures r.Some? ==> forall j: nat :: j < r.value ==> !IsAt(s, pat, j)
    ensures r.None? <==> !Contains(s, pat)
  {
    FindFrom(s, pat, 0)
  }

  /** A pattern at the very front is the first occurrence. */
  lemma FindAtFront(s: string, pat: string)
    requires IsAt(s, pat, 0)
    ensures Find(s, pat) == Some(0)
  {
  }

  /** `s.find_last_of(c)`: the last position holding `c`. */
  function FindLastChar(s: string, c: char): (r: Option<nat>)
    ensures r.Some? ==> r.value < |s| && s[r.value] == c
    ensures r.Some? ==> forall j :: r.value < j < |s| ==> s[j] != c
    ensures r.None? <==> c !in s
  {
    if |s| == 0 then None
    else if s[|s| - 1] == c then Some(|s| - 1)
    else FindLastChar(s[..|s| - 1], c)
  }

  /** Every backslash rewritten as a forward slash. */
  function Slashes(s: string): (r: string)
    ensures |r| == |s|
    ensures forall i :: 0 <= i < |s| ==> r[i] == (if s[i] == '\\' then '/' else s[i])
  {
    if |s| == 0 then [] else [if s[0] == '\\' then '/' else s[0]] + Slashes(s[1..])
  }

  /** `s.find(c)` for a one-character pattern: the first position holding
      `c`. */
  function FindChar(s: string, c: char): (r: Option<nat>)
    ensures r.Some? ==> r.value < |s| && s[r.value] == c
    ensures r.Some? ==> forall j :: 0 <= j < r.value ==> s[j] != c
    ensures r.None? <==> c !in s
  {
    if |s| == 0 then None
    else if s[0] == c then Some(0)
    else
      match FindChar(s[1..], c)
      case None => None
      case Some(i) => Some(i + 1)
  }

  /** What is left of a path after repeatedly dropping everything up to and
      including the first '/': the text after the last '/'. */
  function AfterLastSlash(s: string): (r: string)
    ensures '/' !in r
    ensures |r| <= |s| && r == s[|s| - |r|..]
    ensures |r| < |s| ==> s[|s| - |r| - 1] == '/'
  {
    s[SlashCut(s)..]
  }

  /** Where the dropping stops: the index just past the last '/', 0 when
      there is none. */
  function SlashCut(s: string): (k: nat)
    ensures k <= |s| && '/' !in s[k..]
    ensures k > 0 ==> s[k - 1] == '/'
    decreases |s|
  {
    match FindChar(s, '/')
    case None =>
      assert s[0..] == s;
      0
    case Some(p) =>
      var t := s[p + 1..];
      var k := SlashCut(t);
      assert t[k..] == s[p + 1 + k..];
      assert k > 0 ==> t[k - 1] == s[p + k];
      p + 1 + k
  }

  // ---------------------------------------------------------------------
  // Lemmas about searches in concatenations
  // ---------------------------------------------------------------------

  /** An occurrence with none before it is what find reports. */
  lemma FindFirst(s: string, pat: string, k: nat)
    requires IsAt(s, pat, k)
    requires forall j: nat :: j < k ==> !IsAt(s, pat, j)
    ensures Find(s, pat) == Some(k)
  {
    assert Contains(s, pat);
  }

  /** A two-character pattern occurs exactly where its two characters sit
      side by side. */
  lemma PairAt(s: string, a: char, b: char, i: nat)
    ensures IsAt(s, [a, b], i) <==> i + 1 < |s| && s[i] == a && s[i + 1] == b
  {
    if i + 1 < |s| {
      assert s[i..i + 2] == [s[i], s[i + 1]];
    }
  }

  /** `a` is never directly followed by `b` in `s`. */
  predicate PairFree(s: string, a: char, b: char) {
    forall i :: 0 <= i < |s| - 1 ==> !(s[i] == a && s[i + 1] == b)
  }

  lemma PairFreeConcat(x: string, y: string, a: char, b: char)
    requires PairFree(x, a, b) && PairFree(y, a, b)
    requires |x| > 0 && |y| > 0 ==> !(x[|x| - 1] == a && y[0] == b)
    ensures PairFree(x + y, a, b)
  {
    var s := x + y;
    forall i | 0 <= i < |s| - 1
      ensures !(s[i] == a && s[i + 1] == b)
    {
      if i + 1 < |x| {
        assert s[i] == x[i] && s[i + 1] == x[i + 1];
      } else if i + 1 == |x| {
        assert s[i] == x[|x| - 1] && s[i + 1] == y[0];
      } else {
        assert s[i] == y[i - |x|] && s[i + 1] == y[i + 1 - |x|];
      }
    }
  }

  /** In `p + x`, a two-character pattern whose first character does not end
      `p` and which never occurs inside `p` starts nowhere within `p`. */
  lemma NoPairWithin(p: string, x: string, a: char, b: char)
    requires PairFree(p, a, b)
    requires |p| > 0 ==> p[|p| - 1] != a
    ensures forall j: nat :: j < |p| ==> !IsAt(p + x, [a, b], j)
  {
    var s := p + x;
    forall j: nat | j < |p|
      ensures !IsAt(s, [a, b], j)
    {
      PairAt(s, a, b, j);
      if j + 1 < |p| {
        assert s[j] == p[j] && s[j + 1] == p[j + 1];
      } else {
        assert s[j] == p[|p| - 1];
      }
    }
  }

  /** A single character is found at its first position. */
  lemma FindCharFirst(p: string, c: char, x: string)
    requires c !in p
    ensures Find(p + [c] + x, [c]) == Some(|p|)
  {
    var s := p + [c] + x;
    assert s[|p|..|p| + 1] == [c];
    forall j: nat | j < |p|
      ensures !IsAt(s, [c], j)
    {
      assert s[j..j + 1] == [p[j]];
    }
    FindFirst(s, [c], |p|);
  }

  /** Backslashes are rewritten piecewise. */
  lemma {:induction false} SlashesConcat(a: string, b: string)
    ensures Slashes(a + b) == Slashes(a) + Slashes(b)
  {
    var s := a + b;
    assert |Slashes(s)| == |Slashes(a) + Slashes(b)|;
    forall i | 0 <= i < |s|
      ensures Slashes(s)[i] == (Slashes(a) + Slashes(b))[i]
    {
      if i < |a| {
        assert s[i] == a[i];
      } else {
        assert s[i] == b[i - |a|];
      }
    }
  }

  lemma SlashesUnchanged(s: string)
    requires '\\' !in s
    ensures Slashes(s) == s
  {
  }

  /** Everything up to the last '/' is dropped. */
  lemma AfterLastSlashOf(p: string, y: string)
    requires '/' !in y
    ensures AfterLastSlash(p + "/" + y) == y
  {
    var s := p + "/" + y;
    SlashCutOf(p, y);
    assert s[|p| + 1..] == y;
  }

  /** The cut of a path ending in "/" and a name without '/' falls just
      before the name. */
  lemma {:induction false} SlashCutOf(p: string, y: string)
    requires '/' !in y
    ensures SlashCut(p + "/" + y) == |p| + 1
    decreases |p|
  {
    var s := p + "/" + y;
    assert s[|p|] == '/';
    var i := FindChar(s, '/').value;
    if i < |p| {
      assert s[i + 1..] == p[i + 1..] + "/" + y;
      SlashCutOf(p[i + 1..], y);
    } else {
      var t := s[i + 1..];
      assert t == y;
      assert FindChar(t, '/').None?;
    }
  }
}

=== FILE: tile_keys.dfy ===
/** The numeric tile key Get_TileKeyValue produces, as a number: what it
    packs, when two tiles share it, and a packing that keeps every tile of
    every CDB level of detail apart. */
module TileKeys {
  import opened Optional
  import opened Numerics
  import opened TileNames

  // ---------------------------------------------------------------------
  // The key as written
  // ---------------------------------------------------------------------

  /** While longitude, row and column each fit their three-digit field,
      the key is the four values in base-1000 positions (latitude on top,
      which may take three digits itself). */
  lemma KeyPositional(ilat: nat, ilon: nat, u: nat, r: nat)
    requires ilon < 1000 && u < 1000 && r < 1000
    ensures KeyOf(ilat, ilon, u, r) == ilat * 1_000_000_000 + ilon * 1_000_000 + u * 1000 + r
  {
    var a, b, c, d := Fmt(ilat, 2), Fmt(ilon, 3), Fmt(u, 3), Fmt(r, 3);
    FmtNatValue(ilat, 2);
    FmtNatRoundTrip(ilon, 3);
    FmtNatRoundTrip(u, 3);
    FmtNatRoundTrip(r, 3);
    assert Pow10(3) == 1000;
    DigitsValueAppend(a, b);
    DigitsValueAppend(a + b, c);
    DigitsValueAppend(a + b + c, d);
    AtoiDigits(a + b + c + d);
  }

  /** Within those widths different fields give different keys. */
  lemma KeyInjective(ilat: nat, ilon: nat, u: nat, r: nat, ilat': nat, ilon': nat, u': nat, r': nat)
    requires ilon < 1000 && u < 1000 && r < 1000
    requires ilon' < 1000 && u' < 1000 && r' < 1000
    requires KeyOf(ilat, ilon, u, r) == KeyOf(ilat', ilon', u', r')
    ensures ilat == ilat' && ilon == ilon' && u == u' && r == r'
  {
    KeyPositional(ilat, ilon, u, r);
    KeyPositional(ilat', ilon', u', r');
    Place((ilat * 1000 + ilon) * 1000 + u, r, (ilat' * 1000 + ilon') * 1000 + u', r', 1000);
    Place(ilat * 1000 + ilon, u, ilat' * 1000 + ilon', u', 1000);
    Place(ilat, ilon, ilat', ilon', 1000);
  }

  /** A quotient and a remainder below the modulus are determined by the
      number they make. */
  lemma Place(q: int, d: int, q': int, d': int, m: int)
    requires m >= 1 && 0 <= d < m && 0 <= d' < m
    requires q * m + d == q' * m + d'
    ensures q == q' && d == d'
  {
    if q < q' {
      MulStep(q, q', m);
    } else if q' < q {
      MulStep(q', q, m);
    }
  }

  /** The row and column fields overflow their width from LOD 10 on: row
      1001 with column 23 and row 100 with column 1023 make the same
      eleven-digit text. */
  lemma KeyCollision(ilat: nat, ilon: nat)
    ensures KeyOf(ilat, ilon, 1001, 23) == KeyOf(ilat, ilon, 100, 1023)
  {
    CollidingFields();
    SameTail(ilat, ilon, 1001, 23, 100, 1023);
  }

  /** "1001" + "023" and "100" + "1023" are one text. */
  lemma CollidingFields()
    ensures Fmt(1001, 3) + Fmt(23, 3) == Fmt(100, 3) + Fmt(1023, 3)
  {
    Spell1001();
    Spell1023();
    Spell23();
  }

  lemma Spell1001()
    ensures Decimal(1001) == "1001" && Decimal(100) == "100"
  {
    assert Decimal(1) == "1" && Decimal(10) == "10";
  }

  lemma Spell1023()
    ensures Decimal(1023) == "1023"
  {
    assert Decimal(1) == "1" && Decimal(10) == "10" && Decimal(102) == "102";
  }

  lemma Spell23()
    ensures Decimal(23) == "23"
  {
    assert Decimal(2) == "2";
  }

  /** Keys whose row and column text agree are equal. */
  lemma SameTail(ilat: int, ilon: int, u: int, r: int, u': int, r': int)
    requires Fmt(u, 3) + Fmt(r, 3) == Fmt(u', 3) + Fmt(r', 3)
    ensures KeyOf(ilat, ilon, u, r) == KeyOf(ilat, ilon, u', r')
  {
    var head := Fmt(ilat, 2) + Fmt(ilon, 3);
    Regroup(head, Fmt(u, 3), Fmt(r, 3));
    Regroup(head, Fmt(u', 3), Fmt(r', 3));
  }

  lemma Regroup(h: string, x: string, y: string)
    ensures h + x + y == h + (x + y)
  {
  }

  /** Two different tile files of one geocell at LOD 10, where rows and
      columns run to 1023, that Get_TileKeyValue cannot tell apart. */
  lemma TileKeyCollision(dir: string, latDir: int, lonDir: int, dataset: string, ext: string)
    requires -90 <= latDir < 90 && -180 <= lonDir < 180
    requires PlainDataset(dataset) && Extension(ext)
    ensures var f1 := TilePath(dir, latDir, lonDir, dataset, 10, 1001, 23, ext);
            var f2 := TilePath(dir, latDir, lonDir, dataset, 10, 100, 1023, ext);
      f1 != f2 && TileKeyValue(f1) == TileKeyValue(f2)
  {
    CollidingFields();
    RowsRunTogether(dir, latDir, lonDir, dataset, 10, 1001, 23, 100, 1023, ext);
  }

  /** The path of a tile file with the given fields. */
  function TilePath(dir: string, latDir: int, lonDir: int, dataset: string, lod: int, u: nat, r: nat, ext: string): string {
    dir + "\\" + BaseName(Tokens(LatToken(latDir), LonToken(lonDir), LodToken(lod), "U" + Decimal(u), "R" + Decimal(r)), dataset, ext)
  }

  /** Tiles of different rows whose row and column text run together into
      the same digits have different paths and the same key. */
  lemma RowsRunTogether(dir: string, latDir: int, lonDir: int, dataset: string, lod: int,
                        u: nat, r: nat, u': nat, r': nat, ext: string)
    requires -90 <= latDir < 90 && -180 <= lonDir < 180
    requires PlainDataset(dataset) && Extension(ext)
    requires u != u' && Fmt(u, 3) + Fmt(r, 3) == Fmt(u', 3) + Fmt(r', 3)
    ensures var f1 := TilePath(dir, latDir, lonDir, dataset, lod, u, r, ext);
            var f2 := TilePath(dir, latDir, lonDir, dataset, lod, u', r', ext);
      f1 != f2 && TileKeyValue(f1) == TileKeyValue(f2)
  {
    TileKeyOfFile(dir, latDir, lonDir, dataset, lod, u, r, ext);
    TileKeyOfFile(dir, latDir, lonDir, dataset, lod, u', r', ext);
    SameTail(latDir + 90, lonDir + 180, u, r, u', r');
    BaseFields(latDir, lonDir, dataset, lod, u, r, ext);
    BaseFields(latDir, lonDir, dataset, lod, u', r', ext);
    TileFile(dir, latDir, lonDir, dataset, lod, u, r, ext);
    TileFile(dir, latDir, lonDir, dataset, lod, u', r', ext);
    assert Decimal(u) != Decimal(u') by {
      assert DigitsValue(Decimal(u)) != DigitsValue(Decimal(u'));
    }
  }

  /** The last component of a tile path is the tile's base name. */
  lemma TileFile(dir: string, latDir: int, lonDir: int, dataset: string, lod: int, u: nat, r: nat, ext: string)
    requires PlainDataset(dataset) && Extension(ext)
    ensures FileOfPath(TilePath(dir, latDir, lonDir, dataset, lod, u, r, ext))
         == BaseName(Tokens(LatToken(latDir), LonToken(lonDir), LodToken(lod), "U" + Decimal(u), "R" + Decimal(r)), dataset, ext)
  {
    DigitsHaveNo(Decimal(u), '/');
    DigitsHaveNo(Decimal(u), '\\');
    DigitsHaveNo(Decimal(r), '/');
    DigitsHaveNo(Decimal(r), '\\');
    FileOfTile(dir, Tokens(LatToken(latDir), LonToken(lonDir), LodToken(lod), "U" + Decimal(u), "R" + Decimal(r)), dataset, ext);
  }

  // ---------------------------------------------------------------------
  // A key that keeps tiles apart
  // ---------------------------------------------------------------------

  /** Rows and columns of a geocell at CDB's deepest level of detail, 23. */
  const Span: nat := 8388608

  /** From LOD 20 rows and columns reach seven digits, and then the key of
      a tile from 10 degrees north needs twenty: more than `_atoi64` can
      return in 64 bits. Latitude 89, longitude 179, row and column
      1048575 give 17935910485751048575. */
  lemma KeyPastInt64(ilat: nat, ilon: nat, u: nat, r: nat)
    requires 100 <= ilat && 1_000_000 <= u && 1_000_000 <= r
    ensures KeyOf(ilat, ilon, u, r) > 0x7FFF_FFFF_FFFF_FFFF
  {
    var a, b, c, d := Fmt(ilat, 2), Fmt(ilon, 3), Fmt(u, 3), Fmt(r, 3);
    FmtNatValue(ilat, 2);
    FmtNatValue(ilon, 3);
    FmtNatValue(u, 3);
    FmtNatValue(r, 3);
    assert Pow10(6) == 1_000_000;
    DecimalExceeds(u, 6);
    DecimalExceeds(r, 6);
    DigitsPastInt64(a, b, c, d);
    AtoiDigits(a + b + c + d);
  }

  /** Digit strings of at least 3 + 3 + 7 + 7 digits, the first worth at
      least 100, read as more than 2^63 - 1. */
  lemma DigitsPastInt64(a: string, b: string, c: string, d: string)
    requires AllDigits(a) && AllDigits(b) && AllDigits(c) && AllDigits(d)
    requires DigitsValue(a) >= 100 && |b| >= 3 && |c| >= 7 && |d| >= 7
    ensures AllDigits(a + b + c + d) && DigitsValue(a + b + c + d) > 0x7FFF_FFFF_FFFF_FFFF
  {
    DigitsValueAppend(a, b);
    DigitsValueAppend(a + b, c);
    DigitsValueAppend(a + b + c, d);
    Pow10Grows(3, |b|);
    Pow10Grows(7, |c|);
    Pow10Grows(7, |d|);
    assert Pow10(3) == 1000 && Pow10(7) == 10_000_000;
    var ab, abc := DigitsValue(a + b), DigitsValue(a + b + c);
    ScaleAtLeast(DigitsValue(a), Pow10(|b|), 100, 1000);
    ScaleAtLeast(ab, Pow10(|c|), 100_000, 10_000_000);
    ScaleAtLeast(abc, Pow10(|d|), 1_000_000_000_000, 10_000_000);
  }

  /** Latitude (0..179), longitude (0..359), row and column packed in
      mixed radix: one value per tile, within a signed 64-bit integer. */
  function PackedKey(ilat: nat, ilon: nat, u: nat, r: nat): int {
    ((ilat * 360 + ilon) * Span + u) * Span + r
  }

  predicate InRange(ilat: nat, ilon: nat, u: nat, r: nat) {
    ilat < 180 && ilon < 360 && u < Span && r < Span
  }

  /** The packed key fits in __int64. */
  lemma PackedKeyFits(ilat: nat, ilon: nat, u: nat, r: nat)
    requires InRange(ilat, ilon, u, r)
    ensures 0 <= PackedKey(ilat, ilon, u, r) < 0x8000_0000_0000_0000
  {
    var a := ilat * 360 + ilon;
    MulStep(a, 64800, Span);
    MulStep(a * Span + u, 64800 * Span, Span);
  }

  /** Distinct tiles in range get distinct packed keys. */
  lemma PackedKeyInjective(ilat: nat, ilon: nat, u: nat, r: nat, ilat': nat, ilon': nat, u': nat, r': nat)
    requires InRange(ilat, ilon, u, r) && InRange(ilat', ilon', u', r')
    requires PackedKey(ilat, ilon, u, r) == PackedKey(ilat', ilon', u', r')
    ensures ilat == ilat' && ilon == ilon' && u == u' && r == r'
  {
    Place((ilat * 360 + ilon) * Span + u, r, (ilat' * 360 + ilon') * Span + u', r', Span);
    Place(ilat * 360 + ilon, u, ilat' * 360 + ilon', u', Span);
    Place(ilat, ilon, ilat', ilon', 360);
  }

  /** Get_TileKeyValue with the packed key: the same fields, -1 for a
      missing field or one out of range. */
  function PackedKeyOfName(w: string): (key: Option<int>)
    ensures key.None? <==> |w| < 4
    ensures key.Some? && key.value != -1 ==> 0 <= key.value < 0x8000_0000_0000_0000
  {
    if |w| < 4 then None
    else if |w| == 4 || |UPart(w)| == 0 || |RPart(w)| == 0 then Some(-1)
    else
      var ilat, ilon, u, r := LatField(w) + 90, LonField(w) + 180, Atoi(UPart(w)), Atoi(RPart(w));
      if 0 <= ilat && 0 <= ilon && 0 <= u && 0 <= r && InRange(ilat, ilon, u, r) then
        PackedKeyFits(ilat, ilon, u, r);
        Some(PackedKey(ilat, ilon, u, r))
      else Some(-1)
  }

  /** The corrected key read back from any tile file whose row and column
      exist at some CDB level of detail. */
  lemma PackedKeyOfFile(dir: string, latDir: int, lonDir: int, dataset: string, lod: int, u: nat, r: nat, ext: string)
    requires -90 <= latDir < 90 && -180 <= lonDir < 180 && u < Span && r < Span
    requires PlainDataset(dataset) && Extension(ext)
    ensures PackedKeyOfName(FileOfPath(TilePath(dir, latDir, lonDir, dataset, lod, u, r, ext)))
         == Some(PackedKey(latDir + 90, lonDir + 180, u, r))
  {
    var base := BaseName(Tokens(LatToken(latDir), LonToken(lonDir), LodToken(lod), "U" + Decimal(u), "R" + Decimal(r)), dataset, ext);
    TileFile(dir, latDir, lonDir, dataset, lod, u, r, ext);
    BaseFields(latDir, lonDir, dataset, lod, u, r, ext);
    AtoiDecimal(u);
    AtoiDecimal(r);
    PackedFields(base, latDir, lonDir, u, r);
  }

  lemma PackedFields(w: string, latDir: int, lonDir: int, u: nat, r: nat)
    requires -90 <= latDir < 90 && -180 <= lonDir < 180 && u < Span && r < Span
    requires |w| >= 7 && LatField(w) == latDir && LonField(w) == lonDir
    requires |UPart(w)| > 0 && |RPart(w)| > 0 && Atoi(UPart(w)) == u && Atoi(RPart(w)) == r
    ensures PackedKeyOfName(w) == Some(PackedKey(latDir + 90, lonDir + 180, u, r))
  {
    var ilat: nat, ilon: nat := latDir + 90, lonDir + 180;
    assert InRange(ilat, ilon, u, r);
    assert |w| != 4 && |UPart(w)| != 0 && |RPart(w)| != 0;
    PackedKeyOfFields(w, ilat, ilon, u, r);
  }

  /** PackedKeyOfName on a name whose fields are already known. */
  lemma PackedKeyOfFields(w: string, ilat: nat, ilon: nat, u: nat, r: nat)
    requires |w| > 4 && |UPart(w)| > 0 && |RPart(w)| > 0
    requires LatField(w) + 90 == ilat && LonField(w) + 180 == ilon && Atoi(UPart(w)) == u && Atoi(RPart(w)) == r
    requires InRange(ilat, ilon, u, r)
    ensures PackedKeyOfName(w) == Some(PackedKey(ilat, ilon, u, r))
  {
  }

  /** With the packed key, two tile files share a key only if they name the
      same latitude, longitude, row and column. */
  lemma PackedKeysSeparateTiles(dir: string, dataset: string, ext: string, lod: int,
                                latDir: int, lonDir: int, u: nat, r: nat,
                                latDir': int, lonDir': int, u': nat, r': nat)
    requires -90 <= latDir < 90 && -180 <= lonDir < 180 && u < Span && r < Span
    requires -90 <= latDir' < 90 && -180 <= lonDir' < 180 && u' < Span && r' < Span
    requires PlainDataset(dataset) && Extension(ext)
    requires PackedKeyOfName(FileOfPath(TilePath(dir, latDir, lonDir, dataset, lod, u, r, ext)))
          == PackedKeyOfName(FileOfPath(TilePath(dir, latDir', lonDir', dataset, lod, u', r', ext)))
    ensures latDir == latDir' && lonDir == lonDir' && u == u' && r == r'
  {
    PackedKeyOfFile(dir, latDir, lonDir, dataset, lod, u, r, ext);
    PackedKeyOfFile(dir, latDir', lonDir', dataset, lod, u', r', ext);
    PackedKeyInjective(latDir + 90, lonDir + 180, u, r, latDir' + 90, lonDir' + 180, u', r');
  }
}

=== FILE: tile_lifecycle.dfy ===
/** The life of one raster tile: which band buffers it holds, which of its
    three datasets (primary, subordinate, second subordinate) are open, and
    its status, through Allocate_Buffers, Free_Buffers, Close_Dataset,
    Open_Tile, Read, Load_Tile and Fill_Tile. The pixel contents are not
    modelled, only which buffers are written; opening a file and a raster
    read are outcomes passed in. */
module TileLifecycle {
  import opened TileNames

  datatype Status = Created | Opened | Loaded

  /** The band buffers a tile can hold. */
  datatype Band = RgbBands | LightmapBands | MaterialBand | MaskBand | ElevationBand | SubordinateBand

  /** The tile state the lifecycle touches. In the setup, `sub` is the
      subordinate (light map, or subordinate elevation) file, `sub2` the
      material file and `subTile` marks a composite whose contributors
      carry subordinates; `po`, `so`, `so2` tell whether the primary,
      subordinate and material datasets are open. */
  datatype Tile = Tile(kind: TileType, setup: Setup, ds: Datasets, status: Status,
                       buffers: set<Band>, haveMaterial: bool, haveMask: bool)

  /** What the constructor found and was configured with. */
  datatype Setup = Setup(fileExists: bool, fromGlobal: bool, sub: bool, sub2: bool,
                         subTile: bool, maskEnabled: bool)

  /** Which datasets are open. */
  datatype Datasets = Datasets(po: bool, so: bool, so2: bool)

  predicate ImageryKind(k: TileType) {
    k == Imagery || k == ImageryCache
  }

  predicate ElevationKind(k: TileType) {
    k == Elevation || k == ElevationCache
  }

  /** The buffers Allocate_Buffers provides for the tile's type and
      subordinates: colour bands, light-map bands, or the material band
      (and its mask band when enabled) for imagery; the elevation band
      (and the subordinate band) for elevation. */
  function Needed(t: Tile): set<Band> {
    if ImageryKind(t.kind) then
      if !t.setup.sub && !t.setup.sub2 then {RgbBands}
      else if t.setup.sub then {LightmapBands}
      else if t.setup.maskEnabled then {MaterialBand, MaskBand} else {MaterialBand}
    else if ElevationKind(t.kind) then
      if t.setup.sub || t.setup.subTile then {ElevationBand, SubordinateBand} else {ElevationBand}
    else {}
  }

  // ---------------------------------------------------------------------
  // Buffers
  // ---------------------------------------------------------------------

  /** Allocate_Buffers: every needed buffer present afterwards, buffers
      already held kept, nothing else allocated and nothing else changed. */
  function Allocate(t: Tile): (u: Tile)
    ensures Needed(t) <= u.buffers && t.buffers <= u.buffers
    ensures forall b :: b in u.buffers ==> b in t.buffers || b in Needed(t)
    ensures u == t.(buffers := u.buffers)
  {
    t.(buffers := t.buffers + Needed(t))
  }

  /** Allocating twice allocates nothing more. */
  lemma AllocateIdempotent(t: Tile)
    ensures Allocate(Allocate(t)) == Allocate(t)
  {
  }

  /** Free_Buffers: no buffer left; a loaded tile drops back to Opened if
      its primary dataset is open and to Created if not; any other status
      is kept. */
  function Free(t: Tile): (u: Tile)
    ensures u.buffers == {} && u.status != Loaded
    ensures t.status != Loaded ==> u.status == t.status
    ensures t.status == Loaded ==> (u.status == Opened <==> t.ds.po)
    ensures u == t.(buffers := {}, status := u.status)
  {
    var status := if t.status == Loaded then (if t.ds.po then Opened else Created) else t.status;
    t.(buffers := {}, status := status)
  }

  /** Freeing twice is freeing once. */
  lemma FreeIdempotent(t: Tile)
    ensures Free(Free(t)) == Free(t)
  {
  }

  // ---------------------------------------------------------------------
  // Datasets
  // ---------------------------------------------------------------------

  /** Close_Dataset as written: closes the primary and subordinate datasets
      and resets the status, but leaves the material dataset open. */
  function CloseAsWritten(t: Tile): (u: Tile)
    ensures !u.ds.po && !u.ds.so && u.status == Created
    ensures u.ds.so2 == t.ds.so2
    ensures u.kind == t.kind && u.setup == t.setup && u.buffers == t.buffers
    ensures u.haveMaterial == t.haveMaterial && u.haveMask == t.haveMask
  {
    t.(ds := t.ds.(po := false, so := false), status := Created)
  }

  /** Close_Dataset closing all three datasets. */
  function Close(t: Tile): (u: Tile)
    ensures NothingOpen(u) && u.status == Created
    ensures u.kind == t.kind && u.setup == t.setup && u.buffers == t.buffers
    ensures u.haveMaterial == t.haveMaterial && u.haveMask == t.haveMask
  {
    t.(ds := Datasets(false, false, false), status := Created)
  }

  predicate NothingOpen(t: Tile) {
    !t.ds.po && !t.ds.so && !t.ds.so2
  }

  /** The two closes agree except on the material dataset. */
  lemma CloseDiffersOnlyInMaterial(t: Tile)
    ensures Close(t) == CloseAsWritten(t).(ds := Datasets(false, false, false))
    ensures t.ds.so2 ==> CloseAsWritten(t) != Close(t)
  {
  }

  /** Free_Resources (and the destructor) as written: close, then free;
      the material dataset stays open exactly when it was open. */
  function FreeResourcesAsWritten(t: Tile): (u: Tile)
    ensures !u.ds.po && !u.ds.so && u.buffers == {} && u.status == Created
    ensures u.ds.so2 <==> t.ds.so2
    ensures NothingOpen(u) <==> !t.ds.so2
    ensures u.kind == t.kind && u.setup == t.setup
  {
    Free(CloseAsWritten(t))
  }

  /** Free_Resources with the corrected close: nothing left open. */
  function FreeResources(t: Tile): (u: Tile)
    ensures NothingOpen(u) && u.buffers == {} && u.status == Created
    ensures u.kind == t.kind && u.setup == t.setup
    ensures u == FreeResourcesAsWritten(t).(ds := Datasets(false, false, false))
  {
    Free(Close(t))
  }

  /** What opening each of the tile's files would give. */
  datatype Files = Files(primary: bool, subordinate: bool, material: bool)

  /** Every dataset the tile's Read uses is open. */
  predicate ReadyToRead(t: Tile) {
    if ImageryKind(t.kind) then
      if !t.setup.sub && !t.setup.sub2 then t.ds.po else if t.setup.sub then t.ds.so else t.ds.so2
    else if ElevationKind(t.kind) then
      t.ds.po && (t.setup.sub ==> t.ds.so) && (t.setup.sub2 ==> t.ds.so2)
    else true
  }

  predicate RasterKind(k: TileType) {
    ImageryKind(k) || ElevationKind(k)
  }

  /** Open_Tile. A tile not sharing a global dataset whose primary dataset
      is open is already open. The two model layers and the GeoPackage map
      open through their own routines, whose outcome is `delegated`. An
      elevation tile opens its primary dataset and each subordinate it
      has; an imagery tile opens exactly one: primary, subordinate or
      material. It fails when one of those does not open, and otherwise
      is Opened. */
  function OpenTile(t: Tile, files: Files, delegated: bool): (r: Outcome)
    ensures !t.setup.fromGlobal && t.ds.po ==> r == Outcome(t, true)
    ensures !(!t.setup.fromGlobal && t.ds.po) && RasterKind(t.kind) ==>
      && (r.ok <==> ReadyToRead(r.tile))
      && (r.ok ==> r.tile.status == Opened)
      && (!r.ok ==> r.tile.status == t.status)
    ensures r.tile == t.(ds := r.tile.ds, status := r.tile.status)
  {
    if !t.setup.fromGlobal && t.ds.po then Outcome(t, true)
    else if t.kind == GeoTypicalModel || t.kind == GeoSpecificModel || t.kind == GeoPackageMap then
      Outcome(t, delegated)
    else if RasterKind(t.kind) then OpenRaster(t, files)
    else Outcome(t.(status := Opened), true)
  }

  /** The raster half of Open_Tile: the datasets an elevation or imagery
      tile needs are opened, and the tile is Opened when they all are. */
  function OpenRaster(t: Tile, files: Files): (r: Outcome)
    requires RasterKind(t.kind)
    ensures r.ok <==> ReadyToRead(r.tile)
    ensures r.ok ==> r.tile.status == Opened
    ensures !r.ok ==> r.tile.status == t.status
    ensures r.tile == t.(ds := r.tile.ds, status := r.tile.status)
  {
    if ElevationKind(t.kind) then
      var u := t.(ds := Datasets(files.primary,
                                 if t.setup.sub then files.subordinate else t.ds.so,
                                 if t.setup.sub2 then files.material else t.ds.so2));
      if !u.ds.po || (t.setup.sub && !u.ds.so) || (t.setup.sub2 && !u.ds.so2) then Outcome(u, false)
      else Outcome(u.(status := Opened), true)
    else if !t.setup.sub && !t.setup.sub2 then
      var u := t.(ds := t.ds.(po := files.primary));
      if !u.ds.po then Outcome(u, false) else Outcome(u.(status := Opened), true)
    else if t.setup.sub then
      var u := t.(ds := t.ds.(so := files.subordinate));
      if !u.ds.so then Outcome(u, false) else Outcome(u.(status := Opened), true)
    else
      var u := t.(ds := t.ds.(so2 := files.material));
      if !u.ds.so2 then Outcome(u, false) else Outcome(u.(status := Opened), true)
  }

  /** The files a raster tile needs all open. */
  predicate OpenSucceeds(t: Tile, files: Files) {
    if ImageryKind(t.kind) then
      if !t.setup.sub && !t.setup.sub2 then files.primary else if t.setup.sub then files.subordinate else files.material
    else files.primary && (t.setup.sub ==> files.subordinate) && (t.setup.sub2 ==> files.material)
  }

  /** A raster tile with nothing open opens exactly when its files do. */
  lemma OpenFreshTile(t: Tile, files: Files, delegated: bool)
    requires RasterKind(t.kind) && NothingOpen(t)
    ensures OpenTile(t, files, delegated).ok <==> OpenSucceeds(t, files)
  {
  }


  // ---------------------------------------------------------------------
  // Reading
  // ---------------------------------------------------------------------

  /** A tile after an operation and whether it reported success. */
  datatype Outcome = Outcome(tile: Tile, ok: bool)

  /** A read either finishes or dereferences a dataset that is not open. */
  datatype ReadStep = Finished(out: Outcome) | NullDataset

  datatype Dataset = Primary | Subordinate | Material

  datatype MaybeDataset = NoDataset | Reads(dataset: Dataset)

  function IsOpen(t: Tile, d: Dataset): bool {
    match d
    case Primary => t.ds.po
    case Subordinate => t.ds.so
    case Material => t.ds.so2
  }

  /** The dataset Read takes its first band from: the primary for colour
      imagery and elevation, the light-map (subordinate) dataset for a
      light-map tile, the material dataset for a material tile. */
  function FirstRead(t: Tile): (d: MaybeDataset)
    ensures RasterKind(t.kind) ==> d.Reads?
    ensures RasterKind(t.kind) && ReadyToRead(t) ==> IsOpen(t, d.dataset)
  {
    if ImageryKind(t.kind) then
      if !t.setup.sub && !t.setup.sub2 then Reads(Primary) else if t.setup.sub then Reads(Subordinate) else Reads(Material)
    else if ElevationKind(t.kind) then Reads(Primary)
    else NoDataset
  }

  /** The dataset Read takes its first band from as written: the primary
      dataset in the light-map branch too. */
  function FirstReadAsWritten(t: Tile): (d: MaybeDataset)
    ensures !(ImageryKind(t.kind) && t.setup.sub) ==> d == FirstRead(t)
    ensures ImageryKind(t.kind) && t.setup.sub ==> d == Reads(Primary) && FirstRead(t) == Reads(Subordinate)
  {
    if ImageryKind(t.kind) && t.setup.sub then Reads(Primary) else FirstRead(t)
  }

  /** How the raster reads of one Read go: the read of the first band
      (colour, light map, material or elevation) and the second read, of
      the material mask band or of the subordinate elevation band, where
      the tile makes one. */
  datatype Io = Io(first: bool, second: bool)

  predicate AllReadsSucceed(io: Io) {
    io.first && io.second
  }

  /** The one failing read that leaves a mark: a material tile whose
      material band is read, setting its material flag and clearing its
      mask flag, and whose mask band then fails to read. */
  predicate MaskReadFails(t: Tile, io: Io, maskBands: int) {
    && ImageryKind(t.kind) && !t.setup.sub && t.setup.sub2 && t.setup.maskEnabled
    && maskBands > 1 && io.first && !io.second
  }

  /** Read, taking the first band from `first`: false with no dataset
      open; true at once when already loaded; otherwise the bands of the
      tile's kind are read (the material branch noting material data, and
      mask data when the mask is enabled and the material file has more
      than one band; the elevation branch failing when its subordinate
      dataset is missing) and the tile is Loaded. A failed read changes
      nothing, except a failed mask read after the material band was read.
      When the first dataset is not open, a `guarded` read fails and an
      unguarded one dereferences it. */
  function ReadVia(t: Tile, first: MaybeDataset, guarded: bool, io: Io, maskBands: int): (r: ReadStep)
    ensures NothingOpen(t) ==> r == Finished(Outcome(t, false))
    ensures !NothingOpen(t) && t.status == Loaded ==> r == Finished(Outcome(t, true))
    ensures r.NullDataset? <==>
      !guarded && !NothingOpen(t) && t.status != Loaded && first.Reads? && !IsOpen(t, first.dataset)
    ensures r.Finished? && r.out.ok ==> r.out.tile.status == Loaded
    ensures r.Finished? && !r.out.ok ==>
      r.out.tile == t || (MaskReadFails(t, io, maskBands) && r.out.tile == t.(haveMaterial := true, haveMask := false))
    ensures !NothingOpen(t) && t.status != Loaded && !(first.Reads? && !IsOpen(t, first.dataset))
            && MaskReadFails(t, io, maskBands) ==>
      r == Finished(Outcome(t.(haveMaterial := true, haveMask := false), false))
    ensures r.Finished? && r.out.ok && t.status != Loaded && ImageryKind(t.kind) && !t.setup.sub && t.setup.sub2 ==>
      r.out.tile.haveMaterial && r.out.tile.haveMask == (if t.setup.maskEnabled then maskBands > 1 else t.haveMask)
  {
    if NothingOpen(t) then Finished(Outcome(t, false))
    else if t.status == Loaded then Finished(Outcome(t, true))
    else if first.Reads? && !IsOpen(t, first.dataset) then
      if guarded then Finished(Outcome(t, false)) else NullDataset
    else if RasterKind(t.kind) && !io.first then Finished(Outcome(t, false))
    else if ImageryKind(t.kind) && !t.setup.sub && t.setup.sub2 then
      var u := t.(haveMaterial := true);
      if !t.setup.maskEnabled then Finished(Outcome(u.(status := Loaded), true))
      else if maskBands <= 1 then Finished(Outcome(u.(haveMask := false, status := Loaded), true))
      else if !io.second then Finished(Outcome(u.(haveMask := false), false))
      else Finished(Outcome(u.(haveMask := true, status := Loaded), true))
    else if ElevationKind(t.kind) && t.setup.sub && (!t.ds.so || !io.second) then Finished(Outcome(t, false))
    else Finished(Outcome(t.(status := Loaded), true))
  }

  /** Read as written: the light-map bands come from the primary dataset,
      and a dataset that is not open is dereferenced. */
  function ReadAsWritten(t: Tile, io: Io, maskBands: int): (r: ReadStep)
    ensures !(ImageryKind(t.kind) && t.setup.sub) && r.Finished? ==> r == Read(t, io, maskBands)
  {
    ReadVia(t, FirstReadAsWritten(t), false, io, maskBands)
  }

  /** Read taking the light-map bands from the light-map dataset and
      failing, not dereferencing, when the dataset it reads is not open. */
  function Read(t: Tile, io: Io, maskBands: int): (r: ReadStep)
    ensures r.Finished?
    ensures RasterKind(t.kind) && ReadyToRead(t) && t.status != Loaded && AllReadsSucceed(io) ==>
      r.out.ok && r.out.tile.status == Loaded
  {
    ReadVia(t, FirstRead(t), true, io, maskBands)
  }

  /** A fresh light-map tile whose light map exists opens, and the read
      that follows dereferences the primary dataset Open_Tile never
      opened; the corrected read loads it. */
  lemma LightmapReadDereferencesPrimary()
    ensures var t := Allocate(FreshLightmapTile());
      var o := OpenTile(t, Files(false, true, false), false);
      && o.ok
      && ReadAsWritten(o.tile, Io(true, true), 0) == NullDataset
      && Read(o.tile, Io(true, true), 0).Finished? && Read(o.tile, Io(true, true), 0).out.ok
  {
  }

  /** A just-constructed imagery tile with a light map. */
  function FreshLightmapTile(): Tile {
    Tile(Imagery, Setup(true, false, true, false, false, false),
         Datasets(false, false, false), Created, {}, false, false)
  }

  /** Whatever a raster tile opens, the corrected read that follows a
      successful open loads the tile when the raster reads succeed. */
  lemma OpenThenRead(t: Tile, files: Files, delegated: bool, io: Io, maskBands: int)
    requires RasterKind(t.kind) && (t.setup.fromGlobal || !t.ds.po)
    requires OpenTile(t, files, delegated).ok
    ensures var r := Read(OpenTile(t, files, delegated).tile, io, maskBands);
      AllReadsSucceed(io) ==> r.out.ok
  {
  }

  /** Load_Tile: true at once when loaded; false when the file does not
      exist; otherwise allocate, open and read. */
  function LoadTile(t: Tile, files: Files, delegated: bool, io: Io, maskBands: int): (r: Outcome)
    ensures t.status == Loaded ==> r == Outcome(t, true)
    ensures t.status != Loaded && !t.setup.fileExists ==> r == Outcome(t, false)
    ensures r.ok <==> r.tile.status == Loaded
    ensures r.ok && t.status != Loaded ==> Needed(t) <= r.tile.buffers
  {
    if t.status == Loaded then Outcome(t, true)
    else if !t.setup.fileExists then Outcome(t, false)
    else
      var o := OpenTile(Allocate(t), files, delegated);
      if !o.ok then Outcome(o.tile, false)
      else Read(o.tile, io, maskBands).out
  }

  /** A raster tile with nothing open whose files exist and open loads
      when the raster reads succeed. */
  lemma LoadFreshTile(t: Tile, files: Files, delegated: bool, maskBands: int)
    requires RasterKind(t.kind) && NothingOpen(t) && t.status != Loaded && t.setup.fileExists
    requires OpenSucceeds(t, files)
    ensures var r := LoadTile(t, files, delegated, Io(true, true), maskBands);
      r.ok && Needed(t) <= r.tile.buffers
  {
    OpenFreshTile(Allocate(t), files, delegated);
    OpenThenRead(Allocate(t), files, delegated, Io(true, true), maskBands);
  }

  /** Load_Tile as written: the read that follows a successful open is
      Read as written, which may dereference a dataset that is not open.
      Away from light-map tiles it agrees with the corrected load. */
  function LoadTileAsWritten(t: Tile, files: Files, delegated: bool, io: Io, maskBands: int): (r: ReadStep)
    ensures t.status == Loaded ==> r == Finished(Outcome(t, true))
    ensures t.status != Loaded && !t.setup.fileExists ==> r == Finished(Outcome(t, false))
    ensures r.Finished? ==> (r.out.ok <==> r.out.tile.status == Loaded)
    ensures r.Finished? && !(ImageryKind(t.kind) && t.setup.sub) ==> r.out == LoadTile(t, files, delegated, io, maskBands)
  {
    if t.status == Loaded then Finished(Outcome(t, true))
    else if !t.setup.fileExists then Finished(Outcome(t, false))
    else
      var o := OpenTile(Allocate(t), files, delegated);
      if !o.ok then Finished(Outcome(o.tile, false))
      else ReadAsWritten(o.tile, io, maskBands)
  }

  /** As written, loading a fresh light-map tile whose light map exists
      dereferences the primary dataset; the corrected load loads it. */
  lemma LoadFreshLightmapAsWritten(delegated: bool, io: Io, maskBands: int)
    ensures LoadTileAsWritten(FreshLightmapTile(), Files(false, true, false), delegated, io, maskBands) == NullDataset
    ensures AllReadsSucceed(io) ==> LoadTile(FreshLightmapTile(), Files(false, true, false), delegated, io, maskBands).ok
  {
  }

  /** As written, a material tile that was opened and then released
      (Free_Resources, or the destructor) still holds its material
      dataset; released with the corrected close it holds none. */
  lemma MaterialDatasetOutlivesRelease(t: Tile, files: Files)
    requires t.kind == Imagery && !t.setup.sub && t.setup.sub2 && NothingOpen(t)
    requires OpenTile(t, files, false).ok
    ensures FreeResourcesAsWritten(OpenTile(t, files, false).tile).ds.so2
    ensures NothingOpen(FreeResources(OpenTile(t, files, false).tile))
  {
  }

  // ---------------------------------------------------------------------
  // Filling
  // ---------------------------------------------------------------------

  /** The buffers Fill_Tile writes as written: the imagery branch tests
      "no light map and a material file" where the cache branch tests
      "neither", so plain imagery is left unfilled and a material tile has
      its colour bands written. */
  function FillAsWritten(t: Tile): (written: set<Band>)
    ensures t.kind != Imagery ==> written == Fill(t)
  {
    if t.kind == Imagery then
      if !t.setup.sub && t.setup.sub2 then {RgbBands}
      else if t.setup.sub then {LightmapBands}
      else {}
    else Fill(t)
  }

  /** Fill_Tile with the imagery branch testing what the cache branch
      tests: the colour, light-map or material (and mask) bands for
      imagery, the elevation band (and the subordinate band of a composite
      with subordinates) for elevation. */
  function Fill(t: Tile): (written: set<Band>)
    ensures written <= Needed(t)
    ensures ImageryKind(t.kind) ==> written == Needed(t)
    ensures ElevationKind(t.kind) ==> ElevationBand in written && (SubordinateBand in written <==> t.setup.subTile)
    ensures !RasterKind(t.kind) ==> written == {}
  {
    if ImageryKind(t.kind) then
      if !t.setup.sub && !t.setup.sub2 then {RgbBands}
      else if t.setup.sub then {LightmapBands}
      else if t.setup.maskEnabled then {MaterialBand, MaskBand} else {MaterialBand}
    else if ElevationKind(t.kind) then
      if t.setup.subTile then {ElevationBand, SubordinateBand} else {ElevationBand}
    else {}
  }

  /** As written, an imagery tile with only a material file has its
      unallocated colour bands written. */
  lemma FillWritesUnallocated(t: Tile)
    requires t.kind == Imagery && !t.setup.sub && t.setup.sub2
    ensures RgbBands in FillAsWritten(t) && RgbBands !in Allocate(t.(buffers := {})).buffers
  {
  }

  /** As written, a plain imagery tile has its colour bands left as
      allocated, unfilled. */
  lemma FillSkipsPlainImagery(t: Tile)
    requires t.kind == Imagery && !t.setup.sub && !t.setup.sub2
    ensures FillAsWritten(t) == {} && Needed(t) == {RgbBands}
  {
  }
}

=== FILE: tile_names.dfy ===
/** The names a CDB tile goes by: the path tokens GetPathComponents writes
    (N/Sxx, E/Wxxx, Lnn or LCnn, Uy, Rx), the layer table and file layout of
    the CDB_Tile constructor, and Get_TileKeyValue, which reads a tile file
    name back into the number the vector-tile registry is keyed by. */
module TileNames {
  import opened Optional
  import opened Numerics
  import opened Strings
  import opened Geocells

  // ---------------------------------------------------------------------
  // Path tokens
  // ---------------------------------------------------------------------

  /** The latitude directory token: hemisphere letter, then |lat| in at
      least two digits. */
  function LatToken(latDir: int): (t: string)
    ensures |t| >= 3 && (t[0] == 'S' <==> latDir < 0) && (t[0] == 'N' <==> latDir >= 0)
    ensures PlainToken(t)
    ensures -100 < latDir < 100 ==> |t| == 3 && AllDigits(t[1..]) && DigitsValue(t[1..]) == Abs(latDir)
  {
    var p := if latDir < 0 then "S" else "N";
    PlainPrefixes();
    var v: nat := Abs(latDir);
    var t := p + Fmt(v, 2);
    PrefixedField(p, v, 2, t);
    assert Pow10(2) == 100;
    t
  }

  /** The longitude directory token: hemisphere letter, then |lon| in at
      least three digits. */
  function LonToken(lonDir: int): (t: string)
    ensures |t| >= 4 && (t[0] == 'W' <==> lonDir < 0) && (t[0] == 'E' <==> lonDir >= 0)
    ensures PlainToken(t)
    ensures -1000 < lonDir < 1000 ==> |t| == 4 && AllDigits(t[1..]) && DigitsValue(t[1..]) == Abs(lonDir)
  {
    var p := if lonDir < 0 then "W" else "E";
    PlainPrefixes();
    var v: nat := Abs(lonDir);
    var t := p + Fmt(v, 3);
    PrefixedField(p, v, 3, t);
    assert Pow10(3) == 1000;
    t
  }

  /** The LOD token: "LC" and the number of halvings above one geocell for a
      cache (negative) LOD, "L" and the LOD otherwise, in at least two
      digits. */
  function LodToken(lod: int): (t: string)
    ensures |t| >= 3 && t[0] == 'L'
    ensures lod < 0 <==> t[1] == 'C'
    ensures PlainToken(t)
    ensures 0 <= lod < 100 ==> |t| == 3 && AllDigits(t[1..]) && DigitsValue(t[1..]) == lod
    ensures -100 < lod < 0 ==> |t| == 4 && AllDigits(t[2..]) && DigitsValue(t[2..]) == -lod
  {
    assert Pow10(2) == 100;
    PlainPrefixes();
    if lod < 0 then
      var v: nat := -lod;
      var t := "LC" + Fmt(v, 2);
      PrefixedField("LC", v, 2, t);
      assert t[..2][1] == 'C';
      t
    else
      var t := "L" + Fmt(lod, 2);
      PrefixedField("L", lod, 2, t);
      t
  }

  /** A path token: no field separator ('_'), extension dot or path
      separator in it. */
  predicate PlainToken(s: string) {
    '_' !in s && '.' !in s && NoSeparator(s)
  }

  /** The letters the path tokens start with are plain. */
  lemma PlainPrefixes()
    ensures PlainToken("N") && PlainToken("S") && PlainToken("E") && PlainToken("W")
    ensures PlainToken("L") && PlainToken("LC")
  {
  }

  /** A token made of a letter prefix and a number under setfill('0') and
      setw(w): the prefix, then only digits, at least w of them, exactly w
      when the number fits, reading back as the number. */
  lemma PrefixedField(p: string, v: nat, w: nat, t: string)
    requires w >= 2 && |p| >= 1 && PlainToken(p)
    requires t == p + Fmt(v, w)
    ensures && |t| >= |p| + w && t[0] == p[0] && t[..|p|] == p && t[|p|..] == Fmt(v, w)
      && AllDigits(t[|p|..]) && IsDigit(t[|p|]) && IsDigit(t[|t| - 1])
      && PlainToken(t)
      && (v < Pow10(w) ==> |t| == |p| + w && DigitsValue(t[|p|..]) == v)
  {
    var f := Fmt(v, w);
    FmtNatValue(v, w);
    FmtWhenFits(v, w);
    DigitsAreNoSeparators(f);
    assert t[|p|..] == f && t[..|p|] == p;
    assert t[|p|] == f[0] && t[|t| - 1] == f[|f| - 1];
  }

  /** The row token ('U') or column token ('R'): the letter and "0" at
      LOD 0 and below, where a geocell holds a single tile, and the letter
      and the row or column otherwise. */
  function IndexRef(letter: char, lod: int, n: int): (t: string)
    ensures lod < 1 ==> t == [letter, '0']
    ensures lod >= 1 && n >= 0 ==> t == [letter] + Decimal(n)
    ensures n >= 0 ==> t == [letter] + Decimal(RowOrZero(lod, n))
  {
    [letter] + (if lod < 1 then "0" else Signed(n))
  }

  /** The row or column a token names: zero below LOD 1. */
  function RowOrZero(lod: int, n: nat): nat {
    if lod < 1 then 0 else n
  }

  /** The five path components of a tile location. */
  datatype Tokens = Tokens(lat: string, lon: string, lod: string, u: string, r: string)

  function PathTokens(loc: Location): (t: Tokens)
    ensures |t.lat| >= 3 && t.lat[0] == (if loc.latDir < 0 then 'S' else 'N')
    ensures |t.lon| >= 4 && t.lon[0] == (if loc.lonDir < 0 then 'W' else 'E')
    ensures |t.lod| >= 3 && t.lod[0] == 'L' && (t.lod[1] == 'C' <==> loc.lod < 0)
    ensures loc.lod < 1 ==> t.u == "U0" && t.r == "R0"
  {
    Tokens(LatToken(loc.latDir), LonToken(loc.lonDir), LodToken(loc.lod),
           IndexRef('U', loc.lod, loc.row), IndexRef('R', loc.lod, loc.col))
  }

  /** Reading a latitude token back: the sign from the letter, the
      magnitude from the digits. */
  lemma {:induction false} LatTokenRoundTrip(latDir: int)
    requires -100 < latDir < 100
    ensures var t := LatToken(latDir);
      (if t[0] == 'S' then -Atoi(t[1..3]) else Atoi(t[1..3])) == latDir
  {
    var t := LatToken(latDir);
    assert t[1..3] == t[1..];
    AtoiDigits(t[1..]);
  }

  lemma {:induction false} LonTokenRoundTrip(lonDir: int)
    requires -1000 < lonDir < 1000
    ensures var t := LonToken(lonDir);
      (if t[0] == 'W' then -Atoi(t[1..4]) else Atoi(t[1..4])) == lonDir
  {
    var t := LonToken(lonDir);
    assert t[1..4] == t[1..];
    AtoiDigits(t[1..]);
  }

  lemma {:induction false} LodTokenRoundTrip(lod: int)
    requires -100 < lod < 100
    ensures var t := LodToken(lod);
      (if t[1] == 'C' then -Atoi(t[2..]) else Atoi(t[1..])) == lod
  {
    var t := LodToken(lod);
    if lod < 0 {
      AtoiDigits(t[2..]);
    } else {
      AtoiDigits(t[1..]);
    }
  }

  // ---------------------------------------------------------------------
  // Layers and file layout
  // ---------------------------------------------------------------------

  datatype TileType =
    | Elevation | ElevationCache | Imagery | ImageryCache
    | GeoPackageMap | GeoSpecificModel | GeoTypicalModel | Unknown

  /** What the constructor derives from the requested tile type: the type
      the tile ends up with, its layer directory, its file extension and
      its dataset code ("_Dnnn" followed by the configured selectors). */
  datatype LayerSpec = LayerSpec(kind: TileType, layer: string, ext: string, dataset: string)

  /** The layer table of the CDB_Tile constructor. `lod` is the LOD the
      path was computed with, `nlod` the cache level the tile was
      constructed for (0 when none), `baseMapLod` the first LOD at which
      the vector base map is a GeoPackage, `useGpkg` whether features come
      from GeoPackages. Cache types are not accepted as requests. */
  function Layer(requested: TileType, selectors: string, lod: int, nlod: int, baseMapLod: int, useGpkg: bool): (s: LayerSpec)
    ensures |s.dataset| >= 5 && s.dataset[..2] == "_D"
    ensures |s.ext| >= 1 && s.ext[0] == '.'
    ensures s.kind == ElevationCache <==> requested == Elevation && lod < 0 && nlod == 0
    ensures s.kind == ImageryCache <==> requested == Imagery && lod < 0 && nlod == 0
    ensures s.kind == Unknown <==> requested !in {Elevation, Imagery, GeoPackageMap, GeoSpecificModel, GeoTypicalModel}
    ensures s.kind != Unknown ==> s.dataset == s.dataset[..5] + selectors
  {
    var cache := lod < 0 && nlod == 0;
    match requested
    case Elevation =>
      LayerSpec(if cache then ElevationCache else Elevation, "001_Elevation",
                if cache then ".img" else ".tif", "_D001" + selectors)
    case Imagery =>
      LayerSpec(if cache then ImageryCache else Imagery, "004_Imagery",
                if cache then ".tif" else ".jp2", "_D004" + selectors)
    case GeoPackageMap =>
      LayerSpec(GeoPackageMap, "901_VectorBase", if lod < baseMapLod then ".xml" else ".gpkg", "_D901" + selectors)
    case GeoSpecificModel =>
      LayerSpec(GeoSpecificModel, "100_GSFeature", if useGpkg then ".gpkg" else ".shp", "_D100" + selectors)
    case GeoTypicalModel =>
      LayerSpec(GeoTypicalModel, "101_GTFeature", if useGpkg then ".gpkg" else ".shp", "_D101" + selectors)
    case _ =>
      LayerSpec(Unknown, "", ".unk", "_DUNK_SUNK_TUNK_")
  }

  /** The tile file name proper: tokens, dataset code, LOD, row, column,
      extension. */
  function BaseName(t: Tokens, dataset: string, ext: string): string {
    t.lat + t.lon + dataset + t.lod + "_" + t.u + "_" + t.r + ext
  }

  /** The directory a tile file sits in. A cache tile built on the fly
      (negative LOD, no cache level) lives in the cache directory under its
      layer; a stored cache tile under Tiles/lat/lon/layer/LC/U; a native
      tile under Tiles/lat/lon/layer/LOD/U. */
  function TileDirectory(root: string, cacheDir: string, layer: string, t: Tokens, lod: int, nlod: int): string {
    if lod < 0 && nlod == 0 then cacheDir + "\\" + layer
    else if lod < 0 then root + "\\Tiles\\" + t.lat + "\\" + t.lon + "\\" + layer + "\\LC\\" + t.u
    else root + "\\Tiles\\" + t.lat + "\\" + t.lon + "\\" + layer + "\\" + t.lod + "\\" + t.u
  }

  /** The tile's file name (m_FileName). With global data it is instead the
      name of a layer of the global dataset: the layer, the selectors after
      the dataset number, "Pnt_" and the LOD token. */
  function TileFileName(root: string, cacheDir: string, spec: LayerSpec, t: Tokens, lod: int, nlod: int, fromGlobal: bool): (name: string)
    requires |spec.dataset| >= 5
    ensures fromGlobal ==> name == spec.layer + spec.dataset[5..] + "Pnt_" + t.lod
    ensures !fromGlobal ==> |name| > |BaseName(t, spec.dataset, spec.ext)|
    ensures !fromGlobal ==> name[|name| - |BaseName(t, spec.dataset, spec.ext)|..] == BaseName(t, spec.dataset, spec.ext)
    ensures !fromGlobal ==> name[..|name| - |BaseName(t, spec.dataset, spec.ext)|] == TileDirectory(root, cacheDir, spec.layer, t, lod, nlod) + "\\"
  {
    if fromGlobal then spec.layer + spec.dataset[5..] + "Pnt_" + t.lod
    else
      var dir := TileDirectory(root, cacheDir, spec.layer, t, lod, nlod) + "\\";
      var base := BaseName(t, spec.dataset, spec.ext);
      assert (dir + base)[|dir|..] == base && (dir + base)[..|dir|] == dir;
      dir + base
  }

  // ---------------------------------------------------------------------
  // Get_TileKeyValue
  // ---------------------------------------------------------------------

  /** The last component of a path, with either separator. */
  function FileOfPath(path: string): (name: string)
    ensures '/' !in name && '\\' !in name
  {
    AfterLastSlash(Slashes(path))
  }

  /** The digits after the first "_U", up to the next '_'; empty when
      either is missing. */
  function UPart(w: string): string {
    match Find(w, "_U")
    case None => ""
    case Some(p) =>
      if p + 2 < |w| then
        var rest := w[p + 2..];
        match Find(rest, "_")
        case None => ""
        case Some(n) => rest[..n]
      else ""
  }

  /** The digits after the first "_R", up to the next '.'. */
  function RPart(w: string): string {
    match Find(w, "_R")
    case None => ""
    case Some(p) =>
      if p + 2 < |w| then
        var rest := w[p + 2..];
        match Find(rest, ".")
        case None => ""
        case Some(n) => rest[..n]
      else ""
  }

  /** The key as Get_TileKeyValue assembles it: latitude + 90 in two
      digits, longitude + 180, row and column in three each, read back as
      one number. Nothing stops a field from taking more digits than its
      width. */
  function KeyOf(ilat: int, ilon: int, u: int, r: int): int {
    Atoi(Fmt(ilat, 2) + Fmt(ilon, 3) + Fmt(u, 3) + Fmt(r, 3))
  }

  /** Get_TileKeyValue: None where std::string::substr throws (a file name
      shorter than four characters), -1 when the latitude, longitude, row
      or column text is missing, the key otherwise. */
  function TileKeyValue(path: string): (key: Option<int>)
    ensures key.None? <==> |FileOfPath(path)| < 4
  {
    KeyOfName(FileOfPath(path))
  }

  /** Get_TileKeyValue once the directories are stripped from the path. */
  function KeyOfName(w: string): (key: Option<int>)
    ensures key.None? <==> |w| < 4
    ensures key.Some? && (|w| == 4 || |UPart(w)| == 0 || |RPart(w)| == 0) ==> key == Some(-1)
  {
    if |w| < 4 then None
    else if |w| == 4 || |UPart(w)| == 0 || |RPart(w)| == 0 then Some(-1)
    else Some(KeyOf(LatField(w) + 90, LonField(w) + 180, Atoi(UPart(w)), Atoi(RPart(w))))
  }

  /** The latitude a file name starts with: two characters after the
      hemisphere letter, negated for 'S'. */
  function LatField(w: string): int
    requires |w| >= 3
  {
    if w[0] == 'S' then -Atoi(w[1..3]) else Atoi(w[1..3])
  }

  /** The longitude: up to three characters after the letter at index 3,
      negated for 'W'. */
  function LonField(w: string): int
    requires |w| >= 5
  {
    var text := w[4..if |w| < 7 then |w| else 7];
    if w[3] == 'W' then -Atoi(text) else Atoi(text)
  }

  // ---------------------------------------------------------------------
  // Reading a tile name back
  // ---------------------------------------------------------------------

  /** No path separator of either kind. */
  predicate NoSeparator(s: string) {
    '/' !in s && '\\' !in s
  }

  /** A dataset code Get_TileKeyValue can read past: no "_U" or "_R" in it,
      no path separator. */
  predicate PlainDataset(dataset: string) {
    PairFree(dataset, '_', 'U') && PairFree(dataset, '_', 'R') && NoSeparator(dataset)
  }

  /** An extension: a '.' first, no path separator. */
  predicate Extension(ext: string) {
    |ext| >= 1 && ext[0] == '.' && NoSeparator(ext)
  }

  /** Round-trip: the key read back from the file of any tile, in any
      directory, is the key of its latitude, longitude, row and column. */
  lemma TileKeyOfFile(dir: string, latDir: int, lonDir: int, dataset: string, lod: int, u: nat, r: nat, ext: string)
    requires -100 < latDir < 100 && -1000 < lonDir < 1000
    requires PlainDataset(dataset) && Extension(ext)
    ensures var base := BaseName(Tokens(LatToken(latDir), LonToken(lonDir), LodToken(lod),
                                        "U" + Decimal(u), "R" + Decimal(r)), dataset, ext);
      TileKeyValue(dir + "\\" + base) == Some(KeyOf(latDir + 90, lonDir + 180, u, r))
  {
    var t := Tokens(LatToken(latDir), LonToken(lonDir), LodToken(lod), "U" + Decimal(u), "R" + Decimal(r));
    var path := dir + "\\" + BaseName(t, dataset, ext);
    DigitsHaveNo(Decimal(u), '/');
    DigitsHaveNo(Decimal(u), '\\');
    DigitsHaveNo(Decimal(r), '/');
    DigitsHaveNo(Decimal(r), '\\');
    FileOfTile(dir, t, dataset, ext);
    KeyOfPath(path, BaseName(t, dataset, ext));
    KeyOfBaseName(latDir, lonDir, dataset, lod, u, r, ext);
  }

  /** Get_TileKeyValue reads only the last component of the path. */
  lemma KeyOfPath(path: string, w: string)
    requires FileOfPath(path) == w
    ensures TileKeyValue(path) == KeyOfName(w)
  {
  }

  /** The same for the bare file name. */
  lemma KeyOfBaseName(latDir: int, lonDir: int, dataset: string, lod: int, u: nat, r: nat, ext: string)
    requires -100 < latDir < 100 && -1000 < lonDir < 1000
    requires PlainDataset(dataset) && Extension(ext)
    ensures var base := BaseName(Tokens(LatToken(latDir), LonToken(lonDir), LodToken(lod),
                                        "U" + Decimal(u), "R" + Decimal(r)), dataset, ext);
      KeyOfName(base) == Some(KeyOf(latDir + 90, lonDir + 180, u, r))
  {
    var base := BaseName(Tokens(LatToken(latDir), LonToken(lonDir), LodToken(lod),
                                "U" + Decimal(u), "R" + Decimal(r)), dataset, ext);
    BaseFields(latDir, lonDir, dataset, lod, u, r, ext);
    AtoiDecimal(u);
    AtoiDecimal(r);
    KeyOfFields(base, latDir, lonDir, u, r);
  }

  /** Get_TileKeyValue on a name whose four fields hold the given values. */
  lemma KeyOfFields(w: string, latDir: int, lonDir: int, u: nat, r: nat)
    requires |w| >= 7 && LatField(w) == latDir && LonField(w) == lonDir
    requires |UPart(w)| > 0 && |RPart(w)| > 0 && Atoi(UPart(w)) == u && Atoi(RPart(w)) == r
    ensures KeyOfName(w) == Some(KeyOf(latDir + 90, lonDir + 180, u, r))
  {
    KeyOfPresentFields(w);
    KeyOfSame(LatField(w) + 90, LonField(w) + 180, Atoi(UPart(w)), Atoi(RPart(w)), latDir + 90, lonDir + 180, u, r);
  }

  lemma KeyOfSame(a: int, b: int, c: int, d: int, a': int, b': int, c': int, d': int)
    requires a == a' && b == b' && c == c' && d == d'
    ensures KeyOf(a, b, c, d) == KeyOf(a', b', c', d')
  {
  }

  lemma KeyOfPresentFields(w: string)
    requires |w| >= 7 && |UPart(w)| > 0 && |RPart(w)| > 0
    ensures KeyOfName(w) == Some(KeyOf(LatField(w) + 90, LonField(w) + 180, Atoi(UPart(w)), Atoi(RPart(w))))
  {
  }

  lemma AtoiDecimal(n: nat)
    ensures Atoi(Decimal(n)) == n
  {
    AtoiDigits(Decimal(n));
  }

  /** Each field of a tile's base name reads back as written. */
  lemma BaseFields(latDir: int, lonDir: int, dataset: string, lod: int, u: nat, r: nat, ext: string)
    requires -100 < latDir < 100 && -1000 < lonDir < 1000
    requires PlainDataset(dataset) && Extension(ext)
    ensures var w := BaseName(Tokens(LatToken(latDir), LonToken(lonDir), LodToken(lod),
                                     "U" + Decimal(u), "R" + Decimal(r)), dataset, ext);
      && |w| >= 7 && LatField(w) == latDir && LonField(w) == lonDir
      && UPart(w) == Decimal(u) && RPart(w) == Decimal(r)
  {
    var lat, lon, lt := LatToken(latDir), LonToken(lonDir), LodToken(lod);
    var x, y := "U" + Decimal(u), "R" + Decimal(r);
    HeadShape(lat, lon, dataset, lt, x, y, ext);
    HeadFields(latDir, lonDir, dataset + lt + "_" + x + "_" + y + ext);
    RowColumnFields(lat, lon, dataset, lt, Decimal(u), Decimal(r), ext);
  }

  /** Regrouping a base name around its two directory tokens. */
  lemma HeadShape(lat: string, lon: string, dataset: string, lod: string, x: string, y: string, ext: string)
    ensures lat + lon + dataset + lod + "_" + x + "_" + y + ext
         == lat + lon + (dataset + lod + "_" + x + "_" + y + ext)
  {
  }

  /** Regrouping a base name around its row and column fields. */
  lemma FieldShape(p: string, du: string, dr: string, ext: string)
    ensures p + "_" + ("U" + du) + "_" + ("R" + dr) + ext == p + "_U" + du + ("_R" + dr + ext)
  {
  }

  /** The row and column fields of a base name read back as written. */
  lemma RowColumnFields(lat: string, lon: string, dataset: string, lod: string, du: string, dr: string, ext: string)
    requires '_' !in lat && '_' !in lon && '_' !in lod && |lat| > 0 && |lon| > 0
    requires |lod| > 0 && lod[0] == 'L'
    requires PairFree(dataset, '_', 'U') && PairFree(dataset, '_', 'R')
    requires AllDigits(du) && |du| > 0 && AllDigits(dr) && |dr| > 0
    requires |ext| > 0 && ext[0] == '.'
    ensures var w := lat + lon + dataset + lod + "_" + ("U" + du) + "_" + ("R" + dr) + ext;
      UPart(w) == du && RPart(w) == dr
  {
    var p := lat + lon + dataset + lod;
    FieldShape(p, du, dr, ext);
    PrefixPairFree(lat, lon, dataset, lod);
    RowText(p, du, "_R" + dr + ext);
    ColumnText(p, du, dr, ext);
  }

  /** The latitude and longitude fields of a name that starts with the two
      directory tokens. */
  lemma HeadFields(latDir: int, lonDir: int, rest: string)
    requires -100 < latDir < 100 && -1000 < lonDir < 1000
    ensures var w := LatToken(latDir) + LonToken(lonDir) + rest;
      |w| >= 7 && LatField(w) == latDir && LonField(w) == lonDir
  {
    var lat, lon := LatToken(latDir), LonToken(lonDir);
    HeadText(lat, lon, rest);
    LatTokenRoundTrip(latDir);
    LonTokenRoundTrip(lonDir);
  }

  /** The file of a tile path is its base name. */
  lemma FileOfTile(dir: string, t: Tokens, dataset: string, ext: string)
    requires NoSeparator(t.lat) && NoSeparator(t.lon) && NoSeparator(t.lod) && NoSeparator(t.u) && NoSeparator(t.r)
    requires NoSeparator(dataset) && NoSeparator(ext)
    ensures FileOfPath(dir + "\\" + BaseName(t, dataset, ext)) == BaseName(t, dataset, ext)
  {
    var base := BaseName(t, dataset, ext);
    assert forall c :: c in base ==> c in t.lat || c in t.lon || c in t.lod || c in t.u || c in t.r || c in dataset || c in ext || c == '_';
    SlashesConcat(dir + "\\", base);
    SlashesConcat(dir, "\\");
    SlashesUnchanged(base);
    assert Slashes("\\") == "/";
    AfterLastSlashOf(Slashes(dir), base);
  }

  /** The hemisphere letters and digit fields sit at fixed offsets. */
  lemma HeadText(lat: string, lon: string, rest: string)
    requires |lat| == 3 && |lon| == 4
    ensures var w := lat + lon + rest;
      && w[0] == lat[0] && w[1..3] == lat[1..3] && w[3] == lon[0] && w[4..7] == lon[1..4]
  {
  }

  /** Tokens and an admissible dataset code never put "_U" or "_R" before
      the row field. */
  lemma PrefixPairFree(lat: string, lon: string, dataset: string, lod: string)
    requires '_' !in lat && '_' !in lon && '_' !in lod && |lat| > 0 && |lon| > 0
    requires |lod| > 0 && lod[0] == 'L'
    requires PairFree(dataset, '_', 'U') && PairFree(dataset, '_', 'R')
    ensures var p := lat + lon + dataset + lod;
      PairFree(p, '_', 'U') && PairFree(p, '_', 'R') && p[|p| - 1] != '_'
  {
    PairFreeConcat(lat, lon, '_', 'U');
    PairFreeConcat(lat, lon, '_', 'R');
    assert (lat + lon)[|lat + lon| - 1] == lon[|lon| - 1];
    PairFreeConcat(lat + lon, dataset, '_', 'U');
    PairFreeConcat(lat + lon, dataset, '_', 'R');
    PairFreeConcat(lat + lon + dataset, lod, '_', 'U');
    PairFreeConcat(lat + lon + dataset, lod, '_', 'R');
    var p := lat + lon + dataset + lod;
    assert p[|p| - 1] == lod[|lod| - 1];
  }

  /** The row field is found where it was written: the first "_U" ends
      the prefix, the first '_' after it ends the digits. */
  lemma RowText(p: string, du: string, rest: string)
    requires PairFree(p, '_', 'U') && |p| > 0 && p[|p| - 1] != '_'
    requires AllDigits(du) && |du| > 0 && |rest| > 0 && rest[0] == '_'
    ensures UPart(p + "_U" + du + rest) == du
  {
    assert p + "_U" + du + rest == p + ['_', 'U'] + (du + ['_'] + rest[1..]);
    DigitsHaveNo(du, '_');
    FieldFound(p, '_', 'U', du, '_', rest[1..]);
  }

  /** The column field is found where it was written: the first "_R"
      follows the row digits, the first '.' after it starts the extension. */
  lemma ColumnText(p: string, du: string, dr: string, ext: string)
    requires PairFree(p, '_', 'R') && |p| > 0 && p[|p| - 1] != '_'
    requires AllDigits(du) && |du| > 0 && AllDigits(dr) && |dr| > 0
    requires |ext| > 0 && ext[0] == '.'
    ensures RPart(p + "_U" + du + ("_R" + dr + ext)) == dr
  {
    var q := p + "_U" + du;
    RowFieldPairFree(p, du);
    assert q + ("_R" + dr + ext) == q + ['_', 'R'] + (dr + ['.'] + ext[1..]);
    DigitsHaveNo(dr, '.');
    FieldFound(q, '_', 'R', dr, '.', ext[1..]);
  }

  /** A prefix without "_R" followed by the row field still has none, and
      ends in a digit. */
  lemma RowFieldPairFree(p: string, du: string)
    requires PairFree(p, '_', 'R') && |p| > 0 && p[|p| - 1] != '_'
    requires AllDigits(du) && |du| > 0
    ensures var q := p + "_U" + du; PairFree(q, '_', 'R') && q[|q| - 1] != '_'
  {
    RowDigitsPairFree(du);
    PairFreeConcat(p, "_U" + du, '_', 'R');
    var q := p + "_U" + du;
    assert q[|q| - 1] == du[|du| - 1];
  }

  /** In p, the pair a b, a field d and a stop character c: the first a b
      is the one after p, and the first c after it ends d. */
  lemma FieldFound(p: string, a: char, b: char, d: string, c: char, x: string)
    requires PairFree(p, a, b) && (|p| > 0 ==> p[|p| - 1] != a) && c !in d
    ensures var w := p + [a, b] + (d + [c] + x);
      && Find(w, [a, b]) == Some(|p|) && |p| + 2 < |w|
      && w[|p| + 2..] == d + [c] + x
      && Find(d + [c] + x, [c]) == Some(|d|) && (d + [c] + x)[..|d|] == d
  {
    var tail := d + [c] + x;
    var w := p + [a, b] + tail;
    NoPairWithin(p, [a, b] + tail, a, b);
    assert w == p + ([a, b] + tail);
    assert w[|p|..|p| + 2] == [a, b];
    FindFirst(w, [a, b], |p|);
    assert w[|p| + 2..] == tail;
    FindCharFirst(d, c, x);
    assert tail[..|d|] == d;
  }

  lemma RowDigitsPairFree(du: string)
    requires AllDigits(du)
    ensures PairFree("_U" + du, '_', 'R')
  {
    var x := "_U" + du;
    forall i | 0 <= i < |x| - 1
      ensures !(x[i] == '_' && x[i + 1] == 'R')
    {
      assert x[i + 1] == 'U' || IsDigit(x[i + 1]);
    }
  }

  lemma DigitsHaveNo(d: string, c: char)
    requires AllDigits(d) && !IsDigit(c)
    ensures c !in d
  {
  }
}

=== FILE: versions.dfy ===
/** Which behaviour a model of code with a known defect follows. */
module Versions {
  /** The code as written, or the code with the defect corrected. */
  datatype Version = AsWritten | Corrected
}
